=== FILE: README.md ===
# E-Shop-Mobile core, modelled in Dafny

E-Shop-Mobile is a marketplace. A Node/Express backend stores everything in MongoDB
through Mongoose. A React Native client is the storefront.

This project models the parts of both sides that carry the shop's rules:

- **Authentication on the backend.** The e-mail OTP flow handles registration,
  verification, resend, rate limiting and attempt counting. The bearer-token guards
  decide who may use a route.
- **Chat.** The REST handlers create, list and update conversations and messages.
  The WebSocket relay binds user ids to sockets and forwards each saved message to
  both ends. A heartbeat sweep drops dead sockets.
- **Orders.** An order is split per shop. Delivering an order counts stock down.
  A refund counts it back up.
- **Products.** The listing queries use comma lists, price ranges, paging and
  total pages. Related products and reviews (with the rating average) are here too.
  The recommendation feed picks the newest 20 products and shows 6 of them.
- **Notifications and uploads.** Notifications are created, listed and marked read.
  The upload filter decides the stored file name, accepts only images and enforces
  a 5 MB limit.
- **On the mobile client.** The axios instance attaches the token and refreshes it
  once on a 401. The WebSocket provider identifies itself and tracks unread counts.
  The product tiles handle the wishlist heart and the discount badge.

Each handler is a pure function. It takes the Mongo collections it touches as maps
or sequences and returns the new collections with the HTTP reply.

JavaScript values are modelled in `Js`: truthiness, `||`, `??`, `String(x)` and
numbers with NaN. A Mongoose `findById` with a malformed id gives a cast error, and
that is `ObjectIds.FindById`. Every store is keyed by the lower-case hex form of its
documents' ObjectIds, and a requested id is looked up in that form, because casting
it to an ObjectId ignores the letter case of its hex digits. Mongo's filter, sort, skip and limit are in `Ordering`.
Clocks, random choices, the JWT library, the mailer and the storage backends are
parameters.

## Model

| member | source | states |
|---|---|---|
| AuthMiddleware.ExtractToken | backend/middleware/auth.js:9-13 | a token is found only when the header starts with the case-sensitive word "Bearer"; the token is the second space-separated field and is never empty and never contains a space; no header, or any other scheme, gives no token |
| AuthMiddleware.Guard | backend/middleware/auth.js:7-29 | 401 exactly when no token can be extracted; the request goes on with the stored user exactly when the token verifies to an id naming a stored user; 404 exactly when that well-formed id names nobody |
| AuthMiddleware.IsAdmin | backend/middleware/auth.js:56-62 | the request goes on exactly when the user's role is among the allowed roles, otherwise 403 |
| AuthMiddleware.BearerFieldRoundTrip | backend/middleware/auth.js:12 | "Bearer t" and "Bearer t more" both yield exactly t: only the second field counts |
| AuthMiddleware.NoSpaceNoToken | backend/middleware/auth.js:11-17 | a header with no space, such as "Bearerxyz", yields no token and so a 401 |
| AuthMiddleware.DoubleSpaceNoToken | backend/middleware/auth.js:12 | "Bearer  x" splits into an empty second field, so no token is found |
| AuthMiddleware.LowerCaseSchemeRejected | backend/middleware/auth.js:11 | "bearer x" is refused, because the scheme test is case-sensitive |
| AuthMiddleware.ValidTokenPasses | backend/middleware/auth.js:19-28 | a verifying token whose id names a stored user, in either letter case, lets the request through carrying that user |
| AuthMiddleware.DeletedShopIs404 | backend/middleware/auth.js:43-49 | a seller token whose shop has been deleted is answered 404, not 401 |
| ChatRelay.Route | backend/chat-ws-server.js:93-99 | a recipient is reachable exactly when its id is non-empty, bound to a socket, and that socket is open |
| ChatRelay.HandleFrame | backend/chat-ws-server.js:30-112 | an unparseable or null frame changes nothing and sends nothing; IDENTIFY with a truthy userId binds String(userId) to this connection; any other frame that is not a chat message changes nothing; no socket appears or disappears and the relay's invariant is kept |
| ChatRelay.HandleFrameAsWritten | backend/chat-ws-server.js:31-40 | the literal frame `null` throws a TypeError; every other frame is handled as HandleFrame handles it |
| ChatRelay.Connect | backend/chat-ws-server.js:25-28 | a new socket starts open and alive; everything else is unchanged and the invariant is kept |
| ChatRelay.Pong | backend/chat-ws-server.js:28 | a pong marks the socket alive |
| ChatRelay.Close | backend/chat-ws-server.js:115-119 | the socket becomes closed and the user id it identified as, when non-empty, is unbound; the invariant is kept |
| ChatRelay.Sweep | backend/chat-ws-server.js:123-129 | live sockets that missed the last ping are terminated and the rest are pinged and marked not alive; the two groups are disjoint and closed sockets are untouched |
| ChatRelay.Step | backend/chat-ws-server.js:25-129 | every event keeps the relay's invariant, and only a received frame sends anything |
| ChatRelay.Run | backend/chat-ws-server.js:25-129 | any sequence of events keeps the relay's invariant |
| ChatRelay.MarkAsSeenIsNoOp | backend/chat-ws-server.js:51-55 | MARK_AS_SEEN changes nothing and sends nothing |
| ChatRelay.StoreGrowsOnlyOnSavedChat | backend/chat-ws-server.js:58-68 | a saved chat frame appends exactly its message to the store; every other frame, and a chat whose save fails, leaves the store unchanged |
| ChatRelay.PersistedMessage | backend/chat-ws-server.js:60-65 | exactly one message is appended, with the fresh id and the frame's conversation; its text is messageBody, else text, else ""; its sender is fromUserId when that is truthy |
| ChatRelay.MissingConversationOverwritesFirst | backend/chat-ws-server.js:58-78 | a saved chat frame without a conversationId overwrites the preview of the first stored conversation and of no other |
| ChatRelay.NoPreviewWithoutTarget | backend/chat-ws-server.js:71-78 | a null conversationId, or a failed update, leaves every conversation unchanged |
| ChatRelay.PreviewFollowsSavedMessage | backend/chat-ws-server.js:71-78 | after a saved chat the conversation's preview and last message id are those of the saved message |
| ChatRelay.ForwardingIgnoresUpdateFailure | backend/chat-ws-server.js:71-108 | the frames sent and the messages stored are the same whether or not the conversation update fails |
| ChatRelay.RoutingOfSavedChat | backend/chat-ws-server.js:80-108 | a saved chat sends at most two frames, each carrying the saved message; a connection gets one exactly when the recipient or the sender is routed to it |
| ChatRelay.DeliveriesGoToOpenRegistered | backend/chat-ws-server.js:93-108 | every frame goes to an open socket that some user id is bound to |
| ChatRelay.OfflineGetsNothing | backend/chat-ws-server.js:93-99 | a connection no user id is bound to receives nothing, and a chat whose save fails changes nothing and sends nothing |
| ChatRelay.CloseUnbindsReboundKey | backend/chat-ws-server.js:115-119 | when a user has re-identified on a newer socket, closing the stale one still unbinds the user and leaves the newer socket as it was |
| ChatRelay.RebindThenCloseLosesUser | backend/chat-ws-server.js:40-119 | after two sockets identify as the same user and the first closes, the second is open and identified as that user, yet the user is unreachable |
| ChatRelay.TwoSweepsWithoutPongTerminate | backend/chat-ws-server.js:123-129 | a live socket that sends no pong is terminated by the first or the second sweep |
| ChatRelay.PongKeepsAlive | backend/chat-ws-server.js:28-129 | an open socket that answers the first sweep's ping is alive and survives the second sweep, unless the first sweep terminated it |
| ChatRelay.NullFrameRejectsAsWritten | backend/chat-ws-server.js:31-40 | the as-written handler throws on the frame `null`, where the guarded handler ignores it |
| ChatClient.Mount | Frontend/context/web-socket.context.tsx:22-32 | a socket starts connecting exactly when the session user's `_id` or `id` is truthy, for that id; otherwise nothing changes |
| ChatClient.OnOpen | Frontend/context/web-socket.context.tsx:34-43 | opening sends exactly one frame, an IDENTIFY carrying the session user id |
| ChatClient.OnMessage | Frontend/context/web-socket.context.tsx:45-57 | UNSEEN_COUNT_UPDATE with a payload sets that conversation's count and keeps every other count; every other frame leaves the provider unchanged |
| ChatClient.Cleanup | Frontend/context/web-socket.context.tsx:67-78 | unmounting drops the socket and keeps the counts |
| ChatClient.OnMessageIdempotent | Frontend/context/web-socket.context.tsx:45-57 | receiving the same frame twice has the effect of receiving it once |
| ChatClient.RelayFramesLeaveCountsAlone | Frontend/context/web-socket.context.tsx:47-56 | no frame the relay sends changes the unread counts |
| ChatClient.SignInRegistersWithRelay | Frontend/context/web-socket.context.tsx:34-43 | the IDENTIFY frame sent on open makes the relay bind the user's id to this connection |
| ChatClient.TotalUnread | Frontend/hooks/useUnreadMessages.ts:38-41 | with no conversations loaded the total is 0 |
| ChatClient.SumAppend | Frontend/hooks/useUnreadMessages.ts:38-41 | the total over two lists is the sum of their totals |
| ChatClient.SumNonNegative | Frontend/hooks/useUnreadMessages.ts:38-41 | non-negative counts give a non-negative total, and no conversation's count exceeds the total |
| ChatClient.ServerListingTotalsZero | Frontend/hooks/useUnreadMessages.ts:38-41 | over any listing the server returns, the badge total is 0 |
| ChatClient.ZeroCountsSumZero | Frontend/hooks/useUnreadMessages.ts:38-41 | all-zero counts give a zero total |
| ChatClient.QueryEnabledIffSocket | Frontend/hooks/useUnreadMessages.ts:21-24 | the unread query runs exactly for the users for whom the provider opens a socket |
| ConversationModel.NewConversation | backend/model/conversation.js:3-26 | a new conversation has the given members, an empty preview, no unread counts, and both timestamps set to now |
| ConversationDirectory.CreateOrGetAsWritten | backend/controller/conversation.js:15-37 | as written, when the lookup matches every document (no groupTilte, a null one, or strictQuery stripping it) and a conversation is stored, the first stored one is returned and nothing is created; otherwise one untitled conversation with members [user, seller] and the fresh id is appended; a failed create changes nothing |
| ConversationDirectory.AsWrittenHandsOutFirst | backend/controller/conversation.js:15-23 | as written, a request without groupTilte gets the first stored conversation back, even when the user is not one of its members |
| ConversationDirectory.AsWrittenDuplicates | backend/controller/conversation.js:16-28 | as written, with strictQuery off and a groupTilte supplied, two calls for the same pair make two different conversations |
| ConversationDirectory.CreateOrGet | backend/controller/conversation.js:15-37 | keyed on the member pair: an existing pair returns its conversation and leaves the store alone; otherwise exactly one conversation is appended with members [user, seller], the fresh id and an empty preview; a failed create leaves the store unchanged |
| ConversationDirectory.CreateOrGetKeepsIdsUnique | backend/controller/conversation.js:25-28 | with a fresh id, conversation ids stay distinct |
| ConversationDirectory.CreateOrGetIdempotent | backend/controller/conversation.js:16-23 | asking twice for the same pair creates at most one conversation and returns the same one both times |
| ConversationDirectory.CreateOrGetSeparatesPairs | backend/controller/conversation.js:15-28 | a pair with no conversation gets a new one, different from every stored conversation |
| ConversationDirectory.CreatedIsListed | backend/controller/conversation.js:25-52 | a created conversation shows up in the seller's list and in the user's list |
| ConversationDirectory.CreatedLeadsSellerListing | backend/controller/conversation.js:25-52 | a created conversation heads the seller's list when every stored conversation was updated earlier |
| ConversationDirectory.ConversationsOfExactly | backend/controller/conversation.js:74-76 | a user's list holds exactly the conversations they are a member of, each once, ordered by updatedAt and then createdAt, both descending |
| ConversationDirectory.Counterpart | backend/controller/conversation.js:81 | the counterpart is the first member other than the user, or none |
| ConversationDirectory.FormatSpec | backend/controller/conversation.js:84-113 | a conversation is formatted exactly when its counterpart id, if any, is well-formed; the entry then has unread count 0, last-message time = updatedAt, no online flag, and a seller exactly when the counterpart's shop is found |
| ConversationDirectory.FormatAll | backend/controller/conversation.js:78-115 | the listing succeeds exactly when every counterpart id casts, and then each entry is the formatted conversation at the same position |
| ConversationDirectory.FormatAllSpec | backend/controller/conversation.js:78-115 | the listing's entries are exactly the formatted conversations, in order |
| ConversationDirectory.ListForUser | backend/controller/conversation.js:68-125 | the listing succeeds exactly when every counterpart id is well-formed; it then holds one formatted entry per conversation of the user, in their sorted order |
| ConversationDirectory.NoCounterpartMeansNullSeller | backend/controller/conversation.js:84-94 | a conversation with no other member is listed with a null seller |
| ConversationDirectory.ListForSeller | backend/controller/conversation.js:47-52 | a seller's list holds exactly the stored conversations they are a member of, each as often as stored, ordered by updatedAt and then createdAt, both descending |
| ConversationDirectory.UpdateLastMessage | backend/controller/conversation.js:131-148 | a malformed id is an error and an unknown id is not found; otherwise only that conversation changes: its preview, and updatedAt set to now |
| ConversationDirectory.UpdateLastMessageFrame | backend/controller/conversation.js:135-139 | members, title, unread counts and createdAt of the updated conversation are kept |
| MessageStore.CreateMessage | backend/controller/message.js:15-37 | a failed save leaves the store unchanged; otherwise one message is appended with the body's conversation, text and sender; its images are the upload URL, else the body's images if truthy, else none |
| MessageStore.HistoryExactly | backend/controller/message.js:46-47 | a conversation's history is exactly its messages, each once, newest first |
| MessageStore.ListMessages | backend/controller/message.js:42-56 | a NaN or negative skip goes unanswered; otherwise the page holds only this conversation's messages, at most limit of them, and hasMore is true exactly when the page holds `limit` messages |
| MessageStore.NonNumericUnanswered | backend/controller/message.js:43-47 | a non-numeric page or limit makes the skip NaN, and the request is not answered |
| MessageStore.ListIsWindow | backend/controller/message.js:43-49 | with a finite, non-negative skip, the page is the history window starting at the skip, `limit` long as `.limit` reads it |
| MessageStore.PageIsSlice | backend/controller/message.js:43-49 | page p of size n is the slice from (p-1)n of the history |
| MessageStore.HasMoreOnExactFit | backend/controller/message.js:54 | when the history fills the last page exactly, hasMore is still true, and the next page is empty |
| Ordering.PagesDisjoint | backend/controller/message.js:48 | two different pages share no position in the history |
| MessageStore.PagesFormPrefix | backend/controller/message.js:46-49 | pages 1 to k, joined, are the first k·n messages of the history |
| MessageStore.NewestLeadsFirstPage | backend/controller/message.js:23-49 | a message newer than every other in its conversation is first on page 1 |
| MessageStore.ChatImage | backend/controller/message.js:58-78 | no file gives the "no file uploaded" error; otherwise the URL names the stored file |
| Notifications.ParseKind | backend/model/notification.js:5-9 | a kind is accepted exactly when it is one of the schema's enum values |
| Notifications.Id | backend/model/notification.js:37-39 | the `id` virtual is a valid id whose hex parses back to the document's ObjectId |
| Notifications.Create | backend/controller/notification.js:4-22 | a notification is stored exactly when it validates; it carries the given fields, is unread and has both timestamps set to now |
| Notifications.ForUser | backend/controller/notification.js:28-29 | the listing is a rearrangement of exactly the notifications whose receiver is the lower-cased user id, newest first |
| Notifications.MarkAsRead | backend/controller/notification.js:39-49 | an error comes exactly from a present, malformed id; a castable id marks read, with updatedAt now, exactly the documents with that `_id`; a missing id marks the first stored notification; a null id changes nothing |
| Notifications.ListingAsWritten | backend/controller/notification.js:28-30 | as written, the lean documents are listed in order and none carries an `id` |
| Notifications.Listing | backend/model/notification.js:36-41 | with virtuals kept, each listed document, in the order of the listing, carries its own id |
| Notifications.MyNotifications | backend/controller/notification.js:25-65 | without a token the reply is 401; a listing is returned exactly to an authenticated user, and it is their notifications, newest first, as lean documents that carry no `id` |
| Notifications.RouteTapMarksFirstStored | backend/controller/notification.js:26-48 | posting back the id of any notification the listing route returns marks the first stored notification read and changes no other |
| Notifications.MarkAsReadRoute | backend/controller/notification.js:68-74 | without a token the reply is 401; a request that is not authenticated never changes the store |
| Notifications.MarkAsReadIdempotent | backend/controller/notification.js:42-44 | marking twice is the same as marking once |
| Notifications.UnknownIdSucceeds | backend/controller/notification.js:42-48 | a well-formed id naming no notification succeeds and changes nothing |
| Notifications.ReadByOwnId | backend/controller/notification.js:42-44 | marking by a notification's own id makes it read at now and changes no notification with another id |
| Notifications.CaseInsensitiveId | backend/controller/notification.js:42 | an upper-case hex id marks the same notification as the lower-case one |
| Notifications.CreatedIsListed | backend/controller/notification.js:4-30 | a created notification appears in its receiver's listing |
| Notifications.AsWrittenMarksFirstStored | backend/controller/notification.js:28-48 | as written, tapping any listed notification posts no id, so the first stored notification, whoever owns it, is marked read and every other one, the tapped one included, is unchanged |
| Notifications.ListedMarksRead | backend/model/notification.js:37-41 | with the id kept, tapping a listed notification marks it read |
| ObjectIds.FindById | backend/controller/order.js:236-240 | a malformed id is a cast error; a well-formed id finds a document exactly when its lower-case form is a stored key, and then finds that document |
| ObjectIds.FindByVal | backend/controller/product.js:32-33 | `undefined` and `null` find nothing, a non-string value is a cast error, and a string is looked up as FindById does |
| ObjectIds.FindByIdIgnoresCase | backend/controller/order.js:236 | any spelling of an id finds what its lower-case form finds |
| ObjectIds.FindByIdMatchesBytes | backend/controller/order.js:236-240 | with lower-case hex keys, a lookup hits exactly when some stored key names the same twelve bytes as the requested id |
| ObjectIds.SameBytesSameLookup | backend/middleware/auth.js:21 | two id strings naming the same bytes find the same document |
| ObjectIds.CanonicalInjective | backend/model/notification.js:37-39 | two lower-case hex ids with the same bytes are the same string, so a store has one key per ObjectId |
| ObjectIds.HexRoundTrip | backend/model/notification.js:37-39 | the hex string of an id parses back to the same bytes |
| ObjectIds.ParseHexIgnoresCase | backend/controller/notification.js:42 | upper- and lower-case hex parse to the same id |
| ObjectIds.HexIdIsValid | backend/model/notification.js:38 | the hex string of a 12-byte id is a valid id |
| Ordering.SortDesc | backend/controller/conversation.js:74-76 | the sort is descending by key and a permutation of its input |
| Strings.SplitJoin | backend/controller/product.js:264 | joining the fields of a split gives back the string, and no field holds the separator |
| Strings.JoinSplit | backend/controller/product.js:264 | splitting a join of separator-free fields gives back the fields |
| Strings.TrimEmptyIffBlank | backend/controller/product.js:258-260 | trimming gives "" exactly when the string is blank |
| Orders.GroupByShop | backend/controller/order.js:17-24 | the shops are the cart's distinct shops, each group is that shop's items, and together the groups are a rearrangement of the cart |
| Orders.ShopsExactly | backend/controller/order.js:17-24 | a shop is listed exactly when some cart item belongs to it |
| Orders.ShopsDistinct | backend/controller/order.js:20-22 | no shop is listed twice |
| Orders.ItemsOfExactly | backend/controller/order.js:18-23 | a shop's group holds each of that shop's items as often as the cart does, and nothing else |
| Orders.ShopOrders | backend/controller/order.js:27-38 | one order per shop, in first-seen order, with the i-th assigned id, that shop's items and the body's address, user, total and payment |
| Orders.CreateOrder | backend/controller/order.js:11-47 | a missing cart fails and changes nothing; otherwise one order per shop, in first-seen order, with its own fresh id, that shop's items and the body's address, user, total and payment; a create failing at the n-th shop fails the request and leaves exactly the first n orders added to the store; created orders have distinct ids and are exactly what is added to the store |
| Orders.NormaliseItem | backend/controller/order.js:83-90 | the quantity is `quantity`, else `qty`, else 1; the discount defaults to 0; the price is the line's, else the product's discount price, else its original price, and 0 when the product is gone |
| Orders.ZeroQuantityIsKept | backend/controller/order.js:89-90 | a quantity or discount of 0 is kept, not replaced |
| Orders.DeliveryStatus | backend/controller/order.js:119 | a falsy status reads as "Ordered" and a truthy one is kept |
| Orders.Count | backend/controller/order.js:266-273 | stock goes down by the quantity but never below 0 and sold-out goes up by it; a missing quantity gives NaN for both |
| Orders.Restock | backend/controller/order.js:340-348 | stock goes up and sold-out goes down by the quantity; a missing quantity gives NaN for both |
| Orders.RestockUndoesCount | backend/controller/order.js:266-347 | with stock at least the quantity, restocking a counted product restores it exactly |
| Orders.RestockAfterClampOvershoots | backend/controller/order.js:270 | when the quantity exceeded the stock, the count clamps at 0 and the restock leaves the stock at the quantity, not at its old value |
| Orders.DeliverCounters | backend/controller/order.js:242-273 | no product appears or disappears, and the loop completes exactly when no line has a truthy, malformed product id |
| Orders.RefundCountersAsWritten | backend/controller/order.js:334-344 | as written, a first line whose `_id` names no product stops the refund with an error and nothing changed; no product appears or disappears |
| Orders.RefundCounters | backend/controller/order.js:334-348 | a first line whose product id names no product stops the refund with an error and nothing changed; no product appears or disappears |
| Orders.DeliverFrame | backend/controller/order.js:266-273 | products no line names are unchanged by delivery |
| Orders.RefundFrame | backend/controller/order.js:340-348 | products no line names are unchanged by the refund |
| Orders.DeliverPointwise | backend/controller/order.js:242-273 | when every line names a stored product and no product is named twice, the loop completes and each product is counted by its own line |
| Orders.RefundPointwise | backend/controller/order.js:334-348 | when every line names a stored product and no product is named twice, the loop completes and each product is restocked by its own line |
| Orders.RefundUndoesDelivery | backend/controller/order.js:242-348 | refunding a delivered cart with enough stock restores every product |
| Orders.RefundAsWrittenRestoresNothing | backend/controller/order.js:335-344 | as written, when no line's `_id` names a product, the refund changes no product and ends in an error |
| Orders.UpdateOrderStatus | backend/controller/order.js:231-284 | a malformed id is 500 and an unknown one 400, both leaving the orders alone; on 200 only this order changes, with the new status and the same cart; "Delivered" stamps deliveredAt and marks the payment succeeded, other statuses keep both; a status other than "Delivered" or "Transferred to delivery partner" leaves stock alone; the stray `o` on line 279 always raises an error after the reply |
| Orders.UpdateOrderStatusIgnoresIdCase | backend/controller/order.js:236-240 | an order id in upper-case hex updates the same order, with the same reply, as its lower-case form |
| Orders.DeliveredStockNonNegative | backend/controller/order.js:270 | after "Delivered" each product is either untouched or has non-negative stock |
| Orders.DeliverStockNonNegative | backend/controller/order.js:266-273 | after the delivery loop each product is either untouched or has non-negative stock |
| Orders.RefundSuccessAsWritten | backend/controller/order.js:315-353 | a malformed id is 500 and an unknown one 400; otherwise the status is saved with 200 |
| Orders.RefundSuccess | backend/controller/order.js:315-353 | as the as-written handler, but "Refund Success" restocks through the lines' product ids and reports an error exactly when that loop fails; other statuses leave stock alone |
| Orders.DeliverThenRefundRestores | backend/controller/order.js:242-348 | delivering then refunding an order with distinct, well-stocked products restores the products without error |
| Orders.RefundAsWrittenLeavesStockDelivered | backend/controller/order.js:334-344 | as written, when no line's `_id` names a product, the refund leaves the stock as delivery left it |
| OtpAuth.FindByEmail | backend/controller/auth.js:123 | the record found has the e-mail, and nothing is found exactly when no record has it |
| OtpAuth.DeleteByEmail | backend/controller/auth.js:83 | every record of the e-mail is removed and every other kept |
| OtpAuth.DeleteById | backend/controller/auth.js:133 | exactly the records with that id are removed |
| OtpAuth.NewRecord | backend/controller/auth.js:86-92 | a new code has 0 attempts, 5 allowed, expires 10 minutes from now and is not verified |
| OtpAuth.Issue | backend/controller/auth.js:64-101 | 429 exactly when at least three codes for the e-mail were created within the last hour, and then nothing changes |
| OtpAuth.Register | backend/controller/auth.js:45-106 | a missing field is 400 and a registered e-mail 409, both changing nothing |
| OtpAuth.Resend | backend/controller/auth.js:203-262 | a missing e-mail or name is 400 and a registered e-mail 409, both changing nothing |
| OtpAuth.VerifyUser | backend/controller/auth.js:109-200 | a missing field is 400 and changes nothing; an address with no record is 404 and changes nothing; otherwise the first record with that address is checked; the users change only by gaining this address, when it was not yet registered |
| OtpAuth.CheckCode | backend/controller/auth.js:131-200 | 404 exactly for an expired record, which is deleted; 429 exactly for a live record with its attempts used up, which is deleted; 400 exactly for a wrong code, counting one attempt and reporting the attempts left; 409 exactly for the right code and a registered address, changing nothing; otherwise the user is created, the record deleted, and the answer is 201 or, when the welcome mail fails, 500 |
| OtpAuth.VerifyOtp | backend/controller/auth.js:265-307 | a missing field is 400 and changes nothing; an address with no record is 404 and changes nothing; otherwise the first record with that address is confirmed; a 200 means that record was live, held the code and is now verified; the users are never touched |
| OtpAuth.ConfirmCode | backend/controller/auth.js:282-302 | 200 exactly for a live record and the right code, which marks it verified; an expired record is deleted with 404; a wrong code counts one attempt with 400; no other record and no user changes |
| OtpAuth.Expire | backend/model/otp.js:36-37 | the TTL monitor only removes records whose expiry has passed |
| OtpAuth.ReissueKeepsValid | backend/controller/auth.js:82-92 | replacing an e-mail's codes keeps records distinct by id and by e-mail |
| OtpAuth.IssuingKeepsValid | backend/controller/auth.js:45-262 | registration and resend keep records distinct by id and by e-mail |
| OtpAuth.VerifyUserKeepsValid | backend/controller/auth.js:109-200 | verify-user keeps records distinct by id and by e-mail |
| OtpAuth.VerifyOtpKeepsValid | backend/controller/auth.js:265-307 | verify-otp keeps records distinct by id and by e-mail |
| OtpAuth.AtMostOneRecent | backend/controller/auth.js:65-70 | with records distinct by e-mail, at most one recent code exists per e-mail |
| OtpAuth.RateLimitNeverFires | backend/controller/auth.js:64-77 | because each issue deletes the old codes first, the three-per-hour limit never answers 429 |
| OtpAuth.IssueReplacesRecord | backend/controller/auth.js:82-92 | after issuing, the newest record is the new code (0 attempts, 5 allowed, ten minutes to live) and it is the one FindByEmail finds; other e-mails' records are kept |
| OtpAuth.WrongCodeCountsAttempt | backend/controller/auth.js:150-160 | a wrong code adds one attempt and reports 400 with the attempts left |
| OtpAuth.ExhaustedRefusesRightCode | backend/controller/auth.js:139-148 | once the attempts are used up even the right code is refused with 429, and the record is deleted |
| OtpAuth.FiveWrongThenLockedOut | backend/controller/auth.js:139-161 | five wrong codes on a fresh record lock the e-mail out |
| OtpAuth.LockedOutFrom | backend/controller/auth.js:139-161 | from any live, unused record, the remaining wrong tries lock the e-mail out |
| OtpAuth.IssueFinds | backend/controller/auth.js:86-123 | the code just issued is the one verify-user finds: live, unused, with 5 attempts allowed |
| OtpAuth.RegisterIssues | backend/controller/auth.js:52-92 | a complete registration for a new e-mail issues a code |
| OtpAuth.AcceptedAtExpiryInstant | backend/controller/auth.js:131-137 | the right code at its expiry instant creates the user and deletes the record (201 when the mail goes out); one millisecond later the answer is 404 |
| OtpAuth.VerifyOtpIgnoresAttempts | backend/controller/auth.js:282-297 | verify-otp accepts the right code with 200 whatever the attempt count, and only marks the record verified |
| OtpAuth.NumericCodeNeverMatches | backend/controller/auth.js:151 | a code sent as a JSON number never equals the stored string, so the answer is 400 |
| Products.StoredImages | backend/controller/product.js:46-48 | each image is kept as given when a string, else as its url |
| Products.CreateProduct | backend/controller/product.js:16-55 | 400 exactly when the shop id is well-formed but unknown; a product is created exactly when the shop is found, images are given and the database accepts the document, with that shop, sizes defaulting to [], each image kept as its string or its url, and the body's name, category and discount price; a refused create, a malformed id and missing images throw |
| Products.CreatedProductCarriesItsShop | backend/controller/product.js:32-48 | the shop a created product carries is the stored shop whose ObjectId has the bytes of the requested shop id, in whatever letter case it was sent |
| Products.CommaList | backend/controller/product.js:263-278 | the list holds exactly the non-empty fields; there is none exactly when the parameter is absent or every field is empty |
| Products.RawList | backend/controller/product.js:103-110 | a non-empty parameter gives all its fields, empty ones included |
| Products.RunQuery | backend/controller/product.js:286-294 | a NaN or negative skip fails; otherwise the total counts the matches, and the page holds stored matching products, newest first, as many as the window at the skip allows and never more than the limit |
| Products.Ranked | backend/controller/product.js:288-290 | the matches, each as often as stored, newest first |
| Products.CeilDiv | backend/controller/product.js:303 | for a positive limit the result is the least number of pages of that size that covers the total (and the mirror bound for a negative limit) |
| Products.TotalPages | backend/controller/product.js:303 | a page count exists exactly when the limit is finite and non-zero; for a positive limit it is the least number of pages that covers the total |
| Products.FindProduct | backend/controller/product.js:143 | a malformed id is a cast error; a found product carries the id's lower-case form; nothing is found exactly when no product has it |
| Products.RelatedProducts | backend/controller/product.js:140-156 | a malformed id fails and an unknown one is not found; otherwise at most five stored products, each in the product's category and none the product itself |
| Products.RelatedIsFirstFive | backend/controller/product.js:146-149 | the related list is the first five others of the category, in store order |
| Products.UpsertAsWritten | backend/controller/product.js:350-362 | as written a review is always appended |
| Products.UpdateReviews | backend/controller/product.js:355-359 | each of the caller's reviews takes the new rating, comment and user; every other review is kept |
| Products.Upsert | backend/controller/product.js:350-362 | a caller who has reviewed keeps the same number of reviews; a first review is appended |
| Products.CreateReviewAsWritten | backend/controller/product.js:335-386 | as written: a product id that finds nothing is 400 and changes nothing; otherwise the review is appended to the product's reviews, its rating becomes their average, and no other product changes |
| Products.CreateReview | backend/controller/product.js:335-386 | corrected, with ids compared by value: the same 400 case; otherwise the caller's earlier review is updated in place or a first one appended, the rating becomes the average, and no other product changes |
| Products.CreateReviewTwiceAsWritten | backend/controller/product.js:350-362 | as written, the same user reviewing a product twice through the route gains two reviews on it |
| Products.CreateReviewTwiceKeepsOne | backend/controller/product.js:350-362 | through the corrected route, a user who reviews a product twice has exactly one review on it |
| Products.CommaListRoundTrip | backend/controller/product.js:263-278 | a non-empty list of non-empty, comma-free values, joined with commas, parses back to the same list on both routes |
| Products.TrailingComma | backend/controller/product.js:263-266 | "shoes," gives ["shoes"] on get-all-products but ["shoes", ""] on the filtered route |
| Products.BlankSearch | backend/controller/product.js:258-260 | a blank search adds no name condition on get-all-products, while the filtered route searches for the blank string |
| Products.Defaults | backend/controller/product.js:243-252 | with no parameters there are no conditions, the price range is 0 to 999999, and the first page skips nothing |
| Products.NextPageSkip | backend/controller/product.js:286 | the next page starts right after the current one |
| Products.LastPageBoundary | backend/controller/product.js:286-303 | when the matches need `last` pages, page `last` is non-empty and page `last`+1 is empty |
| Products.TotalPagesIsLast | backend/controller/product.js:303 | the reported page count is the least number of pages that covers the total |
| Products.PageWithin | backend/controller/product.js:286-292 | a page whose skip is below the total is non-empty |
| Products.PagePast | backend/controller/product.js:286-292 | a page whose skip reaches the total is empty, with the total still reported |
| Products.PageSize | backend/controller/product.js:286-292 | page n of a positive limit is the window of the ranked matches that starts at (n-1)·limit, limit long or shorter at the end |
| Products.PagesFormPrefix | backend/controller/product.js:286-292 | pages 1 to k, joined, are the first k·limit ranked matches |
| Products.PagesDisjoint | backend/controller/product.js:286-292 | everything on an earlier page ranks above everything on a later page |
| Products.LastPageNumbers | backend/controller/product.js:286-303 | the last page's skip lies inside the total and the next page's skip lies past it |
| Products.ReviewTwiceAsWritten | backend/controller/product.js:350-362 | as written a user who reviews twice gains two reviews |
| Products.ReviewTwiceKeepsOne | backend/controller/product.js:350-362 | a user who reviews twice keeps one review, carrying the second rating and comment |
| Products.ReviewsByUpdate | backend/controller/product.js:355-359 | updating keeps the caller's number of reviews |
| Products.RatingsBounded | backend/controller/product.js:364-369 | the average of ratings in 1..5 is in 1..5 |
| Recommend.Candidates | backend/controller/recommend.js:10-12 | min(20, n) of the stored products, newest first |
| Recommend.Recommendations | backend/controller/recommend.js:7-31 | a database failure fails; otherwise min(6, candidates) products are picked from the candidates, with no duplicates when the store has none |
| Recommend.CandidatesAreNewest | backend/controller/recommend.js:10-12 | the candidates are the head of the store sorted newest first, and no product left out is newer than any candidate |
| Recommend.SelectionSize | backend/controller/recommend.js:15-18 | with at least six products six are recommended; with fewer, every product is recommended |
| TokenRefresh.AttachToken | Frontend/utils/axiosInstance.tsx:77-83 | the header is "Bearer token" exactly when a token is stored; otherwise the request is unchanged |
| TokenRefresh.OnError | Frontend/utils/axiosInstance.tsx:98-114 | a request is rejected unless it is a first 401 with a token; during a refresh it queues; otherwise it starts the refresh and is marked retried |
| TokenRefresh.FinishRefreshAsWritten | Frontend/utils/axiosInstance.tsx:116-151 | as written, on failure only the original is rejected and the waiters are dropped |
| TokenRefresh.FinishRefresh | Frontend/utils/axiosInstance.tsx:116-151 | success stores the new token and re-issues the waiters then the original; failure logs out and rejects them all |
| TokenRefresh.StepsKeepInv | Frontend/utils/axiosInstance.tsx:59-69 | requests wait only while a refresh runs |
| TokenRefresh.AttachedTokenPassesGuard | Frontend/utils/axiosInstance.tsx:79-80 | the header the client sends gives back the same token through the server's guard |
| TokenRefresh.NeverRefreshedTwice | Frontend/utils/axiosInstance.tsx:99-113 | the request that started a refresh is rejected if it fails again |
| TokenRefresh.QueueIsFifo | Frontend/utils/axiosInstance.tsx:105-110 | during a refresh, failed requests queue in arrival order |
| TokenRefresh.RefreshRoundTrip | Frontend/utils/axiosInstance.tsx:104-144 | a successful refresh re-issues every queued request once, in order, and then the original |
| TokenRefresh.AsWrittenStrandsWaiters | Frontend/utils/axiosInstance.tsx:145-147 | as written a waiter behind a failed refresh never settles |
| TokenRefresh.EveryWaiterSettles | Frontend/utils/axiosInstance.tsx:139-151 | each queued request settles exactly once whichever way the refresh ends |
| Uploads.Ext | backend/multer.js:19 | the extension starts at the name's last dot and has no other dot; it is empty when there is no dot, for a leading dot only, and for ".." |
| Uploads.Base | backend/multer.js:20 | the base followed by the extension is the name |
| Uploads.StoredName | backend/multer.js:17-23 | the stored name starts with the base and "_", ends with the extension and has no '/' |
| Uploads.Receive | backend/multer.js:26-38 | a non-image is refused; an image over 5 MB is too large; anything else is stored under its stored name |
| Uploads.StoredKeepsExtension | backend/multer.js:19-22 | the stored name keeps the original extension, except for ".." |
| Uploads.DotDotGainsExtension | backend/multer.js:19-22 | ".." has no extension but its stored name has one |
| Uploads.LimitIsInclusive | backend/multer.js:28-30 | a file of exactly 5 MB is accepted and one byte more refused |
| Wishlist.NewItem | Frontend/components/cards/product.card.tsx:45-53 | each field of the new entry takes its `||` fallback |
| Wishlist.HandleToggle | Frontend/components/cards/product.card.tsx:30-60 | logged out asks for login; a product in the list is removed; otherwise its new entry is added |
| Wishlist.Round | Frontend/components/home/products.tsx:111 | the result is the integer nearest x, halves upward |
| Wishlist.Reduction | Frontend/components/cards/product.card.tsx:67-73 | the percentage is not finite exactly when the original price is missing or 0 |
| Wishlist.CardDiscount | Frontend/components/cards/product.card.tsx:67-73 | no discount price gives 0 |
| Wishlist.HomeDiscount | Frontend/components/home/products.tsx:109-116 | the percentage is always finite, and 0 unless both prices are set |
| Wishlist.ToggleMatchesHeart | Frontend/components/home/products.tsx:38-66 | a tap removes exactly when the heart is filled |
| Wishlist.CardHeartDisagreesWithoutId | Frontend/components/cards/product.card.tsx:38-65 | on the card an id-less product can be removed while its heart shows empty |
| Wishlist.BadgesAgree | Frontend/components/home/products.tsx:109-116 | the card and the home section show the same badges with the same number |
| Wishlist.ReductionBounds | Frontend/components/cards/product.card.tsx:67-73 | a discount between 0 and the original price gives 0 to 100 percent |
| Wishlist.BadgeThreshold | Frontend/components/cards/product.card.tsx:114-117 | the badge shows exactly when the reduction is at least half a percent |

## Left out

- Timers and interleaving. The 30-second sweep interval is a `Sweep` event, and the asynchronous gaps between awaits are not modelled: each handler runs to completion.
- Persistence and the network. The Mongo collections are values. Queries are reduced to filter, sort, skip and limit, and a regular-expression name search is an abstract `nameMatch`.
- Passwords and tokens. `jwt.verify` is the `verify` parameter. bcrypt hashing and the details of User creation beyond the stored e-mail are not modelled.
- The mailer and storage. Nodemailer's outcome is `mailOk`. SecureStore and the axios transport are parameters, and Cloudinary is left out.
- Multer's disk writes and `mkdir` are left out. Busboy strips directory parts from file names, so the names here hold no '/'.
- Random and clock inputs. The OTP TTL index is the nondeterministic `Expire`. `generateOTP`, the shuffle and `Date.now()` are parameters.
- Floating point. The service charge and seller balance use floating point and are left out. Prices are integers; the rating average is an exact rational.
- The wishlist store's add and remove actions are left out; the toggle is modelled up to the call it makes.
- The order update that marks a line reviewed (backend/controller/product.js:372-376) is left out.
- Other routes in the same files are left out: get-product, delete-shop-product, the admin routes, get-all-orders and order-refund.
- backend/model/messages.js and backend/model/order.js are not part of this model; their fields appear only as far as the handlers use them.
- ChatRelay.Chat: its own contract states the appended message, the unchanged registry and sockets, and at most two frames, each to an open socket; which sockets receive them is stated by RoutingOfSavedChat, and the preview by PreviewFollowsSavedMessage and MissingConversationOverwritesFirst.
- Products.AllProductsConditions, Products.FilteredConditions: these build the query conditions. Their meaning is stated through CommaList, BlankSearch and RunQuery rather than in their own contracts.
- OtpAuth.Register, OtpAuth.Resend: their own contracts cover only the 400 and 409 answers. Issuing a code is stated by RegisterIssues, IssueReplacesRecord, RateLimitNeverFires and the invariant lemmas.
- Notifications.ClientId: models the notification screen of the mobile client posting `notification.id` (Frontend/app/(routes)/notifications/index.tsx, lines 72-76, 145 and 174). Its own contract says only that `undefined` is posted when the listed document has no `id`. The effect is stated by AsWrittenMarksFirstStored and ListedMarksRead.
- ChatClient.TotalUnread: its own contract covers only the missing list; the sum is stated by SumAppend, SumNonNegative and ServerListingTotalsZero.
- ConversationDirectory.UpdateLastMessage: updatedAt is set to now because the schema keeps timestamps; no other field changes.
- Mongoose version. The Mongoose version is not pinned here, so `strictQuery` is a parameter of CreateOrGetAsWritten: Mongoose 6 strips undeclared paths from filters by default, Mongoose 7 and later keep them. Every version drops a key whose value is `undefined` from a filter.
- "First stored" document. A filter that lost all its keys matches the first document in natural order, and natural order is the order of the sequence.
- Wishlist.ShowsBadge: a non-finite percentage never shows a badge. In JavaScript an original price of 0 with a negative discount price gives `+Infinity`, which is greater than 0, so the card would show a badge; BadgesAgree does not cover that input, which needs a negative price.
- Strings.Lower: lower-cases ASCII letters only, where `toLowerCase` folds all of Unicode; e-mail keys and receiver ids with non-ASCII capitals are compared differently here.
- Wishlist.Reduction: computed on exact rationals, where the client rounds a double. A quotient that lands just below .5 in floating point can round down in JavaScript and up here (original 200, discount price 171 gives 14 in JavaScript and 15 here). CardDiscount, HomeDiscount and BadgesAgree inherit this gap.
- Js.Val: numbers are integers, and arrays and objects are not values. A query parameter given twice arrives as an array, on which `.split` throws; that request is not modelled.
- ObjectIds: only the 24-hex-digit string form of an id is cast. Mongoose also casts any 12-character string, byte for byte; that form is not modelled. Stores are keyed by the lower-case hex of each document's ObjectId, the form `toHexString` writes.
- Products.CreateProduct: why the database refuses a product is not modelled, because backend/model/product.js is not part of this model; the outcome of `Product.create` is the parameter createOk.
- ChatRelay.HandleFrame: whether the message schema refuses a save without a conversationId is not known here, because backend/model/messages.js is not part of this model; the save's outcome is the parameter saveOk. A numeric or boolean conversationId is taken to update nothing.

## Findings

| source | as written | input that shows it | evidently intended | confidence | as-written member | corrected member |
|---|---|---|---|---|---|---|
| backend/controller/product.js:350-359 | the review upsert compares `rev.user._id === req.user._id`, two ObjectId objects, which are never identical | the same user reviews a product twice | the second review replaces the first | not executed | Products.CreateReviewTwiceAsWritten | Products.CreateReviewTwiceKeepsOne |
| backend/controller/order.js:334-336 | the refund loop looks products up by the cart line's `_id` | a delivered order refunded with "Refund Success" | stock is restored by `productId`, as delivery counted it | not executed | Orders.RefundAsWrittenLeavesStockDelivered | Orders.DeliverThenRefundRestores |
| backend/controller/conversation.js:15-23 | the lookup is `findOne({ groupTilte })`, and the only client call sends no groupTilte, so the filter is `{}`; the strict schema (backend/model/conversation.js:5-7) never stores the misspelt field either | a user opens a chat with a shop while another pair's conversation is stored | the user gets a conversation of their own with that seller | not executed | ConversationDirectory.AsWrittenHandsOutFirst | ConversationDirectory.CreateOrGetSeparatesPairs |
| backend/controller/conversation.js:16-28 | with strictQuery off and a groupTilte supplied, the lookup never finds the untitled documents the create stores | two create requests for the same user and seller | the second returns the first conversation | not executed | ConversationDirectory.AsWrittenDuplicates | ConversationDirectory.CreateOrGetIdempotent |
| backend/chat-ws-server.js:31-40 | `JSON.parse("null")` gives null and `data.type` throws | the text frame `null` | the frame is ignored like any other malformed frame | not executed | ChatRelay.NullFrameRejectsAsWritten | ChatRelay.HandleFrame |
| backend/controller/notification.js:28-44 | `.lean()` drops the `id` virtual that the client posts back, and `findByIdAndUpdate(undefined)` filters on `{}` | tapping a listed notification that is not the first stored one | the tapped notification becomes read | not executed | Notifications.AsWrittenMarksFirstStored | Notifications.ListedMarksRead |
| Frontend/utils/axiosInstance.tsx:145-147 | a failed refresh empties the queue without rejecting the waiters | two requests fail with 401 and the refresh fails | every queued request is rejected | not executed | TokenRefresh.AsWrittenStrandsWaiters | TokenRefresh.EveryWaiterSettles |

=== FILE: auth_middleware.dfy ===
/**
 * The request guards of backend/middleware/auth.js: bearer-token extraction,
 * `isAuthenticated` and `isSeller`, and the `isAdmin` role check.
 *
 * `jwt.verify` is a parameter: it either throws (`None`) or yields the decoded
 * payload's `id`. Users and shops are maps from id strings to their documents.
 */
module AuthMiddleware {
  import opened Wrappers
  import opened Js
  import Strings
  import ObjectIds

  /**
   * The token of an `Authorization` header: the second space-separated field of a
   * header beginning with "Bearer" (case-sensitive); `None` when that is missing or empty.
   */
  function ExtractToken(header: Option<string>): (t: Option<string>)
    ensures t.Some? ==> header.Some? && Strings.StartsWith(header.value, "Bearer")
    ensures t.Some? ==> t.value != "" && ' ' !in t.value
    ensures header.None? || !Strings.StartsWith(header.value, "Bearer") ==> t.None?
    ensures t.Some? ==> |Strings.Split(header.value, ' ')| >= 2 && t.value == Strings.Split(header.value, ' ')[1]
    ensures (header.Some? && Strings.StartsWith(header.value, "Bearer")
             && |Strings.Split(header.value, ' ')| >= 2 && Strings.Split(header.value, ' ')[1] != "") ==> t.Some?
  {
    match header
    case None => None
    case Some(h) =>
      if h != "" && Strings.StartsWith(h, "Bearer") then
        var parts := Strings.Split(h, ' ');
        Strings.SplitJoin(h, ' ');
        if |parts| >= 2 && parts[1] != "" then Some(parts[1]) else None
      else None
  }

  /** The outcome of a guard: continue with the document, an error status, or an error thrown to the error handler. */
  datatype Outcome<T> = Next(doc: T) | Status(code: int) | Thrown

  /**
   * Both token guards: 401 without a token, the verifier's exception when the token
   * does not verify, 404 when no document has the decoded id, and the document otherwise.
   */
  function Guard<T>(header: Option<string>, verify: string -> Option<Val>, store: map<string, T>): (r: Outcome<T>)
    ensures ExtractToken(header).None? <==> r == Status(401)
    ensures r.Next? <==> (ExtractToken(header).Some? && verify(ExtractToken(header).value).Some?
                          && ObjectIds.FindByVal(store, verify(ExtractToken(header).value).value).Hit?)
    ensures r.Next? ==> r.doc == store[ObjectIds.Key(verify(ExtractToken(header).value).value.s)]
    ensures r == Status(404) <==> (ExtractToken(header).Some? && verify(ExtractToken(header).value).Some?
                                  && ObjectIds.FindByVal(store, verify(ExtractToken(header).value).value).Miss?)
  {
    match ExtractToken(header)
    case None => Status(401)
    case Some(token) =>
      match verify(token)
      case None => Thrown
      case Some(id) =>
        match ObjectIds.FindByVal(store, id)
        case Hit(doc) => Next(doc)
        case Miss => Status(404)
        case CastFailure => Thrown
  }

  /** A user document: its id and its role. */
  datatype User = User(id: string, role: string)

  /** A seller's shop document (its fields are not read here). */
  datatype Shop = Shop(name: string)

  /** `isAuthenticated`: sets `req.user`. */
  function IsAuthenticated(header: Option<string>, verify: string -> Option<Val>, users: map<string, User>): Outcome<User> {
    Guard(header, verify, users)
  }

  /** `isSeller`: the same guard against the shops, setting `req.seller`. */
  function IsSeller(header: Option<string>, verify: string -> Option<Val>, shops: map<string, Shop>): Outcome<Shop> {
    Guard(header, verify, shops)
  }

  /** `isAdmin(...roles)`: continue iff the user's role is one of `roles`, else 403. */
  function IsAdmin(roles: seq<string>, user: User): (r: Outcome<User>)
    ensures r.Next? <==> user.role in roles
    ensures !r.Next? ==> r == Status(403)
  {
    if user.role in roles then Next(user) else Status(403)
  }

  // ---------------------------------------------------------------- properties

  /** "Bearer " followed by a token without spaces, then anything, yields that token. */
  lemma {:induction false} BearerFieldRoundTrip(token: string, rest: string)
    requires token != "" && ' ' !in token
    ensures ExtractToken(Some("Bearer " + token)) == Some(token)
    ensures ExtractToken(Some("Bearer " + token + " " + rest)) == Some(token)
  {
    assert ' ' !in "Bearer";
    var h1 := "Bearer " + token;
    assert h1 == "Bearer" + [' '] + token;
    Strings.SplitAt("Bearer", ' ', token);
    Strings.SplitNoSep(token, ' ');
    assert h1[..6] == "Bearer";
    var h2 := "Bearer " + token + " " + rest;
    assert h2 == "Bearer" + [' '] + (token + [' '] + rest);
    Strings.SplitAt("Bearer", ' ', token + [' '] + rest);
    Strings.SplitAt(token, ' ', rest);
    assert h2[..6] == "Bearer";
  }

  /** A header with no space, such as "Bearerxyz", carries no token. */
  lemma {:induction false} NoSpaceNoToken(h: string)
    requires ' ' !in h
    ensures ExtractToken(Some(h)).None?
  {
    Strings.SplitNoSep(h, ' ');
  }

  /** Two spaces after "Bearer" make the second field empty: no token. */
  lemma {:induction false} DoubleSpaceNoToken(rest: string)
    ensures ExtractToken(Some("Bearer  " + rest)).None?
  {
    var h := "Bearer  " + rest;
    assert h == "Bearer" + [' '] + ("" + [' '] + rest);
    assert ' ' !in "Bearer";
    Strings.SplitAt("Bearer", ' ', "" + [' '] + rest);
    Strings.SplitAt("", ' ', rest);
  }

  /** The lower-case scheme is not recognised. */
  lemma {:induction false} LowerCaseSchemeRejected(token: string)
    ensures ExtractToken(Some("bearer " + token)).None?
  {
    assert ("bearer " + token)[0] == 'b';
  }

  /** A well-formed header whose token verifies to a stored user's id, in either letter case, passes with that user. */
  lemma {:induction false} ValidTokenPasses(token: string, verify: string -> Option<Val>, users: map<string, User>, id: string)
    requires token != "" && ' ' !in token
    requires verify(token) == Some(Str(id)) && ObjectIds.Valid(id) && ObjectIds.Key(id) in users
    ensures IsAuthenticated(Some("Bearer " + token), verify, users) == Next(users[ObjectIds.Key(id)])
  {
    BearerFieldRoundTrip(token, "");
  }

  /** A verified token whose id no longer names a shop gets 404 from the seller guard. */
  lemma {:induction false} DeletedShopIs404(token: string, verify: string -> Option<Val>, shops: map<string, Shop>, id: string)
    requires token != "" && ' ' !in token
    requires verify(token) == Some(Str(id)) && ObjectIds.Valid(id) && ObjectIds.Key(id) !in shops
    ensures IsSeller(Some("Bearer " + token), verify, shops) == Status(404)
  {
    BearerFieldRoundTrip(token, "");
  }
}

=== FILE: chat_client.dfy ===
/**
 * The client side of chat: the socket provider of
 * Frontend/context/web-socket.context.tsx (connection gating, IDENTIFY on open,
 * the per-conversation unread map) and the unread total of
 * Frontend/hooks/useUnreadMessages.ts.
 */
module ChatClient {
  import opened Wrappers
  import opened Js
  import ChatRelay
  import ConversationDirectory

  /** The signed-in user the provider and the hook read: its `_id` and `id` fields. */
  datatype User = User(mongoId: Val, id: Val)

  /** `user?._id || user?.id`; `undefined` when nobody is signed in. */
  function SessionUserId(user: Option<User>): Val {
    match user
    case None => Undefined
    case Some(u) => Or(u.mongoId, u.id)
  }

  /** The provider's `ws` state. */
  datatype Connection = NoSocket | Connecting(userId: Val) | Connected(userId: Val)

  /** The provider: its socket, `unreadCounts`, and the frames it has sent, oldest first. */
  datatype Provider = Provider(ws: Connection, unreadCounts: map<string, Val>, sent: seq<ChatRelay.Frame>)

  function InitialProvider(): Provider {
    Provider(NoSocket, map[], [])
  }

  /** The frame `{ type: "IDENTIFY", userId }` as the relay parses it. */
  function IdentifyFrame(userId: Val): ChatRelay.Frame {
    ChatRelay.Frame(Str("IDENTIFY"), userId, Undefined, Undefined, Undefined, Undefined,
                    Undefined, Undefined, Undefined, Undefined, Undefined, Undefined, Undefined)
  }

  /** The effect body: a socket is opened only for a truthy session user id. */
  function Mount(p: Provider, user: Option<User>): (p': Provider)
    requires p.ws.NoSocket?
    ensures p'.ws.Connecting? <==> Truthy(SessionUserId(user))
    ensures p'.ws.Connecting? ==> p'.ws.userId == SessionUserId(user)
    ensures !Truthy(SessionUserId(user)) ==> p' == p
    ensures p'.unreadCounts == p.unreadCounts && p'.sent == p.sent
  {
    var userId := SessionUserId(user);
    if !Truthy(userId) then p else p.(ws := Connecting(userId))
  }

  /** `onOpen`: send exactly one IDENTIFY frame carrying the session user id. */
  function OnOpen(p: Provider): (p': Provider)
    requires p.ws.Connecting?
    ensures p'.sent == p.sent + [IdentifyFrame(p.ws.userId)]
    ensures ChatRelay.IsIdentify(p'.sent[|p'.sent| - 1]) && p'.sent[|p'.sent| - 1].userId == p.ws.userId
    ensures p'.ws == Connected(p.ws.userId) && p'.unreadCounts == p.unreadCounts
  {
    p.(ws := Connected(p.ws.userId), sent := p.sent + [IdentifyFrame(p.ws.userId)])
  }

  /** The `payload` object of a server frame: `{ conversationId, count }`. */
  datatype Payload = Payload(conversationId: Val, count: Val)

  /**
   * A frame from the server as `JSON.parse` leaves it. `payload` is `None` when it is
   * `undefined` or `null`, which makes the destructuring throw.
   */
  datatype ClientInbound = Garbage | NullFrame | Parsed(kind: Val, payload: Option<Payload>)

  /** `onMessage`: only UNSEEN_COUNT_UPDATE with a payload touches the map; every error is swallowed. */
  function OnMessage(p: Provider, m: ClientInbound): (p': Provider)
    ensures p'.ws == p.ws && p'.sent == p.sent
    ensures m.Parsed? && m.kind == Str("UNSEEN_COUNT_UPDATE") && m.payload.Some? ==>
      && ToString(m.payload.value.conversationId) in p'.unreadCounts
      && p'.unreadCounts[ToString(m.payload.value.conversationId)] == m.payload.value.count
      && p'.unreadCounts.Keys == p.unreadCounts.Keys + {ToString(m.payload.value.conversationId)}
      && (forall k :: k in p.unreadCounts && k != ToString(m.payload.value.conversationId) ==>
            p'.unreadCounts[k] == p.unreadCounts[k])
    ensures !(m.Parsed? && m.kind == Str("UNSEEN_COUNT_UPDATE") && m.payload.Some?) ==> p' == p
  {
    match m
    case Parsed(kind, payload) =>
      if kind == Str("UNSEEN_COUNT_UPDATE") && payload.Some? then
        p.(unreadCounts := p.unreadCounts[ToString(payload.value.conversationId) := payload.value.count])
      else p
    case _ => p
  }

  /** The effect's cleanup: close the socket and reset `ws`. */
  function Cleanup(p: Provider): (p': Provider)
    ensures p'.ws == NoSocket
    ensures p'.unreadCounts == p.unreadCounts && p'.sent == p.sent
  {
    p.(ws := NoSocket)
  }

  /** A NEW_MESSAGE frame of the relay as the client parses it. */
  function FromRelay(d: ChatRelay.Delivery): ClientInbound {
    Parsed(Str("NEW_MESSAGE"), Some(Payload(d.message.conversationId, Undefined)))
  }

  // ---------------------------------------------------------------- properties

  /** Delivering the same frame twice leaves the provider as delivering it once. */
  lemma {:induction false} OnMessageIdempotent(p: Provider, m: ClientInbound)
    ensures OnMessage(OnMessage(p, m), m) == OnMessage(p, m)
  {
  }

  /** Nothing the relay sends changes the unread map. */
  lemma {:induction false} RelayFramesLeaveCountsAlone(p: Provider, r: ChatRelay.Relay, conn: ChatRelay.ConnId,
                                    inbound: ChatRelay.Inbound, env: ChatRelay.Env)
    requires conn in r.sockets
    ensures var out := ChatRelay.HandleFrame(r, conn, inbound, env).1;
      forall i :: 0 <= i < |out| ==> OnMessage(p, FromRelay(out[i])) == p
  {
  }

  /**
   * Signing in and opening the socket sends an IDENTIFY frame that, handled by the
   * relay on that connection, binds the string form of the session user id to it.
   */
  lemma {:induction false} SignInRegistersWithRelay(user: Option<User>, r: ChatRelay.Relay, conn: ChatRelay.ConnId, env: ChatRelay.Env)
    requires Truthy(SessionUserId(user)) && conn in r.sockets
    ensures var p := OnOpen(Mount(InitialProvider(), user));
      && |p.sent| == 1
      && var r' := ChatRelay.HandleFrame(r, conn, ChatRelay.Object(p.sent[0]), env).0;
         ToString(SessionUserId(user)) in r'.clients && r'.clients[ToString(SessionUserId(user))] == conn
  {
  }

  // ---------------------------------------------------------------- unread total

  /** A conversation summary as the hook reads it: only `unreadCount`, possibly missing. */
  datatype Summary = Summary(unreadCount: Option<int>)

  /** `conv.unreadCount || 0`. */
  function UnreadOf(s: Summary): int {
    match s.unreadCount
    case None => 0
    case Some(n) => if n != 0 then n else 0
  }

  /** `reduce((total, conv) => total + (conv.unreadCount || 0), 0)`: a left fold. */
  function Sum(convs: seq<Summary>): int {
    if |convs| == 0 then 0 else Sum(convs[..|convs| - 1]) + UnreadOf(convs[|convs| - 1])
  }

  /** `totalUnread`: the fold over `conversations ?? []`. */
  function TotalUnread(conversations: Option<seq<Summary>>): (t: int)
    ensures conversations.None? ==> t == 0
  {
    Sum(conversations.GetOr([]))
  }

  /** The total of a concatenation is the sum of the parts' totals. */
  lemma {:induction false} SumAppend(a: seq<Summary>, b: seq<Summary>)
    ensures Sum(a + b) == Sum(a) + Sum(b)
    decreases |b|
  {
    if |b| > 0 {
      var b' := b[..|b| - 1];
      assert (a + b)[..|a + b| - 1] == a + b';
      SumAppend(a, b');
    } else {
      assert a + b == a;
    }
  }

  /** With no negative count, the total is not negative and bounds every single count. */
  lemma {:induction false} SumNonNegative(convs: seq<Summary>)
    requires forall i :: 0 <= i < |convs| ==> convs[i].unreadCount.GetOr(0) >= 0
    ensures Sum(convs) >= 0
    ensures forall i :: 0 <= i < |convs| ==> UnreadOf(convs[i]) <= Sum(convs)
  {
    if |convs| > 0 {
      var init := convs[..|convs| - 1];
      SumNonNegative(init);
      forall i | 0 <= i < |convs|
        ensures UnreadOf(convs[i]) <= Sum(convs)
      {
        if i < |convs| - 1 {
          assert convs[i] == init[i];
        }
      }
    }
  }

  /** Summaries of the server's listing entries. */
  function Summaries(entries: seq<ConversationDirectory.Entry>): (s: seq<Summary>)
    ensures |s| == |entries|
    ensures forall i :: 0 <= i < |entries| ==> s[i] == Summary(Some(entries[i].unreadCount))
  {
    if |entries| == 0 then [] else [Summary(Some(entries[0].unreadCount))] + Summaries(entries[1..])
  }

  /** Every listing the server sends totals 0: it hard-codes `unreadCount: 0`. */
  lemma {:induction false} ServerListingTotalsZero(store: ConversationDirectory.Store, userId: string,
                                                   shops: map<string, ConversationDirectory.Shop>)
    requires ConversationDirectory.ListForUser(store, userId, shops).Listed?
    ensures TotalUnread(Some(Summaries(ConversationDirectory.ListForUser(store, userId, shops).entries))) == 0
  {
    var es := ConversationDirectory.ListForUser(store, userId, shops).entries;
    ZeroCountsSumZero(Summaries(es));
  }

  lemma {:induction false} ZeroCountsSumZero(convs: seq<Summary>)
    requires forall i :: 0 <= i < |convs| ==> convs[i].unreadCount.GetOr(0) == 0
    ensures Sum(convs) == 0
  {
    if |convs| > 0 {
      ZeroCountsSumZero(convs[..|convs| - 1]);
    }
  }

  /** `enabled: !!userId`: the listing is fetched only for a signed-in user. */
  predicate QueryEnabled(user: Option<User>) {
    Truthy(SessionUserId(user))
  }

  /** The hook fetches exactly when the provider opens a socket. */
  lemma {:induction false} QueryEnabledIffSocket(user: Option<User>)
    ensures QueryEnabled(user) <==> Mount(InitialProvider(), user).ws.Connecting?
    ensures user.None? ==> !QueryEnabled(user)
  {
  }
}

=== FILE: chat_relay.dfy ===
/**
 * The WebSocket chat relay of backend/chat-ws-server.js.
 *
 * The relay keeps a registry `clients` from user id to connection, the set of
 * live connections with their `isAlive` heartbeat flag, and writes to the
 * message and conversation collections. Every event (a connection, an inbound
 * frame, a pong, a close, one heartbeat sweep) is one atomic step that returns
 * the new state and the NEW_MESSAGE frames sent, in sending order.
 * The database's answers (the saved message's id and time, whether the writes
 * succeed) are parameters of the step.
 */
module ChatRelay {
  import opened Wrappers
  import opened Js
  import ObjectIds
  import MessageStore
  import ConversationDirectory

  /** A connection object of the `ws` server, identified by a number. */
  type ConnId = nat

  /** `ws.readyState`. */
  datatype ReadyState = Connecting | Open | Closing | Closed

  /** A connection: `ws._userId`, `ws.isAlive` and its ready state. */
  datatype Socket = Socket(userId: Option<string>, isAlive: bool, state: ReadyState)

  datatype Relay = Relay(
    clients: map<string, ConnId>,
    sockets: map<ConnId, Socket>,
    messages: MessageStore.Store,
    conversations: ConversationDirectory.Store)

  /**
   * Every registry entry names a known connection, and a connection's recorded
   * user id is never empty. (A registry entry may still name a closed connection.)
   */
  ghost predicate Valid(r: Relay) {
    && (forall u :: u in r.clients ==> r.clients[u] in r.sockets)
    && (forall c :: c in r.sockets && r.sockets[c].userId.Some? ==> r.sockets[c].userId.value != "")
  }

  /** The relay when the server starts. */
  function Initial(): (r: Relay)
    ensures Valid(r) && r.clients == map[] && r.sockets == map[]
  {
    Relay(map[], map[], [], [])
  }

  // ---------------------------------------------------------------- frames

  /** The fields of a parsed frame the handler reads; `kind` is the frame's `type`. */
  datatype Frame = Frame(
    kind: Val,
    userId: Val,
    messageBody: Val,
    messageType: Val,
    conversationId: Val,
    text: Val,
    fromUserId: Val,
    sender: Val,
    imageUrl: Val,
    images: Val,
    toUserId: Val,
    recipientId: Val,
    to: Val)

  /**
   * What `JSON.parse` made of the raw frame. A JSON primitive other than `null`
   * reads every field as `undefined`, so it is the frame whose fields are all `Undefined`.
   */
  datatype Inbound = Unparseable | NullLiteral | Object(frame: Frame)

  predicate IsIdentify(f: Frame) {
    f.kind == Str("IDENTIFY") || f.kind == Str("identify")
  }

  predicate IsMarkAsSeen(f: Frame) {
    f.kind == Str("MARK_AS_SEEN")
  }

  /** A chat message: not one of the typed control frames, and `messageBody || messageType`. */
  predicate IsChat(f: Frame) {
    !IsIdentify(f) && !IsMarkAsSeen(f) && (Truthy(f.messageBody) || Truthy(f.messageType))
  }

  /** The document handed to `new Messages(...)`, with the id and time the save assigns. */
  function MessageOf(f: Frame, id: string, now: int): MessageStore.Message {
    MessageStore.Message(
      id,
      f.conversationId,
      Or(Or(f.messageBody, f.text), Str("")),
      Or(f.fromUserId, f.sender),
      Or(Or(f.imageUrl, f.images), Undefined),
      now)
  }

  /** `(toUserId || recipientId || to)?.toString()`. */
  function RecipientId(f: Frame): Option<string> {
    OptToString(Or(Or(f.toUserId, f.recipientId), f.to))
  }

  /** `(fromUserId || sender)?.toString()`. */
  function SenderId(f: Frame): Option<string> {
    OptToString(Or(f.fromUserId, f.sender))
  }

  /** A NEW_MESSAGE frame sent on a connection; its payload is the saved message. */
  datatype Delivery = Delivery(conn: ConnId, message: MessageStore.Message)

  /** The connection a frame for `id` goes to: registered and OPEN, else none. */
  function Route(r: Relay, id: Option<string>): (c: Option<ConnId>)
    ensures c.Some? <==>
      id.Some? && id.value != "" && id.value in r.clients
      && r.clients[id.value] in r.sockets && r.sockets[r.clients[id.value]].state == Open
    ensures c.Some? ==> c.value == r.clients[id.value]
  {
    if id.Some? && id.value != "" && id.value in r.clients then
      var c := r.clients[id.value];
      if c in r.sockets && r.sockets[c].state == Open then Some(c) else None
    else None
  }

  /** The recipient's copy first, then the sender's echo. */
  function Deliveries(r: Relay, f: Frame, m: MessageStore.Message): seq<Delivery> {
    (match Route(r, RecipientId(f)) case Some(c) => [Delivery(c, m)] case None => [])
    + (match Route(r, SenderId(f)) case Some(c) => [Delivery(c, m)] case None => [])
  }

  /** The answers of the database and the clock while one frame is handled. */
  datatype Env = Env(messageId: string, now: int, saveOk: bool, updateOk: bool)

  /**
   * The conversations after `findByIdAndUpdate(conversationId, { lastMessage, lastMessageId })`.
   * A string id goes through the id cast; an `undefined` id leaves the filter
   * `{ _id: undefined }` without its key, so the update lands on the first stored
   * conversation; `null` matches no document, and any other value fails the cast,
   * whose error the handler ignores.
   */
  function UpdatedConversations(r: Relay, f: Frame, m: MessageStore.Message, env: Env): ConversationDirectory.Store {
    if !env.updateOk then r.conversations
    else
      match f.conversationId
      case Str(id) => ConversationDirectory.UpdateLastMessage(r.conversations, id, ToString(m.text), m.id, env.now).0
      case Undefined =>
        if |r.conversations| == 0 then r.conversations
        else r.conversations[0 := r.conversations[0].(lastMessage := ToString(m.text), lastMessageId := m.id, updatedAt := env.now)]
      case _ => r.conversations
  }

  /** The chat branch: save, update the conversation preview, forward. */
  function Chat(r: Relay, f: Frame, env: Env): (res: (Relay, seq<Delivery>))
    ensures !env.saveOk ==> res == (r, [])
    ensures env.saveOk ==>
      && res.0.messages == r.messages + [MessageOf(f, env.messageId, env.now)]
      && res.0.clients == r.clients && res.0.sockets == r.sockets
      && |res.0.conversations| == |r.conversations|
      && |res.1| <= 2
      && forall i :: 0 <= i < |res.1| ==>
           && res.1[i].message == MessageOf(f, env.messageId, env.now)
           && res.1[i].conn in r.sockets && r.sockets[res.1[i].conn].state == Open
  {
    if !env.saveOk then (r, [])
    else
      var m := MessageOf(f, env.messageId, env.now);
      (r.(messages := r.messages + [m], conversations := UpdatedConversations(r, f, m, env)), Deliveries(r, f, m))
  }

  /** IDENTIFY: with a truthy `userId`, bind its string form to this connection. */
  function Identify(r: Relay, conn: ConnId, f: Frame): Relay
    requires conn in r.sockets
  {
    if Truthy(f.userId) then
      var u := ToString(f.userId);
      r.(clients := r.clients[u := conn], sockets := r.sockets[conn := r.sockets[conn].(userId := Some(u))])
    else r
  }

  /**
   * The `message` handler on connection `conn`. A `null` frame is ignored like an
   * unparseable one; `HandleFrameAsWritten` is the handler as the source has it.
   */
  function HandleFrame(r: Relay, conn: ConnId, inbound: Inbound, env: Env): (res: (Relay, seq<Delivery>))
    requires conn in r.sockets
    ensures inbound.Unparseable? || inbound.NullLiteral? ==> res == (r, [])
    ensures inbound.Object? && IsIdentify(inbound.frame) ==>
      && res.1 == []
      && res.0.messages == r.messages && res.0.conversations == r.conversations
      && (Truthy(inbound.frame.userId) ==>
            && res.0.clients == r.clients[ToString(inbound.frame.userId) := conn]
            && res.0.sockets == r.sockets[conn := r.sockets[conn].(userId := Some(ToString(inbound.frame.userId)))])
      && (!Truthy(inbound.frame.userId) ==> res.0 == r)
    ensures inbound.Object? && !IsIdentify(inbound.frame) && !IsChat(inbound.frame) ==> res == (r, [])
    ensures res.0.sockets.Keys == r.sockets.Keys
    ensures Valid(r) ==> Valid(res.0)
  {
    match inbound
    case Unparseable => (r, [])
    case NullLiteral => (r, [])
    case Object(f) =>
      if IsIdentify(f) then (Identify(r, conn, f), [])
      else if IsMarkAsSeen(f) then (r, [])
      else if IsChat(f) then Chat(r, f, env)
      else (r, [])
  }

  /** The handler's promise: it settles with a step, or rejects with a TypeError. */
  datatype Handling = Done(relay: Relay, out: seq<Delivery>) | TypeErrorThrown

  /**
   * The handler as written: `null` parses without error, and `data.type` then throws
   * inside the async callback, so its promise rejects and nobody handles the rejection.
   */
  function HandleFrameAsWritten(r: Relay, conn: ConnId, inbound: Inbound, env: Env): (h: Handling)
    requires conn in r.sockets
    ensures h.TypeErrorThrown? <==> inbound.NullLiteral?
    ensures h.Done? ==> (h.relay, h.out) == HandleFrame(r, conn, inbound, env)
  {
    if inbound.NullLiteral? then TypeErrorThrown
    else var res := HandleFrame(r, conn, inbound, env); Done(res.0, res.1)
  }

  // ---------------------------------------------------------------- connection events

  /** A new connection: OPEN, `isAlive` true, not yet identified. */
  function Connect(r: Relay, conn: ConnId): (r': Relay)
    requires conn !in r.sockets
    ensures r'.sockets == r.sockets[conn := Socket(None, true, Open)]
    ensures r'.clients == r.clients && r'.messages == r.messages && r'.conversations == r.conversations
    ensures Valid(r) ==> Valid(r')
  {
    r.(sockets := r.sockets[conn := Socket(None, true, Open)])
  }

  function Pong(r: Relay, conn: ConnId): (r': Relay)
    requires conn in r.sockets
    ensures r'.sockets == r.sockets[conn := r.sockets[conn].(isAlive := true)]
    ensures r'.clients == r.clients && r'.messages == r.messages && r'.conversations == r.conversations
    ensures Valid(r) ==> Valid(r')
  {
    r.(sockets := r.sockets[conn := r.sockets[conn].(isAlive := true)])
  }

  /** `close`: the connection is CLOSED and the registry key of its recorded user id is deleted. */
  function Close(r: Relay, conn: ConnId): (r': Relay)
    requires conn in r.sockets
    ensures r'.sockets == r.sockets[conn := r.sockets[conn].(state := Closed)]
    ensures r.sockets[conn].userId.Some? && r.sockets[conn].userId.value != "" ==>
      r'.clients == r.clients - {r.sockets[conn].userId.value}
    ensures r.sockets[conn].userId.None? || r.sockets[conn].userId.value == "" ==> r'.clients == r.clients
    ensures r'.messages == r.messages && r'.conversations == r.conversations
    ensures Valid(r) ==> Valid(r')
  {
    var s := r.sockets[conn];
    var clients := if s.userId.Some? && s.userId.value != "" then r.clients - {s.userId.value} else r.clients;
    r.(clients := clients, sockets := r.sockets[conn := s.(state := Closed)])
  }

  /** One connection in the heartbeat sweep: terminate it, or clear its flag and ping it. */
  function SweepSocket(s: Socket): Socket {
    if s.state == Closed then s
    else if !s.isAlive then s.(state := Closing)
    else s.(isAlive := false)
  }

  /**
   * One run of the 30-second heartbeat over the live connections. Returns the
   * new state, the connections terminated and the connections pinged.
   */
  function Sweep(r: Relay): (res: (Relay, set<ConnId>, set<ConnId>))
    ensures res.0.sockets.Keys == r.sockets.Keys
    ensures forall c :: c in r.sockets && r.sockets[c].state != Closed ==>
      && (!r.sockets[c].isAlive <==> c in res.1)
      && (r.sockets[c].isAlive <==> c in res.2)
      && (!r.sockets[c].isAlive ==> res.0.sockets[c] == r.sockets[c].(state := Closing))
      && (r.sockets[c].isAlive ==> res.0.sockets[c] == r.sockets[c].(isAlive := false))
    ensures forall c :: c in r.sockets && r.sockets[c].state == Closed ==>
      res.0.sockets[c] == r.sockets[c] && c !in res.1 && c !in res.2
    ensures res.1 !! res.2
    ensures res.0.clients == r.clients && res.0.messages == r.messages && res.0.conversations == r.conversations
    ensures Valid(r) ==> Valid(res.0)
  {
    var sockets := map c | c in r.sockets :: SweepSocket(r.sockets[c]);
    var terminated := set c | c in r.sockets && r.sockets[c].state != Closed && !r.sockets[c].isAlive;
    var pinged := set c | c in r.sockets && r.sockets[c].state != Closed && r.sockets[c].isAlive;
    (r.(sockets := sockets), terminated, pinged)
  }

  // ---------------------------------------------------------------- the step function

  datatype Event =
    | Connected(conn: ConnId)
    | Received(conn: ConnId, inbound: Inbound, env: Env)
    | Ponged(conn: ConnId)
    | Disconnected(conn: ConnId)
    | Heartbeat

  /** Events `ws` can deliver in this state: frames, pongs and closes only on known connections. */
  predicate Enabled(r: Relay, e: Event) {
    match e
    case Connected(c) => c !in r.sockets
    case Received(c, _, _) => c in r.sockets
    case Ponged(c) => c in r.sockets
    case Disconnected(c) => c in r.sockets
    case Heartbeat => true
  }

  function Step(r: Relay, e: Event): (res: (Relay, seq<Delivery>))
    requires Enabled(r, e)
    ensures Valid(r) ==> Valid(res.0)
    ensures !e.Received? ==> res.1 == []
  {
    match e
    case Connected(c) => (Connect(r, c), [])
    case Received(c, inbound, env) => HandleFrame(r, c, inbound, env)
    case Ponged(c) => (Pong(r, c), [])
    case Disconnected(c) => (Close(r, c), [])
    case Heartbeat => (Sweep(r).0, [])
  }

  /** Running a sequence of enabled events from a valid state. */
  function Run(r: Relay, events: seq<Event>): (res: Option<Relay>)
    ensures Valid(r) && res.Some? ==> Valid(res.value)
    decreases |events|
  {
    if events == [] then Some(r)
    else if !Enabled(r, events[0]) then None
    else Run(Step(r, events[0]).0, events[1..])
  }

  // ---------------------------------------------------------------- properties

  /** A MARK_AS_SEEN frame changes nothing and sends nothing, whatever else it carries. */
  lemma {:induction false} MarkAsSeenIsNoOp(r: Relay, conn: ConnId, f: Frame, env: Env)
    requires conn in r.sockets && IsMarkAsSeen(f)
    ensures HandleFrame(r, conn, Object(f), env) == (r, [])
  {
  }

  /** The message store grows exactly on a chat frame whose save succeeds, by one message. */
  lemma {:induction false} StoreGrowsOnlyOnSavedChat(r: Relay, conn: ConnId, inbound: Inbound, env: Env)
    requires conn in r.sockets
    ensures var r' := HandleFrame(r, conn, inbound, env).0;
      && (inbound.Object? && IsChat(inbound.frame) && env.saveOk ==>
            r'.messages == r.messages + [MessageOf(inbound.frame, env.messageId, env.now)])
      && (!(inbound.Object? && IsChat(inbound.frame) && env.saveOk) ==> r'.messages == r.messages)
  {
  }

  /** The persisted message: text, sender and images fall back in the order the handler lists them. */
  lemma {:induction false} PersistedMessage(r: Relay, conn: ConnId, f: Frame, env: Env)
    requires conn in r.sockets && IsChat(f) && env.saveOk
    ensures var r' := HandleFrame(r, conn, Object(f), env).0;
      var m := r'.messages[|r'.messages| - 1];
      && |r'.messages| == |r.messages| + 1
      && m.id == env.messageId && m.conversationId == f.conversationId
      && (Truthy(f.messageBody) ==> m.text == f.messageBody)
      && (!Truthy(f.messageBody) && Truthy(f.text) ==> m.text == f.text)
      && (!Truthy(f.messageBody) && !Truthy(f.text) ==> m.text == Str(""))
      && (Truthy(f.fromUserId) ==> m.sender == f.fromUserId)
      && (!Truthy(f.fromUserId) ==> m.sender == f.sender)
      && (Truthy(f.imageUrl) ==> m.images == f.imageUrl)
      && (!Truthy(f.imageUrl) && Truthy(f.images) ==> m.images == f.images)
      && (!Truthy(f.imageUrl) && !Truthy(f.images) ==> m.images == Undefined)
  {
  }

  /**
   * After a saved chat frame whose conversation exists, that conversation's
   * preview is the saved message's text and id.
   */
  lemma {:induction false} PreviewFollowsSavedMessage(r: Relay, conn: ConnId, f: Frame, env: Env, k: nat)
    requires conn in r.sockets && IsChat(f) && env.saveOk && env.updateOk
    requires f.conversationId.Str? && ObjectIds.Valid(f.conversationId.s)
    requires k < |r.conversations| && r.conversations[k].id == ObjectIds.Key(f.conversationId.s)
    requires ConversationDirectory.IdsUnique(r.conversations)
    ensures var r' := HandleFrame(r, conn, Object(f), env).0;
      var m := MessageOf(f, env.messageId, env.now);
      && |r'.conversations| == |r.conversations|
      && r'.conversations[k].lastMessage == ToString(m.text)
      && r'.conversations[k].lastMessageId == env.messageId
  {
    var res := ConversationDirectory.UpdateLastMessage(r.conversations, f.conversationId.s,
      ToString(MessageOf(f, env.messageId, env.now).text), env.messageId, env.now);
    assert res.1.Updated?;
    var j :| 0 <= j < |r.conversations| && r.conversations[j].id == ObjectIds.Key(f.conversationId.s)
      && res.0[j].lastMessage == ToString(MessageOf(f, env.messageId, env.now).text)
      && res.0[j].lastMessageId == env.messageId;
    assert j == k;
  }

  /**
   * A saved chat frame without a `conversationId` still updates a preview: the
   * first stored conversation's, whoever its members are. Nothing else changes
   * in the conversation store.
   */
  lemma {:induction false} MissingConversationOverwritesFirst(r: Relay, conn: ConnId, f: Frame, env: Env)
    requires conn in r.sockets && IsChat(f) && env.saveOk && env.updateOk
    requires f.conversationId.Undefined? && |r.conversations| > 0
    ensures var r' := HandleFrame(r, conn, Object(f), env).0;
      var m := MessageOf(f, env.messageId, env.now);
      && |r'.conversations| == |r.conversations|
      && r'.conversations[0].id == r.conversations[0].id
      && r'.conversations[0].members == r.conversations[0].members
      && r'.conversations[0].lastMessage == ToString(m.text)
      && r'.conversations[0].lastMessageId == env.messageId
      && forall j :: 0 < j < |r.conversations| ==> r'.conversations[j] == r.conversations[j]
  {
  }

  /** A `null` conversation id, or a failed update, leaves every conversation as it was. */
  lemma {:induction false} NoPreviewWithoutTarget(r: Relay, conn: ConnId, f: Frame, env: Env)
    requires conn in r.sockets
    requires f.conversationId.Null? || !env.updateOk
    ensures HandleFrame(r, conn, Object(f), env).0.conversations == r.conversations
  {
  }

  /** A failed conversation update changes what is stored, never what is forwarded. */
  lemma {:induction false} ForwardingIgnoresUpdateFailure(r: Relay, conn: ConnId, inbound: Inbound, env: Env)
    requires conn in r.sockets
    ensures HandleFrame(r, conn, inbound, env.(updateOk := false)).1 == HandleFrame(r, conn, inbound, env.(updateOk := true)).1
    ensures HandleFrame(r, conn, inbound, env.(updateOk := false)).0.messages == HandleFrame(r, conn, inbound, env.(updateOk := true)).0.messages
  {
  }

  /**
   * Routing of a saved chat message: a connection receives the frame exactly when it
   * is the OPEN registered connection of the recipient or of the sender; every copy
   * carries the saved message, and at most two copies are sent.
   */
  lemma {:induction false} RoutingOfSavedChat(r: Relay, conn: ConnId, f: Frame, env: Env, c: ConnId)
    requires conn in r.sockets && IsChat(f) && env.saveOk
    ensures var out := HandleFrame(r, conn, Object(f), env).1;
      && |out| <= 2
      && (forall i :: 0 <= i < |out| ==> out[i].message == MessageOf(f, env.messageId, env.now))
      && ((exists i :: 0 <= i < |out| && out[i].conn == c) <==>
            (Route(r, RecipientId(f)) == Some(c) || Route(r, SenderId(f)) == Some(c)))
  {
    var m := MessageOf(f, env.messageId, env.now);
    var out := HandleFrame(r, conn, Object(f), env).1;
    var first: seq<Delivery> := match Route(r, RecipientId(f)) case Some(c) => [Delivery(c, m)] case None => [];
    var second: seq<Delivery> := match Route(r, SenderId(f)) case Some(c) => [Delivery(c, m)] case None => [];
    assert out == first + second;
    if Route(r, RecipientId(f)) == Some(c) {
      assert out[0].conn == c;
    } else if Route(r, SenderId(f)) == Some(c) {
      assert out[|first|].conn == c;
    }
  }

  /** Every frame sent goes to a registered connection that is OPEN. */
  lemma {:induction false} DeliveriesGoToOpenRegistered(r: Relay, conn: ConnId, inbound: Inbound, env: Env)
    requires conn in r.sockets
    ensures var out := HandleFrame(r, conn, inbound, env).1;
      forall i :: 0 <= i < |out| ==>
        && out[i].conn in r.sockets && r.sockets[out[i].conn].state == Open
        && out[i].conn in r.clients.Values
  {
    var out := HandleFrame(r, conn, inbound, env).1;
    if inbound.Object? && IsChat(inbound.frame) && env.saveOk {
      var f := inbound.frame;
      forall i | 0 <= i < |out|
        ensures out[i].conn in r.sockets && r.sockets[out[i].conn].state == Open && out[i].conn in r.clients.Values
      {
        var ids := [RecipientId(f), SenderId(f)];
        var id :| id in ids && Route(r, id) == Some(out[i].conn);
        assert r.clients[id.value] == out[i].conn;
      }
    }
  }

  /** A recipient with no OPEN registered connection gets nothing; a failed save sends nothing at all. */
  lemma {:induction false} OfflineGetsNothing(r: Relay, conn: ConnId, f: Frame, env: Env, c: ConnId)
    requires conn in r.sockets
    requires !exists u :: u in r.clients && r.clients[u] == c
    ensures forall i :: 0 <= i < |HandleFrame(r, conn, Object(f), env).1| ==>
      HandleFrame(r, conn, Object(f), env).1[i].conn != c
    ensures IsChat(f) && !env.saveOk ==> HandleFrame(r, conn, Object(f), env) == (r, [])
  {
    DeliveriesGoToOpenRegistered(r, conn, Object(f), env);
  }

  /**
   * Close deletes the key of the closing connection's user even when that key has
   * since been rebound to a newer connection, which then receives nothing.
   */
  lemma {:induction false} CloseUnbindsReboundKey(r: Relay, stale: ConnId, newer: ConnId, u: string)
    requires stale in r.sockets && r.sockets[stale].userId == Some(u) && u != ""
    requires u in r.clients && r.clients[u] == newer && newer != stale && newer in r.sockets
    ensures u !in Close(r, stale).clients
    ensures Close(r, stale).sockets[newer] == r.sockets[newer]
  {
  }

  /** An `{ type: "IDENTIFY", userId: u }` frame. */
  function IdentifyFrame(u: string): Frame {
    Frame(Str("IDENTIFY"), Str(u), Undefined, Undefined, Undefined, Undefined,
          Undefined, Undefined, Undefined, Undefined, Undefined, Undefined, Undefined)
  }

  /** Two connections open, both identify as "u1", then the first one closes. */
  function RebindEvents(env: Env): seq<Event> {
    [Connected(0), Connected(1), Received(0, Object(IdentifyFrame("u1")), env),
     Received(1, Object(IdentifyFrame("u1")), env), Disconnected(0)]
  }

  /** An enabled first event is stepped, and the run goes on from there. */
  lemma {:induction false} RunUnfold(r: Relay, events: seq<Event>)
    requires |events| > 0 && Enabled(r, events[0])
    ensures Run(r, events) == Run(Step(r, events[0]).0, events[1..])
  {
  }

  /** A concrete run: two connections identify as the same user, the first closes, the user is unreachable. */
  lemma {:induction false} RebindThenCloseLosesUser(env: Env)
    ensures var run := Run(Initial(), RebindEvents(env));
      && run.Some?
      && 1 in run.value.sockets
      && run.value.sockets[1].state == Open
      && run.value.sockets[1].userId == Some("u1")
      && "u1" !in run.value.clients
  {
    var events := RebindEvents(env);
    var s0 := Socket(None, true, Open);
    var s1 := Socket(Some("u1"), true, Open);
    var r2 := Relay(map[], map[0 := s0, 1 := s0], [], []);
    var r4 := Relay(map["u1" := 1], map[0 := s1, 1 := s1], [], []);
    var r5 := Relay(map[], map[0 := s1.(state := Closed), 1 := s1], [], []);
    RebindConnects(env, r2);
    RebindIdentifies(env, r2, r4);
    RebindCloses(env, r4, r5);
  }

  lemma {:induction false} RebindConnects(env: Env, r2: Relay)
    requires r2 == Relay(map[], map[0 := Socket(None, true, Open), 1 := Socket(None, true, Open)], [], [])
    ensures Run(Initial(), RebindEvents(env)) == Run(r2, RebindEvents(env)[2..])
  {
    var events := RebindEvents(env);
    RunUnfold(Initial(), events);
    RunUnfold(Connect(Initial(), 0), events[1..]);
    assert events[1..][1..] == events[2..];
  }

  lemma {:induction false} RebindIdentifies(env: Env, r2: Relay, r4: Relay)
    requires r2 == Relay(map[], map[0 := Socket(None, true, Open), 1 := Socket(None, true, Open)], [], [])
    requires r4 == Relay(map["u1" := 1], map[0 := Socket(Some("u1"), true, Open), 1 := Socket(Some("u1"), true, Open)], [], [])
    ensures Run(r2, RebindEvents(env)[2..]) == Run(r4, RebindEvents(env)[4..])
  {
    var events := RebindEvents(env);
    var r3 := Identify(r2, 0, IdentifyFrame("u1"));
    assert events[2..] == [events[2]] + events[3..];
    RunIdentify(r2, 0, "u1", env, events[3..]);
    assert events[3..] == [events[3]] + events[4..];
    RunIdentify(r3, 1, "u1", env, events[4..]);
    IdentifyTwice(r2, r4);
  }

  lemma {:induction false} IdentifyTwice(r2: Relay, r4: Relay)
    requires r2 == Relay(map[], map[0 := Socket(None, true, Open), 1 := Socket(None, true, Open)], [], [])
    requires r4 == Relay(map["u1" := 1], map[0 := Socket(Some("u1"), true, Open), 1 := Socket(Some("u1"), true, Open)], [], [])
    ensures Identify(Identify(r2, 0, IdentifyFrame("u1")), 1, IdentifyFrame("u1")) == r4
  {
    var f := IdentifyFrame("u1");
    assert Truthy(f.userId) && ToString(f.userId) == "u1";
    var r3 := Identify(r2, 0, f);
    assert r3.clients == map["u1" := 0];
    var r4' := Identify(r3, 1, f);
    assert r4'.clients == r4.clients;
    assert r4'.sockets == r4.sockets;
  }

  lemma {:induction false} RebindCloses(env: Env, r4: Relay, r5: Relay)
    requires r4 == Relay(map["u1" := 1], map[0 := Socket(Some("u1"), true, Open), 1 := Socket(Some("u1"), true, Open)], [], [])
    requires r5 == Relay(map[], map[0 := Socket(Some("u1"), true, Closed), 1 := Socket(Some("u1"), true, Open)], [], [])
    ensures Run(r4, RebindEvents(env)[4..]) == Some(r5)
  {
    var events := RebindEvents(env);
    RunUnfold(r4, events[4..]);
    assert events[4..][1..] == [];
    assert Close(r4, 0).clients == map[];
    assert Close(r4, 0) == r5;
  }

  /** A frame identifying as a non-empty `u` binds it and the run goes on from there. */
  lemma {:induction false} RunIdentify(r: Relay, conn: ConnId, u: string, env: Env, rest: seq<Event>)
    requires conn in r.sockets && u != ""
    ensures Run(r, [Received(conn, Object(IdentifyFrame(u)), env)] + rest) == Run(Identify(r, conn, IdentifyFrame(u)), rest)
  {
    var events := [Received(conn, Object(IdentifyFrame(u)), env)] + rest;
    assert Step(r, events[0]).0 == Identify(r, conn, IdentifyFrame(u));
    assert events[1..] == rest;
  }

  /** Two sweeps with no pong in between terminate every connection that was live. */
  lemma {:induction false} TwoSweepsWithoutPongTerminate(r: Relay, c: ConnId)
    requires c in r.sockets && r.sockets[c].state != Closed
    ensures var once := Sweep(r).0;
      c in Sweep(r).1 || c in Sweep(once).1
  {
  }

  /** A pong between two sweeps keeps a connection from being terminated by the second. */
  lemma {:induction false} PongKeepsAlive(r: Relay, c: ConnId)
    requires c in r.sockets && r.sockets[c].state == Open
    ensures var after := Pong(Sweep(r).0, c);
      (after.sockets[c].isAlive && c !in Sweep(after).1) || c in Sweep(r).1
  {
  }

  /** The corrected handler ignores a `null` frame; the handler as written rejects on it. */
  lemma {:induction false} NullFrameRejectsAsWritten(r: Relay, conn: ConnId, env: Env)
    requires conn in r.sockets
    ensures HandleFrameAsWritten(r, conn, NullLiteral, env).TypeErrorThrown?
    ensures HandleFrame(r, conn, NullLiteral, env) == (r, [])
  {
  }
}

=== FILE: conversation_directory.dfy ===
/**
 * The conversation REST handlers of backend/controller/conversation.js:
 * create-or-get, the user and seller listings, and update-last-message.
 * The store is the conversations collection in natural (insertion) order.
 */
module ConversationDirectory {
  import opened Wrappers
  import ObjectIds
  import opened Ordering
  import opened ConversationModel
  import Js

  type Store = seq<Conversation>

  ghost predicate IdsUnique(store: Store) {
    forall i, j :: 0 <= i < j < |store| ==> store[i].id != store[j].id
  }

  ghost predicate FreshId(store: Store, id: string) {
    forall i :: 0 <= i < |store| ==> store[i].id != id
  }

  /**
   * Result of create-new-conversation. Both success branches answer 201.
   * `CrashedInCatch`: the catch block reads `error.response.message`, which throws
   * a TypeError for a database error, so the failure never becomes the intended 400.
   */
  datatype CreateOutcome = Existing(conversation: Conversation) | Created(conversation: Conversation) | CrashedInCatch

  /**
   * Whether the lookup `findOne({ groupTilte })` degenerates to `findOne({})`.
   * Mongoose leaves an `undefined` filter value out of the query; with
   * `strictQuery` on (the default in Mongoose 6) it also strips the path
   * `groupTilte`, which the schema does not declare. A `null` value matches every
   * document lacking the field, which is every stored conversation, because the
   * strict schema drops `groupTilte` on create as well.
   */
  predicate LookupMatchesAll(groupTilte: Js.Val, strictQuery: bool) {
    groupTilte.Undefined? || groupTilte.Null? || strictQuery
  }

  /**
   * create-new-conversation as written. The mobile client sends only `userId` and
   * `sellerId`, so `groupTilte` is `undefined`. When the lookup matches everything,
   * the first stored conversation is returned to whoever asks; otherwise (a value
   * was sent and `strictQuery` is off) nothing matches and a conversation is created.
   */
  function CreateOrGetAsWritten(store: Store, groupTilte: Js.Val, strictQuery: bool, userId: string, sellerId: string,
                                freshId: string, now: int, createOk: bool): (r: (Store, CreateOutcome))
    requires FreshId(store, freshId)
    ensures LookupMatchesAll(groupTilte, strictQuery) && |store| > 0 ==> r == (store, Existing(store[0]))
    ensures !(LookupMatchesAll(groupTilte, strictQuery) && |store| > 0) && createOk ==>
      && r.1.Created?
      && r.0 == store + [r.1.conversation]
      && r.1.conversation.members == [userId, sellerId]
      && r.1.conversation.title == None
      && r.1.conversation.id == freshId
    ensures !(LookupMatchesAll(groupTilte, strictQuery) && |store| > 0) && !createOk ==> r == (store, CrashedInCatch)
  {
    if LookupMatchesAll(groupTilte, strictQuery) && |store| > 0 then (store, Existing(store[0]))
    else if createOk then
      var c := NewConversation(freshId, None, [userId, sellerId], now);
      (store + [c], Created(c))
    else (store, CrashedInCatch)
  }

  /**
   * The request the client sends, against a non-empty store: every user and seller
   * is handed the first stored conversation, even when neither is a member of it.
   */
  lemma {:induction false} AsWrittenHandsOutFirst(store: Store, strictQuery: bool, userId: string, sellerId: string,
                                                  freshId: string, now: int, createOk: bool)
    requires FreshId(store, freshId) && |store| > 0
    ensures var r := CreateOrGetAsWritten(store, Js.Undefined, strictQuery, userId, sellerId, freshId, now, createOk);
      && r == (store, Existing(store[0]))
      && (userId !in store[0].members ==> userId !in r.1.conversation.members)
  {
  }

  /**
   * With a title sent and `strictQuery` off, the lookup never matches and each
   * request creates another conversation for the same pair.
   */
  lemma {:induction false} AsWrittenDuplicates(store: Store, title: string, userId: string, sellerId: string,
                                               id1: string, id2: string, now: int)
    requires FreshId(store, id1) && FreshId(store, id2) && id1 != id2
    ensures var first := CreateOrGetAsWritten(store, Js.Str(title), false, userId, sellerId, id1, now, true);
      FreshId(first.0, id2) &&
      var second := CreateOrGetAsWritten(first.0, Js.Str(title), false, userId, sellerId, id2, now, true);
      && |second.0| == |store| + 2
      && second.1.Created?
      && second.1.conversation != first.1.conversation
      && second.1.conversation.members == first.1.conversation.members
  {
  }

  /** The first stored conversation whose members are exactly `members`. */
  function FindByMembers(store: Store, members: seq<string>): (r: Option<nat>)
    ensures r.Some? ==> r.value < |store| && store[r.value].members == members
    ensures r.Some? ==> forall k :: 0 <= k < r.value ==> store[k].members != members
    ensures r.None? ==> forall k :: 0 <= k < |store| ==> store[k].members != members
  {
    if |store| == 0 then None
    else if store[0].members == members then Some(0)
    else
      match FindByMembers(store[1..], members)
      case None => None
      case Some(k) => Some(k + 1)
  }

  /**
   * create-new-conversation keyed on what the request names: the pair
   * `[userId, sellerId]`. An existing conversation of the pair is returned;
   * otherwise one is created. `createOk` is the outcome of the database insert.
   */
  function CreateOrGet(store: Store, userId: string, sellerId: string,
                       freshId: string, now: int, createOk: bool): (r: (Store, CreateOutcome))
    requires FreshId(store, freshId)
    ensures (exists k :: 0 <= k < |store| && store[k].members == [userId, sellerId]) ==>
      r.0 == store && r.1.Existing? && r.1.conversation in store && r.1.conversation.members == [userId, sellerId]
    ensures (forall k :: 0 <= k < |store| ==> store[k].members != [userId, sellerId]) && createOk ==>
      && r.1.Created?
      && r.0 == store + [r.1.conversation]
      && r.1.conversation.members == [userId, sellerId]
      && r.1.conversation.id == freshId
      && r.1.conversation.lastMessage == ""
    ensures (forall k :: 0 <= k < |store| ==> store[k].members != [userId, sellerId]) && !createOk ==>
      r.0 == store && r.1.CrashedInCatch?
  {
    match FindByMembers(store, [userId, sellerId])
    case Some(k) => (store, Existing(store[k]))
    case None =>
      if createOk then
        var c := NewConversation(freshId, None, [userId, sellerId], now);
        (store + [c], Created(c))
      else (store, CrashedInCatch)
  }

  /** A store grown by create-or-get keeps its ids unique. */
  lemma {:induction false} CreateOrGetKeepsIdsUnique(store: Store, userId: string, sellerId: string,
                                                     freshId: string, now: int, createOk: bool)
    requires IdsUnique(store) && FreshId(store, freshId)
    ensures IdsUnique(CreateOrGet(store, userId, sellerId, freshId, now, createOk).0)
  {
  }

  /** Asking twice for the same pair yields the same conversation and adds at most one record. */
  lemma {:induction false} CreateOrGetIdempotent(store: Store, userId: string, sellerId: string,
                                                 id1: string, id2: string, now1: int, now2: int)
    requires FreshId(store, id1)
    requires var first := CreateOrGet(store, userId, sellerId, id1, now1, true);
      FreshId(first.0, id2)
    ensures var first := CreateOrGet(store, userId, sellerId, id1, now1, true);
      var second := CreateOrGet(first.0, userId, sellerId, id2, now2, true);
      && second.1.Existing?
      && second.1.conversation == first.1.conversation
      && second.0 == first.0
      && |second.0| <= |store| + 1
  {
    var pair := [userId, sellerId];
    var first := CreateOrGet(store, userId, sellerId, id1, now1, true);
    match FindByMembers(store, pair)
    case Some(k) =>
      assert first.0 == store;
      assert FindByMembers(first.0, pair) == Some(k);
    case None =>
      var c := first.1.conversation;
      assert first.0 == store + [c];
      var f := FindByMembers(first.0, pair);
      assert first.0[|store|].members == pair;
      assert f.Some?;
      assert f.value == |store|;
  }

  /** A pair with no conversation yet gets its own, whatever other pairs already have. */
  lemma {:induction false} CreateOrGetSeparatesPairs(store: Store, userId: string, sellerId: string,
                                                     freshId: string, now: int, k: nat)
    requires FreshId(store, freshId) && k < |store|
    requires forall j :: 0 <= j < |store| ==> store[j].members != [userId, sellerId]
    ensures var r := CreateOrGet(store, userId, sellerId, freshId, now, true);
      r.1.Created? && r.1.conversation != store[k] && r.1.conversation.members == [userId, sellerId]
  {
  }

  // ---------------------------------------------------------------- listings

  /** `conversation.updatedAt` descending, ties by `createdAt` descending. */
  function RecencyKey(c: Conversation): Key {
    Key(c.updatedAt, c.createdAt)
  }

  /** `Conversation.find({ members: { $in: [userId] } }).sort({ updatedAt: -1, createdAt: -1 })`. */
  function ConversationsOf(store: Store, userId: string): seq<Conversation> {
    SortDesc(Filter(store, (c: Conversation) => userId in c.members), RecencyKey)
  }

  /** The listing holds exactly the member's conversations, each as often as stored, newest first. */
  lemma {:induction false} ConversationsOfExactly(store: Store, userId: string)
    ensures var r := ConversationsOf(store, userId);
      && (forall c :: c in r <==> c in store && userId in c.members)
      && (forall c :: multiset(r)[c] == if userId in c.members then multiset(store)[c] else 0)
      && (forall i, j :: 0 <= i < j < |r| ==>
            r[i].updatedAt > r[j].updatedAt
            || (r[i].updatedAt == r[j].updatedAt && r[i].createdAt >= r[j].createdAt))
  {
    var f := Filter(store, (c: Conversation) => userId in c.members);
    var r := ConversationsOf(store, userId);
    assert multiset(r) == multiset(f);
    forall c ensures c in r <==> c in f {
      assert c in r <==> multiset(r)[c] > 0;
      assert c in f <==> multiset(f)[c] > 0;
    }
    forall i, j | 0 <= i < j < |r|
      ensures r[i].updatedAt > r[j].updatedAt
              || (r[i].updatedAt == r[j].updatedAt && r[i].createdAt >= r[j].createdAt)
    {
      assert NotAfter(RecencyKey(r[i]), RecencyKey(r[j]));
    }
  }

  /** A shop as the listing reads it: `Shop.findById(id).select("name avatar")`. */
  datatype Shop = Shop(id: string, name: string, avatarUrl: Option<string>)

  /** The counterpart card of a listed conversation; presence is never known (`isOnline: false`). */
  datatype Seller = Seller(id: string, name: string, avatar: Option<string>, isOnline: bool)

  /** One formatted entry of get-all-conversation-user. */
  datatype Entry = Entry(
    conversationId: string,
    lastMessage: string,
    lastMessageId: string,
    lastMessageAt: int,
    seller: Option<Seller>,
    unreadCount: int,
    updatedAt: int)

  /** `members.find((m) => m !== userId)`: the first member that is not the caller. */
  function Counterpart(members: seq<string>, userId: string): (r: Option<string>)
    ensures r.Some? <==> exists i :: 0 <= i < |members| && members[i] != userId
    ensures r.Some? ==> (r.value != userId &&
      exists i :: 0 <= i < |members| && members[i] == r.value
        && forall k :: 0 <= k < i ==> members[k] == userId)
  {
    if |members| == 0 then None
    else if members[0] != userId then Some(members[0])
    else
      var rest := Counterpart(members[1..], userId);
      assert forall i :: 1 <= i < |members| ==> members[i] == members[1..][i - 1];
      rest
  }

  /** The member whose shop the listing looks up, when the handler looks one up at all. */
  function LookedUpSeller(c: Conversation, userId: string): Option<string> {
    var s := Counterpart(c.members, userId);
    if s.None? || s.value == "" || |c.members| < 2 then None else s
  }

  function SellerCard(shop: Shop): Seller {
    Seller(shop.id, shop.name,
           if shop.avatarUrl.Some? && shop.avatarUrl.value != "" then shop.avatarUrl else None,
           false)
  }

  /** The entry for one conversation; `None` when the shop lookup fails with a cast error. */
  function Format(c: Conversation, userId: string, shops: map<string, Shop>): Option<Entry> {
    var seller: Option<Option<Seller>> :=
      match LookedUpSeller(c, userId)
      case None => Some(None)
      case Some(sid) =>
        match ObjectIds.FindById(shops, sid)
        case Hit(shop) => Some(Some(SellerCard(shop)))
        case Miss => Some(None)
        case CastFailure => None;
    if seller.None? then None
    else Some(Entry(c.id, c.lastMessage, c.lastMessageId, c.updatedAt, seller.value, 0, c.updatedAt))
  }

  /** What one formatted entry says about its conversation. */
  ghost predicate EntryFor(e: Entry, c: Conversation, userId: string, shops: map<string, Shop>) {
    && e.conversationId == c.id
    && e.lastMessage == c.lastMessage
    && e.lastMessageId == c.lastMessageId
    && e.lastMessageAt == c.updatedAt == e.updatedAt
    && e.unreadCount == 0
    && (e.seller.Some? <==> (LookedUpSeller(c, userId).Some? && ObjectIds.Valid(LookedUpSeller(c, userId).value)
                             && ObjectIds.Key(LookedUpSeller(c, userId).value) in shops))
    && (e.seller.Some? ==>
          && e.seller.value.id == shops[ObjectIds.Key(LookedUpSeller(c, userId).value)].id
          && !e.seller.value.isOnline)
  }

  lemma {:induction false} FormatSpec(c: Conversation, userId: string, shops: map<string, Shop>)
    ensures var f := Format(c, userId, shops);
      && (f.Some? <==> LookedUpSeller(c, userId).None? || ObjectIds.Valid(LookedUpSeller(c, userId).value))
      && (f.Some? ==> EntryFor(f.value, c, userId, shops))
  {
  }

  /** `Promise.all` over the formatted entries: one rejected lookup rejects them all. */
  function FormatAll(convs: seq<Conversation>, userId: string, shops: map<string, Shop>): (r: Option<seq<Entry>>)
    ensures r.Some? <==> forall i :: 0 <= i < |convs| ==> Format(convs[i], userId, shops).Some?
    ensures r.Some? ==> (|r.value| == |convs|
      && forall i :: 0 <= i < |convs| ==> r.value[i] == Format(convs[i], userId, shops).value)
  {
    if |convs| == 0 then Some([])
    else
      var head := Format(convs[0], userId, shops);
      var tail := FormatAll(convs[1..], userId, shops);
      if head.None? || tail.None? then
        assert tail.None? ==> exists i :: 0 <= i < |convs[1..]| && Format(convs[1..][i], userId, shops).None?;
        None
      else
        var r := [head.value] + tail.value;
        assert forall i :: 1 <= i < |convs| ==> convs[i] == convs[1..][i - 1];
        Some(r)
  }

  lemma {:induction false} FormatAllSpec(convs: seq<Conversation>, userId: string, shops: map<string, Shop>)
    ensures var r := FormatAll(convs, userId, shops);
      && (r.Some? <==> forall i :: 0 <= i < |convs| ==>
            LookedUpSeller(convs[i], userId).None? || ObjectIds.Valid(LookedUpSeller(convs[i], userId).value))
      && (r.Some? ==> forall i :: 0 <= i < |convs| ==> EntryFor(r.value[i], convs[i], userId, shops))
  {
    forall i | 0 <= i < |convs| {
      FormatSpec(convs[i], userId, shops);
    }
  }

  /** get-all-conversation-user: 200 with the entries, or 400 when a shop lookup throws. */
  datatype Listing = Listed(entries: seq<Entry>) | LookupFailed

  function ListForUser(store: Store, userId: string, shops: map<string, Shop>): (r: Listing)
    ensures var convs := ConversationsOf(store, userId);
      && (r.Listed? <==> forall i :: 0 <= i < |convs| ==>
            LookedUpSeller(convs[i], userId).None? || ObjectIds.Valid(LookedUpSeller(convs[i], userId).value))
      && (r.Listed? ==> |r.entries| == |convs| && forall i :: 0 <= i < |convs| ==>
            EntryFor(r.entries[i], convs[i], userId, shops))
  {
    var convs := ConversationsOf(store, userId);
    FormatAllSpec(convs, userId, shops);
    match FormatAll(convs, userId, shops)
    case Some(es) => Listed(es)
    case None => LookupFailed
  }

  /** A conversation with fewer than two members, or none but the caller, lists with `seller: null`. */
  lemma {:induction false} NoCounterpartMeansNullSeller(c: Conversation, userId: string, shops: map<string, Shop>)
    requires |c.members| < 2 || forall i :: 0 <= i < |c.members| ==> c.members[i] == userId
    ensures Format(c, userId, shops).Some?
    ensures Format(c, userId, shops).value.seller == None
  {
  }

  /** get-all-conversation-seller: the raw conversations, with the same filter and order. */
  function ListForSeller(store: Store, sellerId: string): (r: seq<Conversation>)
    ensures forall c :: c in r <==> c in store && sellerId in c.members
    ensures forall c :: multiset(r)[c] == if sellerId in c.members then multiset(store)[c] else 0
    ensures forall i, j :: 0 <= i < j < |r| ==>
      r[i].updatedAt > r[j].updatedAt
      || (r[i].updatedAt == r[j].updatedAt && r[i].createdAt >= r[j].createdAt)
  {
    ConversationsOfExactly(store, sellerId);
    ConversationsOf(store, sellerId)
  }

  /** A conversation just created appears in the listings of both its members. */
  lemma {:induction false} CreatedIsListed(store: Store, userId: string, sellerId: string, freshId: string, now: int)
    requires FreshId(store, freshId)
    requires forall j :: 0 <= j < |store| ==> store[j].members != [userId, sellerId]
    ensures var r := CreateOrGet(store, userId, sellerId, freshId, now, true);
      && r.1.conversation in ListForSeller(r.0, sellerId)
      && r.1.conversation in ConversationsOf(r.0, userId)
  {
    var r := CreateOrGet(store, userId, sellerId, freshId, now, true);
    assert r.1.conversation in r.0;
    ConversationsOfExactly(r.0, userId);
  }

  /** A conversation just created leads the seller's listing when every stored one was updated earlier. */
  lemma {:induction false} CreatedLeadsSellerListing(store: Store, userId: string, sellerId: string,
                                                     freshId: string, now: int)
    requires FreshId(store, freshId)
    requires forall j :: 0 <= j < |store| ==> store[j].members != [userId, sellerId]
    requires forall j :: 0 <= j < |store| ==> store[j].updatedAt < now
    ensures var r := CreateOrGet(store, userId, sellerId, freshId, now, true);
      ListForSeller(r.0, sellerId)[0] == r.1.conversation
  {
    var r := CreateOrGet(store, userId, sellerId, freshId, now, true);
    var c := r.1.conversation;
    assert r.0 == store + [c] && c.updatedAt == now;
    var l := ListForSeller(r.0, sellerId);
    assert c in r.0;
    assert c in l;
    var i :| 0 <= i < |l| && l[i] == c;
    HeadUpdatedLast(l, i);
    assert l[0] in r.0 && l[0] !in store;
  }

  /** In a listing sorted by updatedAt, descending, the head was updated no earlier than any entry. */
  lemma {:induction false} HeadUpdatedLast(l: seq<Conversation>, i: nat)
    requires i < |l|
    requires forall a, b :: 0 <= a < b < |l| ==>
      l[a].updatedAt > l[b].updatedAt || (l[a].updatedAt == l[b].updatedAt && l[a].createdAt >= l[b].createdAt)
    ensures l[0].updatedAt >= l[i].updatedAt
  {
    if i > 0 {
      assert l[0].updatedAt > l[i].updatedAt || l[0].updatedAt == l[i].updatedAt;
    }
  }

  // ---------------------------------------------------------------- update-last-message

  function IndexOfId(store: Store, id: string): (r: Option<nat>)
    ensures r.Some? ==> r.value < |store| && store[r.value].id == id
    ensures r.None? ==> FreshId(store, id)
  {
    if |store| == 0 then None
    else if store[0].id == id then Some(0)
    else
      match IndexOfId(store[1..], id)
      case None => None
      case Some(k) => Some(k + 1)
  }

  /** `findByIdAndUpdate(id, { lastMessage, lastMessageId }, { new: true })`. */
  datatype UpdateOutcome = Updated(conversation: Conversation) | NoSuchConversation | IdCastFailed

  /**
   * Sets the preview fields of the conversation with that id. The timestamps plugin
   * also sets `updatedAt`, which moves the conversation to the top of the listings.
   */
  function UpdateLastMessage(store: Store, id: string, text: string, messageId: string, now: int): (r: (Store, UpdateOutcome))
    ensures |r.0| == |store|
    ensures !ObjectIds.Valid(id) ==> r == (store, IdCastFailed)
    ensures ObjectIds.Valid(id) && FreshId(store, ObjectIds.Key(id)) ==> r == (store, NoSuchConversation)
    ensures ObjectIds.Valid(id) && !FreshId(store, ObjectIds.Key(id)) ==> r.1.Updated?
    ensures r.1.Updated? ==>
      exists k :: 0 <= k < |store| && store[k].id == ObjectIds.Key(id)
        && r.1.conversation == r.0[k]
        && r.0[k].lastMessage == text && r.0[k].lastMessageId == messageId && r.0[k].updatedAt == now
        && (forall j :: 0 <= j < |store| && j != k ==> r.0[j] == store[j])
  {
    if !ObjectIds.Valid(id) then (store, IdCastFailed)
    else
      match IndexOfId(store, ObjectIds.Key(id))
      case None => (store, NoSuchConversation)
      case Some(k) =>
        var c := store[k].(lastMessage := text, lastMessageId := messageId, updatedAt := now);
        (store[k := c], Updated(c))
  }

  /** Apart from the preview and `updatedAt`, no field of any conversation changes. */
  lemma {:induction false} UpdateLastMessageFrame(store: Store, id: string, text: string, messageId: string, now: int)
    ensures var s' := UpdateLastMessage(store, id, text, messageId, now).0;
      |s'| == |store| && forall j :: 0 <= j < |store| ==>
        && s'[j].id == store[j].id
        && s'[j].title == store[j].title
        && s'[j].members == store[j].members
        && s'[j].unreadCount == store[j].unreadCount
        && s'[j].createdAt == store[j].createdAt
  {
  }
}

=== FILE: conversation_model.dfy ===
/** The Conversation record of backend/model/conversation.js. */
module ConversationModel {
  import opened Wrappers

  /**
   * A stored conversation. `createdAt`/`updatedAt` are maintained by the
   * schema's `timestamps: true`; `title` is `groupTitle`, which the create handler never sets.
   */
  datatype Conversation = Conversation(
    id: string,
    title: Option<string>,
    members: seq<string>,
    lastMessage: string,
    lastMessageId: string,
    unreadCount: map<string, int>,
    createdAt: int,
    updatedAt: int)

  /**
   * `Conversation.create({ members, ... })`: the schema fills in an empty preview
   * and an empty unread map; the member list is stored as given, of any length.
   */
  function NewConversation(id: string, title: Option<string>, members: seq<string>, now: int): (c: Conversation)
    ensures c.id == id && c.title == title && c.members == members
    ensures c.lastMessage == "" && c.lastMessageId == ""
    ensures c.unreadCount == map[]
    ensures c.createdAt == now && c.updatedAt == now
  {
    Conversation(id, title, members, "", "", map[], now, now)
  }
}

=== FILE: js.dfy ===
/**
 * The JavaScript value semantics the server and client code depend on:
 * truthiness, `||`, `??`, `?.toString()`, and number arithmetic with NaN.
 * Numbers are modelled as integers (fractional JSON numbers are not modelled).
 */
module Js {
  import opened Wrappers
  import Strings

  /** A scalar as it arrives in a JSON request body or a socket frame. */
  datatype Val = Undefined | Null | Str(s: string) | Num(n: int) | Bool(b: bool)

  /** JavaScript truthiness: `undefined`, `null`, `""`, `0` and `false` are falsy. */
  predicate Truthy(v: Val) {
    match v
    case Undefined => false
    case Null => false
    case Str(s) => s != ""
    case Num(n) => n != 0
    case Bool(b) => b
  }

  /** `undefined` or `null`, the values `??` and `?.` fall through on. */
  predicate Nullish(v: Val) {
    v.Undefined? || v.Null?
  }

  /** JavaScript `a || b`. */
  function Or(a: Val, b: Val): Val {
    if Truthy(a) then a else b
  }

  /** JavaScript `a ?? b`. */
  function Coalesce(a: Val, b: Val): Val {
    if Nullish(a) then b else a
  }

  /** `String(v)`: what a template literal, an object key or a Mongoose String cast produces. */
  function ToString(v: Val): (r: string)
    ensures Truthy(v) ==> r != ""
  {
    match v
    case Undefined => "undefined"
    case Null => "null"
    case Str(s) => s
    case Num(n) => Strings.IntToString(n)
    case Bool(b) => if b then "true" else "false"
  }

  /** `v?.toString()`: absent for `undefined` and `null`. */
  function OptToString(v: Val): Option<string> {
    if Nullish(v) then None else Some(ToString(v))
  }

  /** A JavaScript number restricted to integers, plus NaN (what `undefined` arithmetic yields). */
  datatype Number = Finite(v: int) | NaN

  /** A possibly missing integer operand, as `undefined` turns into NaN in arithmetic. */
  function FromOption(o: Option<int>): Number {
    match o
    case Some(n) => Finite(n)
    case None => NaN
  }

  function Plus(a: Number, b: Number): Number {
    if a.Finite? && b.Finite? then Finite(a.v + b.v) else NaN
  }

  function Minus(a: Number, b: Number): Number {
    if a.Finite? && b.Finite? then Finite(a.v - b.v) else NaN
  }

  function Times(a: Number, b: Number): Number {
    if a.Finite? && b.Finite? then Finite(a.v * b.v) else NaN
  }

  /** `Math.max(a, b)`: NaN if either operand is NaN. */
  function MathMax(a: Number, b: Number): Number {
    if a.Finite? && b.Finite? then Finite(if a.v >= b.v then a.v else b.v) else NaN
  }
}

=== FILE: message_store.dfy ===
/**
 * Message persistence and history of backend/controller/message.js:
 * the fallback create-new-message write, paginated get-all-messages, and chat-image.
 * backend/model/messages.js is not part of this model: stored fields are kept as received.
 */
module MessageStore {
  import opened Wrappers
  import opened Js
  import opened Ordering

  /** A stored chat message; `createdAt` comes from the store's clock. */
  datatype Message = Message(id: string, conversationId: Val, text: Val, sender: Val, images: Val, createdAt: int)

  type Store = seq<Message>

  /** The multipart form fields of create-new-message. */
  datatype MessageBody = MessageBody(conversationId: Val, text: Val, sender: Val, images: Val)

  /** A file multer accepted and stored; only its stored name matters here. */
  datatype UploadedFile = UploadedFile(filename: string)

  /** The public path of a stored upload. */
  function UploadUrl(filename: string): (u: string)
    ensures |u| == |"/uploads/"| + |filename| && u[|"/uploads/"|..] == filename
  {
    "/uploads/" + filename
  }

  /** The `images` value the handler stores: the upload wins over the body field. */
  function ImagesField(body: MessageBody, file: Option<UploadedFile>): Val {
    var images := if file.Some? then Str(UploadUrl(file.value.filename)) else body.images;
    Or(images, Undefined)
  }

  /** create-new-message: 201 with the saved message, or 400 when the save throws. */
  datatype CreateOutcome = Saved(message: Message) | SaveFailed

  function CreateMessage(store: Store, body: MessageBody, file: Option<UploadedFile>,
                         id: string, now: int, saveOk: bool): (r: (Store, CreateOutcome))
    ensures !saveOk ==> r == (store, SaveFailed)
    ensures saveOk ==>
      && r.1.Saved?
      && r.0 == store + [r.1.message]
      && r.1.message.conversationId == body.conversationId
      && r.1.message.text == body.text
      && r.1.message.sender == body.sender
      && r.1.message.createdAt == now
      && (file.Some? ==> r.1.message.images == Str("/uploads/" + file.value.filename))
      && (file.None? && Truthy(body.images) ==> r.1.message.images == body.images)
      && (file.None? && !Truthy(body.images) ==> r.1.message.images == Undefined)
  {
    if !saveOk then (store, SaveFailed)
    else
      var m := Message(id, body.conversationId, body.text, body.sender, ImagesField(body, file), now);
      (store + [m], Saved(m))
  }

  // ---------------------------------------------------------------- history

  function CreatedKey(m: Message): Key {
    Key(m.createdAt, 0)
  }

  /** `Messages.find({ conversationId }).sort({ createdAt: -1 })`. */
  function History(store: Store, conversationId: string): seq<Message> {
    SortDesc(Filter(store, (m: Message) => m.conversationId == Str(conversationId)), CreatedKey)
  }

  /** The history holds exactly the conversation's messages, newest first. */
  lemma {:induction false} HistoryExactly(store: Store, conversationId: string)
    ensures var h := History(store, conversationId);
      && |h| == |Filter(store, (m: Message) => m.conversationId == Str(conversationId))|
      && (forall m :: m in h <==> m in store && m.conversationId == Str(conversationId))
      && (forall i, j :: 0 <= i < j < |h| ==> h[i].createdAt >= h[j].createdAt)
  {
    var f := Filter(store, (m: Message) => m.conversationId == Str(conversationId));
    var h := History(store, conversationId);
    SortDescLength(f, CreatedKey);
    forall m ensures m in h <==> m in f {
      assert m in h <==> multiset(h)[m] > 0;
      assert m in f <==> multiset(f)[m] > 0;
    }
    forall i, j | 0 <= i < j < |h| ensures h[i].createdAt >= h[j].createdAt {
      assert NotAfter(CreatedKey(h[i]), CreatedKey(h[j]));
    }
  }

  /**
   * get-all-messages. `Page` is the 200 answer; `Unanswered` is a skip the database
   * rejects (negative, or NaN when a parameter is not numeric), which the route (it
   * has no catch) leaves as an unhandled rejection.
   */
  datatype HistoryPage = Page(messages: seq<Message>, hasMore: bool) | Unanswered

  /** `Number(req.query.page || 1)`: the default stands in for an absent or empty parameter. */
  function PageParam(page: Option<Number>): Number {
    page.GetOr(Finite(1))
  }

  /** `Number(req.query.limit || 20)`. */
  function LimitParam(limit: Option<Number>): Number {
    limit.GetOr(Finite(20))
  }

  /**
   * `page` and `limit` are `None` when the query parameter is absent or empty, and
   * otherwise what `Number` makes of its text (NaN for "abc").
   */
  function ListMessages(store: Store, conversationId: string, page: Option<Number>, limit: Option<Number>): (r: HistoryPage)
    ensures r.Unanswered? <==>
      !Skip(PageParam(page), LimitParam(limit)).Finite? || Skip(PageParam(page), LimitParam(limit)).v < 0
    ensures r.Page? ==> LimitParam(limit).Finite? && r.hasMore == (|r.messages| == LimitParam(limit).v)
    ensures r.Page? && LimitParam(limit).v > 0 ==> |r.messages| <= LimitParam(limit).v
    ensures r.Page? ==> forall k :: 0 <= k < |r.messages| ==>
      r.messages[k].conversationId == Str(conversationId) && r.messages[k] in store
  {
    var skip := Skip(PageParam(page), LimitParam(limit));
    if !skip.Finite? || skip.v < 0 then Unanswered
    else
      var lim := LimitParam(limit).v;
      var h := History(store, conversationId);
      HistoryExactly(store, conversationId);
      var w := Window(h, skip.v, MongoLimit(lim));
      assert forall k :: 0 <= k < |w| ==> w[k] in h;
      Page(w, |w| == lim)
  }

  /** A non-numeric page or limit makes the skip NaN: the request is never answered. */
  lemma {:induction false} NonNumericUnanswered(store: Store, conversationId: string, page: Option<Number>, limit: Option<Number>)
    requires page == Some(NaN) || limit == Some(NaN)
    ensures ListMessages(store, conversationId, page, limit) == Unanswered
  {
  }

  /** A finite non-negative skip answers the window of the history that skip and limit select. */
  lemma {:induction false} ListIsWindow(store: Store, conversationId: string, page: Option<Number>, limit: Option<Number>)
    requires Skip(PageParam(page), LimitParam(limit)).Finite? && Skip(PageParam(page), LimitParam(limit)).v >= 0
    ensures var w := Window(History(store, conversationId), Skip(PageParam(page), LimitParam(limit)).v,
                            MongoLimit(LimitParam(limit).v));
      ListMessages(store, conversationId, page, limit) == Page(w, |w| == LimitParam(limit).v)
  {
  }

  /** With a positive limit, page `p` is the run of history starting at `(p-1)·limit`, at most `limit` long. */
  lemma {:induction false} PageIsSlice(store: Store, conversationId: string, p: nat, limit: nat)
    requires p >= 1 && limit >= 1
    ensures var h := History(store, conversationId);
      var r := ListMessages(store, conversationId, Some(Finite(p)), Some(Finite(limit)));
      var lo := SkipOf(p, limit);
      && r.Page?
      && |r.messages| == WindowSize(|h|, lo, AtMost(limit))
      && forall k :: 0 <= k < |r.messages| ==> lo + k < |h| && r.messages[k] == h[lo + k]
  {
    SkipFacts(p, limit);
    ListIsWindow(store, conversationId, Some(Finite(p)), Some(Finite(limit)));
  }

  /** `hasMore` is true when exactly `limit` messages remain, although the next page is empty. */
  lemma {:induction false} HasMoreOnExactFit(store: Store, conversationId: string, limit: nat)
    requires limit >= 1
    requires |History(store, conversationId)| == limit
    ensures var r := ListMessages(store, conversationId, Some(Finite(1)), Some(Finite(limit)));
      r.Page? && r.hasMore
    ensures ListMessages(store, conversationId, Some(Finite(2)), Some(Finite(limit))) == Page([], false)
  {
    SkipFacts(1, limit);
    ListIsWindow(store, conversationId, Some(Finite(1)), Some(Finite(limit)));
    ListIsWindow(store, conversationId, Some(Finite(2)), Some(Finite(limit)));
  }

  /** Pages 1..k laid end to end are the first k·limit messages of the history. */
  lemma {:induction false} PagesFormPrefix(store: Store, conversationId: string, k: nat, limit: nat)
    requires limit >= 1
    ensures var h := History(store, conversationId);
      Concat(store, conversationId, k, limit) == h[..Min(k * limit, |h|)]
  {
    if k > 0 {
      var h := History(store, conversationId);
      var lo := SkipOf(k, limit);
      SkipEndsPage(k, limit);
      PagesFormPrefix(store, conversationId, k - 1, limit);
      assert Concat(store, conversationId, k - 1, limit) == h[..Min(lo, |h|)];
      ConcatStep(store, conversationId, k, limit);
      WindowExtendsPrefix(h, lo, limit);
      assert Min(lo + limit, |h|) == Min(k * limit, |h|);
    } else {
      assert k * limit == 0;
    }
  }

  lemma {:induction false} SkipEndsPage(k: nat, limit: nat)
    requires k >= 1
    ensures SkipOf(k, limit) == (k - 1) * limit
    ensures SkipOf(k, limit) + limit == k * limit
  {
  }

  lemma {:induction false} PageIsWindow(store: Store, conversationId: string, k: nat, limit: nat)
    requires k >= 1 && limit >= 1
    ensures var r := ListMessages(store, conversationId, Some(Finite(k)), Some(Finite(limit)));
      r.Page? && r.messages == Window(History(store, conversationId), SkipOf(k, limit), AtMost(limit))
  {
    SkipFacts(k, limit);
    ListIsWindow(store, conversationId, Some(Finite(k)), Some(Finite(limit)));
  }

  lemma {:induction false} ConcatStep(store: Store, conversationId: string, k: nat, limit: nat)
    requires k >= 1 && limit >= 1
    ensures Concat(store, conversationId, k, limit)
      == Concat(store, conversationId, k - 1, limit) + Window(History(store, conversationId), SkipOf(k, limit), AtMost(limit))
  {
    PageIsWindow(store, conversationId, k, limit);
  }

  /** The messages of pages 1..k in page order. */
  function Concat(store: Store, conversationId: string, k: nat, limit: nat): seq<Message>
    requires limit >= 1
  {
    if k == 0 then []
    else
      var r := ListMessages(store, conversationId, Some(Finite(k)), Some(Finite(limit)));
      Concat(store, conversationId, k - 1, limit) + (if r.Page? then r.messages else [])
  }

  /** A message saved after every stored one heads the first page of its conversation. */
  lemma {:induction false} NewestLeadsFirstPage(store: Store, body: MessageBody, file: Option<UploadedFile>,
                             id: string, now: int, conversationId: string)
    requires body.conversationId == Str(conversationId)
    requires forall i :: 0 <= i < |store| ==> store[i].createdAt < now
    ensures var created := CreateMessage(store, body, file, id, now, true);
      var r := ListMessages(created.0, conversationId, None, None);
      r.Page? && |r.messages| >= 1 && r.messages[0] == created.1.message
  {
    var created := CreateMessage(store, body, file, id, now, true);
    var m := created.1.message;
    var s := created.0;
    var h := History(s, conversationId);
    HistoryExactly(s, conversationId);
    assert s[|store|] == m;
    assert m in h;
    var j :| 0 <= j < |h| && h[j] == m;
    assert h[0].createdAt >= h[j].createdAt;
    assert h[0] in s;
    assert h[0] == m;
    SkipFacts(1, 20);
    ListIsWindow(s, conversationId, None, None);
  }

  // ---------------------------------------------------------------- chat-image

  /** chat-image: 400 without a file, otherwise 200 with the stored file's public path. */
  datatype ImageReply = NoFileUploaded | ImageStored(imageUrl: string)

  function ChatImage(file: Option<UploadedFile>): (r: ImageReply)
    ensures r.NoFileUploaded? <==> file.None?
    ensures r.ImageStored? ==> r.imageUrl == "/uploads/" + file.value.filename
  {
    if file.None? then NoFileUploaded else ImageStored(UploadUrl(file.value.filename))
  }
}

=== FILE: notifications.dfy ===
/**
 * Notifications: the schema of backend/model/notification.js (required fields,
 * enums, defaults, the `id` virtual) and the helpers and routes of
 * backend/controller/notification.js (create, list for the caller, mark as read).
 *
 * Documents carry their 12-byte `_id`; the store is the collection in natural
 * order. `createdAt`/`updatedAt` come from the schema's timestamps, with the
 * clock as a parameter.
 */
module Notifications {
  import opened Wrappers
  import opened Js
  import Strings
  import ObjectIds
  import Ordering
  import AuthMiddleware

  datatype Kind = OrdersKind | Promotions | System | Chat

  datatype Status = Read | Unread

  /** The `type` enum: the string a kind is stored as. */
  function KindName(k: Kind): string {
    match k
    case OrdersKind => "orders"
    case Promotions => "promotions"
    case System => "system"
    case Chat => "chat"
  }

  /** Casting a `type` value against the enum. */
  function ParseKind(v: Val): (r: Option<Kind>)
    ensures r.Some? ==> v == Str(KindName(r.value))
    ensures (exists k :: v == Str(KindName(k))) ==> r.Some?
  {
    if v == Str("orders") then Some(OrdersKind)
    else if v == Str("promotions") then Some(Promotions)
    else if v == Str("system") then Some(System)
    else if v == Str("chat") then Some(Chat)
    else None
  }

  datatype Notification = Notification(
    objectId: seq<int>,
    kind: Kind,
    title: string,
    message: string,
    status: Status,
    receiverId: string,
    creatorId: Option<string>,
    redirectLink: Option<string>,
    data: Val,
    createdAt: int,
    updatedAt: int)

  /** A well-formed `_id`: twelve bytes. */
  predicate IsObjectId(bytes: seq<int>) {
    |bytes| == 12 && forall i :: 0 <= i < |bytes| ==> ObjectIds.IsByte(bytes[i])
  }

  /** The `id` virtual: `_id.toHexString()`. */
  function Id(n: Notification): (id: string)
    requires IsObjectId(n.objectId)
    ensures ObjectIds.Valid(id)
    ensures ObjectIds.ParseHex(id) == n.objectId
  {
    ObjectIds.HexIdIsValid(n.objectId);
    ObjectIds.HexRoundTrip(n.objectId);
    ObjectIds.ToHexString(n.objectId)
  }

  /** The seven fields `createNotification` receives. */
  datatype Input = Input(kind: Val, title: Val, message: Val, receiverId: Val,
                         redirectLink: Val, data: Val, creatorId: Val)

  /** A required String path: present, and not empty once cast. */
  predicate RequiredString(v: Val) {
    !Nullish(v) && ToString(v) != ""
  }

  /** An ObjectId path: a castable id string (stored in its canonical lower-case form). */
  predicate CastsToId(v: Val) {
    v.Str? && ObjectIds.Valid(v.s)
  }

  /** An optional String path: absent, or cast. */
  function OptionalString(v: Val): Option<string> {
    if Nullish(v) then None else Some(ToString(v))
  }

  /** Every validator of the schema passes. */
  predicate Validates(input: Input) {
    && ParseKind(input.kind).Some?
    && RequiredString(input.title)
    && RequiredString(input.message)
    && CastsToId(input.receiverId)
    && (Nullish(input.creatorId) || CastsToId(input.creatorId))
  }

  /**
   * `Notification.create`: the document built from exactly the given fields, with
   * status "Unread" and both timestamps `now`; a validation error otherwise.
   */
  function Create(store: seq<Notification>, input: Input, objectId: seq<int>, now: int)
    : (r: Option<seq<Notification>>)
    ensures r.Some? <==> Validates(input)
    ensures r.Some? ==> |r.value| == |store| + 1 && r.value[..|store|] == store
    ensures r.Some? ==> var n := r.value[|store|];
      && n.objectId == objectId
      && KindName(n.kind) == input.kind.s
      && Str(n.title) == Str(ToString(input.title)) && n.message == ToString(input.message)
      && n.receiverId == Strings.Lower(input.receiverId.s)
      && (n.creatorId.Some? <==> !Nullish(input.creatorId))
      && n.redirectLink == OptionalString(input.redirectLink)
      && n.data == input.data
      && n.status == Unread && n.createdAt == now && n.updatedAt == now
  {
    if !Validates(input) then None
    else
      var n := Notification(objectId, ParseKind(input.kind).value, ToString(input.title),
                            ToString(input.message), Unread, Strings.Lower(input.receiverId.s),
                            if Nullish(input.creatorId) then None else Some(Strings.Lower(input.creatorId.s)),
                            OptionalString(input.redirectLink), input.data, now, now);
      assert (store + [n])[..|store|] == store;
      Some(store + [n])
  }

  function Newest(n: Notification): Ordering.Key {
    Ordering.Key(n.createdAt, 0)
  }

  /** `Notification.find({ receiverId: userId }).sort({ createdAt: -1 })`. */
  function ForUser(store: seq<Notification>, userId: string): (r: seq<Notification>)
    ensures forall k :: 0 <= k < |r| ==> r[k] in store && r[k].receiverId == Strings.Lower(userId)
    ensures multiset(r) == multiset(Ordering.Filter(store, (n: Notification) => n.receiverId == Strings.Lower(userId)))
    ensures Ordering.SortedDesc(r, Newest)
  {
    var mine := Ordering.Filter(store, (n: Notification) => n.receiverId == Strings.Lower(userId));
    var r := Ordering.SortDesc(mine, Newest);
    assert forall k :: 0 <= k < |r| ==> r[k] in multiset(mine);
    r
  }

  /** The outcome of a route: 200 with a body, a guard's status, or an error passed on. */
  datatype Reply<T> = Ok(body: T) | Denied(code: int) | Errored

  /** The bytes a castable id string stands for. */
  function Target(v: Val): seq<int>
    requires CastsToId(v)
  {
    ObjectIds.ParseHex(v.s)
  }

  /**
   * `findByIdAndUpdate(notificationId, { status: "Read" })`: the document with
   * that `_id` is marked read and its `updatedAt` set; an unknown id changes
   * nothing and still answers success. A missing id is not refused: the filter
   * `{ _id: undefined }` loses its key and becomes `{}`, so the first stored
   * notification is marked read. A `null` id matches no document. An id that
   * fails to cast is an error.
   */
  function MarkAsRead(store: seq<Notification>, notificationId: Val, now: int): (r: Reply<seq<Notification>>)
    ensures r.Errored? <==> !Nullish(notificationId) && !CastsToId(notificationId)
    ensures r.Ok? ==> |r.body| == |store|
    ensures r.Ok? ==> forall k :: 0 <= k < |store| ==>
      if (notificationId.Undefined? && k == 0)
         || (CastsToId(notificationId) && store[k].objectId == Target(notificationId))
      then r.body[k] == store[k].(status := Read, updatedAt := now)
      else r.body[k] == store[k]
  {
    if notificationId.Undefined? then
      if |store| == 0 then Ok(store) else Ok(store[0 := store[0].(status := Read, updatedAt := now)])
    else if notificationId.Null? then Ok(store)
    else if !CastsToId(notificationId) then Errored
    else Ok(MarkMatching(store, Target(notificationId), now))
  }

  function MarkMatching(store: seq<Notification>, target: seq<int>, now: int): (r: seq<Notification>)
    ensures |r| == |store|
    ensures forall k :: 0 <= k < |store| ==>
      if store[k].objectId == target then r[k] == store[k].(status := Read, updatedAt := now)
      else r[k] == store[k]
  {
    if |store| == 0 then []
    else
      var n := store[0];
      var n' := if n.objectId == target then n.(status := Read, updatedAt := now) else n;
      [n'] + MarkMatching(store[1..], target, now)
  }

  /**
   * A listed notification as the client receives it: the document's fields, plus
   * the `id` virtual when the query applies virtuals.
   */
  datatype View = View(doc: Notification, id: Option<string>)

  /**
   * The listing as written: `.lean()` returns plain documents, to which schema
   * virtuals are not applied, so no `id` reaches the client.
   */
  function ListingAsWritten(store: seq<Notification>, userId: string): (r: seq<View>)
    ensures |r| == |ForUser(store, userId)|
    ensures forall k :: 0 <= k < |r| ==> r[k].doc == ForUser(store, userId)[k] && r[k].id.None?
  {
    var docs := ForUser(store, userId);
    seq(|docs|, k requires 0 <= k < |docs| => View(docs[k], None))
  }

  /** The listing with the `id` virtual applied, which the notifications screen relies on. */
  function Listing(store: seq<Notification>, userId: string): (r: seq<View>)
    requires forall k :: 0 <= k < |store| ==> IsObjectId(store[k].objectId)
    ensures |r| == |ForUser(store, userId)|
    ensures forall k :: 0 <= k < |r| ==>
      r[k].doc == ForUser(store, userId)[k] && r[k].doc in store && r[k].id == Some(Id(r[k].doc))
  {
    var docs := ForUser(store, userId);
    seq(|docs|, k requires 0 <= k < |docs| => View(docs[k], Some(Id(docs[k]))))
  }

  /** The `notificationId` the screen posts for a listed notification: `notification.id`, dropped from the JSON body when undefined. */
  function ClientId(v: View): (id: Val)
    ensures id.Undefined? <==> v.id.None?
  {
    if v.id.Some? then Str(v.id.value) else Undefined
  }

  /**
   * GET my-notifications behind `isAuthenticated`: the authenticated user's
   * notifications, newest first, as the lean documents the handler returns.
   */
  function MyNotifications(header: Option<string>, verify: string -> Option<Val>,
                           users: map<string, AuthMiddleware.User>, store: seq<Notification>)
    : (r: Reply<seq<View>>)
    ensures AuthMiddleware.ExtractToken(header).None? ==> r == Denied(401)
    ensures r.Ok? <==> AuthMiddleware.IsAuthenticated(header, verify, users).Next?
    ensures r.Ok? ==>
      var mine := ForUser(store, AuthMiddleware.IsAuthenticated(header, verify, users).doc.id);
      && |r.body| == |mine|
      && forall k :: 0 <= k < |r.body| ==> r.body[k].doc == mine[k] && r.body[k].id.None?
  {
    match AuthMiddleware.IsAuthenticated(header, verify, users)
    case Next(user) => Ok(ListingAsWritten(store, user.id))
    case Status(code) => Denied(code)
    case Thrown => Errored
  }

  /** POST mark-as-read behind `isAuthenticated`; the store is unchanged unless the guard passes. */
  function MarkAsReadRoute(header: Option<string>, verify: string -> Option<Val>,
                           users: map<string, AuthMiddleware.User>, store: seq<Notification>,
                           notificationId: Val, now: int)
    : (r: (seq<Notification>, Reply<()>))
    requires forall k :: 0 <= k < |store| ==> IsObjectId(store[k].objectId)
    ensures AuthMiddleware.ExtractToken(header).None? ==> r == (store, Denied(401))
    ensures !AuthMiddleware.IsAuthenticated(header, verify, users).Next? ==> r.0 == store
  {
    match AuthMiddleware.IsAuthenticated(header, verify, users)
    case Next(_) =>
      (match MarkAsRead(store, notificationId, now)
       case Ok(s') => (s', Ok(()))
       case _ => (store, Errored))
    case Status(code) => (store, Denied(code))
    case Thrown => (store, Errored)
  }

  // ---------------------------------------------------------------- properties

  /** Marking read twice is marking read once, at the later time. */
  lemma {:induction false} MarkAsReadIdempotent(store: seq<Notification>, notificationId: Val, t1: int, t2: int)
    requires MarkAsRead(store, notificationId, t1).Ok?
    ensures MarkAsRead(MarkAsRead(store, notificationId, t1).body, notificationId, t2)
         == MarkAsRead(store, notificationId, t2)
  {
    var once := MarkAsRead(store, notificationId, t1).body;
    var a := MarkAsRead(once, notificationId, t2);
    var b := MarkAsRead(store, notificationId, t2);
    assert a.Ok? && b.Ok?;
    assert |a.body| == |b.body|;
    forall k | 0 <= k < |store|
      ensures a.body[k] == b.body[k]
    {
      assert once[k].objectId == store[k].objectId;
    }
    assert a.body == b.body;
  }

  /** An id no document has: the store is unchanged and the answer is still success. */
  lemma {:induction false} UnknownIdSucceeds(store: seq<Notification>, id: string, now: int)
    requires ObjectIds.Valid(id)
    requires forall k :: 0 <= k < |store| ==> store[k].objectId != ObjectIds.ParseHex(id)
    ensures MarkAsRead(store, Str(id), now) == Ok(store)
  {
    var r := MarkAsRead(store, Str(id), now);
    assert r.body == store;
  }

  /** The `id` the client was sent marks exactly the notifications with that `_id`. */
  lemma {:induction false} ReadByOwnId(store: seq<Notification>, k: nat, now: int)
    requires k < |store| && IsObjectId(store[k].objectId)
    ensures var r := MarkAsRead(store, Str(Id(store[k])), now);
      && r.Ok?
      && r.body[k].status == Read && r.body[k].updatedAt == now
      && forall j :: 0 <= j < |store| && store[j].objectId != store[k].objectId ==> r.body[j] == store[j]
  {
  }

  /** The cast ignores the case of the hex digits: an upper-case id marks the same documents. */
  lemma {:induction false} CaseInsensitiveId(store: seq<Notification>, id: string, now: int)
    requires ObjectIds.Valid(id)
    ensures ObjectIds.Valid(Strings.Lower(id))
    ensures MarkAsRead(store, Str(id), now) == MarkAsRead(store, Str(Strings.Lower(id)), now)
  {
    ObjectIds.ParseHexIgnoresCase(id);
  }

  /** A created notification shows up, unread, in its receiver's listing. */
  lemma {:induction false} CreatedIsListed(store: seq<Notification>, input: Input, objectId: seq<int>, now: int)
    requires Validates(input)
    ensures var s' := Create(store, input, objectId, now).value;
      var n := s'[|store|];
      && n in ForUser(s', input.receiverId.s)
      && n.status == Unread
  {
    var s' := Create(store, input, objectId, now).value;
    var n := s'[|store|];
    var mine := Ordering.Filter(s', (x: Notification) => x.receiverId == Strings.Lower(input.receiverId.s));
    assert n in s';
    assert n in mine;
    assert n in multiset(ForUser(s', input.receiverId.s));
  }

  /**
   * As written, tapping any listed notification posts no id, and it is the
   * first stored notification, whoever it belongs to, that becomes read; every
   * other document, the tapped one included, is left as it was.
   */
  lemma {:induction false} AsWrittenMarksFirstStored(store: seq<Notification>, userId: string, k: nat, now: int)
    requires k < |ListingAsWritten(store, userId)|
    ensures var r := MarkAsRead(store, ClientId(ListingAsWritten(store, userId)[k]), now);
      && |store| > 0
      && r.Ok?
      && r.body[0] == store[0].(status := Read, updatedAt := now)
      && forall j :: 0 < j < |store| ==> r.body[j] == store[j]
  {
    var mine := ForUser(store, userId);
    assert mine[k] in store;
    var r := MarkAsRead(store, Undefined, now);
    assert r.Ok?;
  }

  /**
   * End to end, as written: whichever notification the my-notifications reply
   * lists, posting its id back marks the first stored notification read.
   */
  lemma {:induction false} RouteTapMarksFirstStored(header: Option<string>, verify: string -> Option<Val>,
                                                    users: map<string, AuthMiddleware.User>,
                                                    store: seq<Notification>, k: nat, now: int)
    requires MyNotifications(header, verify, users, store).Ok?
    requires k < |MyNotifications(header, verify, users, store).body|
    ensures var v := MyNotifications(header, verify, users, store).body[k];
      var r := MarkAsRead(store, ClientId(v), now);
      && |store| > 0 && r.Ok?
      && r.body[0] == store[0].(status := Read, updatedAt := now)
      && forall j :: 0 < j < |store| ==> r.body[j] == store[j]
  {
    var user := AuthMiddleware.IsAuthenticated(header, verify, users).doc;
    assert MyNotifications(header, verify, users, store).body == ListingAsWritten(store, user.id);
    AsWrittenMarksFirstStored(store, user.id, k, now);
  }

  /** With the virtual applied, marking a listed notification from the screen marks that document read. */
  lemma {:induction false} ListedMarksRead(store: seq<Notification>, userId: string, k: nat, now: int)
    requires forall j :: 0 <= j < |store| ==> IsObjectId(store[j].objectId)
    requires k < |Listing(store, userId)|
    ensures var v := Listing(store, userId)[k];
      var r := MarkAsRead(store, ClientId(v), now);
      && r.Ok?
      && (exists j :: 0 <= j < |store| && store[j] == v.doc)
      && forall j :: 0 <= j < |store| && store[j] == v.doc ==> r.body[j].status == Read
  {
    var v := Listing(store, userId)[k];
    var j :| 0 <= j < |store| && store[j] == v.doc;
    ReadByOwnId(store, j, now);
  }
}

=== FILE: object_ids.dfy ===
/**
 * MongoDB ObjectIds as the server sees them: 24-hex-digit strings.
 * `Model.findById` on a string that is not such an id fails with a cast error
 * instead of returning null; every lookup by id in the model goes through `FindById`.
 */
module ObjectIds {
  import Strings
  import Js

  /** A string Mongoose casts to an ObjectId (the 12-byte binary-string form is not modelled). */
  predicate Valid(s: string) {
    |s| == 24 && forall i :: 0 <= i < |s| ==> Strings.IsHexDigit(s[i])
  }

  /** The three outcomes of `Model.findById(id)`. */
  datatype Lookup<T> = Hit(doc: T) | Miss | CastFailure

  /**
   * The string a store keys a document by: the lower-case hex that `toHexString` writes.
   * Casting a requested id to an ObjectId ignores the case of its hex digits, so every
   * lookup compares the requested id in this form.
   */
  function Key(id: string): (k: string)
    ensures |k| == |id|
  {
    Strings.Lower(id)
  }

  /** An id already in key form: castable and with no upper-case hex digit. */
  predicate Canonical(s: string) {
    Valid(s) && Key(s) == s
  }

  /**
   * `Model.findById(id)` over a store keyed by canonical ids: a string that does not
   * cast fails, otherwise the document under the id's key, if any.
   */
  function FindById<T>(store: map<string, T>, id: string): (r: Lookup<T>)
    ensures r.Hit? <==> Valid(id) && Key(id) in store
    ensures r.Hit? ==> r.doc == store[Key(id)]
    ensures r.CastFailure? <==> !Valid(id)
  {
    if !Valid(id) then CastFailure
    else if Key(id) in store then Hit(store[Key(id)])
    else Miss
  }

  /**
   * `Model.findById(v)` for a value from a request or a token: `undefined` and
   * `null` find nothing, a string is looked up, any other value fails to cast.
   */
  function FindByVal<T>(store: map<string, T>, id: Js.Val): (r: Lookup<T>)
    ensures r.Hit? <==> id.Str? && Valid(id.s) && Key(id.s) in store
    ensures r.Hit? ==> r.doc == store[Key(id.s)]
    ensures r.Miss? <==> Js.Nullish(id) || (id.Str? && Valid(id.s) && Key(id.s) !in store)
  {
    match id
    case Str(s) => FindById(store, s)
    case Undefined => Miss
    case Null => Miss
    case _ => CastFailure
  }

  predicate IsByte(b: int) {
    0 <= b < 256
  }

  function HexDigit(d: int): (c: char)
    requires 0 <= d < 16
    ensures Strings.IsHexDigit(c) && !('A' <= c <= 'F')
  {
    "0123456789abcdef"[d]
  }

  function HexValue(c: char): (d: int)
    requires Strings.IsHexDigit(c)
    ensures 0 <= d < 16
  {
    if '0' <= c <= '9' then c as int - '0' as int
    else if 'a' <= c <= 'f' then c as int - 'a' as int + 10
    else c as int - 'A' as int + 10
  }

  lemma {:induction false} HexValueOfDigit(d: int)
    requires 0 <= d < 16
    ensures HexValue(HexDigit(d)) == d
  {
    var digits := "0123456789abcdef";
    assert digits[d] as int == if d < 10 then '0' as int + d else 'a' as int + d - 10;
  }

  /** `ObjectId.prototype.toHexString`: two lower-case hex digits per byte. */
  function ToHexString(bytes: seq<int>): (s: string)
    requires forall i :: 0 <= i < |bytes| ==> IsByte(bytes[i])
    ensures |s| == 2 * |bytes|
    ensures forall i :: 0 <= i < |s| ==> Strings.IsHexDigit(s[i])
  {
    if |bytes| == 0 then ""
    else
      var b := bytes[0];
      assert IsByte(b);
      assert 0 <= b / 16 < 16;
      [HexDigit(b / 16), HexDigit(b % 16)] + ToHexString(bytes[1..])
  }

  /** Reads two hex digits per byte, either case (a valid id has an even number of digits). */
  function ParseHex(s: string): (bytes: seq<int>)
    requires forall i :: 0 <= i < |s| ==> Strings.IsHexDigit(s[i])
    ensures 2 * |bytes| <= |s| <= 2 * |bytes| + 1
    ensures forall i :: 0 <= i < |bytes| ==> IsByte(bytes[i])
  {
    if |s| < 2 then []
    else [HexValue(s[0]) * 16 + HexValue(s[1])] + ParseHex(s[2..])
  }

  /** Reading back the hex form of an id gives the id's bytes. */
  lemma {:induction false} HexRoundTrip(bytes: seq<int>)
    requires forall i :: 0 <= i < |bytes| ==> IsByte(bytes[i])
    ensures ParseHex(ToHexString(bytes)) == bytes
  {
    if |bytes| > 0 {
      HexStep(bytes);
      HexRoundTrip(bytes[1..]);
      assert bytes == [bytes[0]] + bytes[1..];
    }
  }

  /** The first byte's two digits read back as that byte, ahead of the rest. */
  lemma {:induction false} HexStep(bytes: seq<int>)
    requires |bytes| > 0
    requires forall i :: 0 <= i < |bytes| ==> IsByte(bytes[i])
    ensures ParseHex(ToHexString(bytes)) == [bytes[0]] + ParseHex(ToHexString(bytes[1..]))
  {
    var b := bytes[0];
    var t := ToHexString(bytes[1..]);
    var d0, d1 := HexDigit(b / 16), HexDigit(b % 16);
    assert ToHexString(bytes) == [d0, d1] + t;
    ParseHexCons(d0, d1, t);
    ByteRoundTrip(b);
    assert ParseHex([d0, d1] + t) == [b] + ParseHex(t);
  }

  /** Two leading digits read as one byte, ahead of the rest. */
  lemma {:induction false} ParseHexCons(c0: char, c1: char, t: string)
    requires Strings.IsHexDigit(c0) && Strings.IsHexDigit(c1)
    requires forall i :: 0 <= i < |t| ==> Strings.IsHexDigit(t[i])
    ensures ParseHex([c0, c1] + t) == [HexValue(c0) * 16 + HexValue(c1)] + ParseHex(t)
  {
    var s := [c0, c1] + t;
    assert s[0] == c0 && s[1] == c1 && s[2..] == t;
    assert ParseHex(s) == [HexValue(s[0]) * 16 + HexValue(s[1])] + ParseHex(s[2..]);
  }

  /** The two digits of one byte read back as that byte. */
  lemma {:induction false} ByteRoundTrip(b: int)
    requires IsByte(b)
    ensures HexValue(HexDigit(b / 16)) * 16 + HexValue(HexDigit(b % 16)) == b
  {
    HexValueOfDigit(b / 16);
    HexValueOfDigit(b % 16);
  }

  /** An id string names the same bytes whatever case its hex digits are in. */
  lemma {:induction false} ParseHexIgnoresCase(s: string)
    requires forall i :: 0 <= i < |s| ==> Strings.IsHexDigit(s[i])
    ensures forall i :: 0 <= i < |s| ==> Strings.IsHexDigit(Strings.Lower(s)[i])
    ensures ParseHex(Strings.Lower(s)) == ParseHex(s)
  {
    var l := Strings.Lower(s);
    Strings.LowerChars(s);
    assert forall i :: 0 <= i < |s| ==> Strings.IsHexDigit(l[i]) && HexValue(l[i]) == HexValue(s[i]);
    if |s| >= 2 {
      Strings.LowerChars(s[2..]);
      assert Strings.Lower(s[2..]) == l[2..];
      ParseHexIgnoresCase(s[2..]);
    }
  }

  /** The hex form of a 12-byte ObjectId is itself a castable id string. */
  lemma {:induction false} HexIdIsValid(bytes: seq<int>)
    requires |bytes| == 12
    requires forall i :: 0 <= i < |bytes| ==> IsByte(bytes[i])
    ensures Valid(ToHexString(bytes))
  {
  }

  /** Lower-casing neither makes a non-hex character hex nor changes a digit's value. */
  lemma {:induction false} LowerHexChar(c: char)
    ensures Strings.IsHexDigit(Strings.LowerChar(c)) <==> Strings.IsHexDigit(c)
    ensures Strings.IsHexDigit(c) ==> HexValue(Strings.LowerChar(c)) == HexValue(c)
    ensures !('A' <= Strings.LowerChar(c) <= 'F')
  {
  }

  /** An id casts exactly when its key does, and the key of a key is itself. */
  lemma {:induction false} KeyFacts(id: string)
    ensures Valid(Key(id)) <==> Valid(id)
    ensures Key(Key(id)) == Key(id)
    ensures forall i :: 0 <= i < |id| ==> !('A' <= Key(id)[i] <= 'F')
  {
    Strings.LowerChars(id);
    Strings.LowerIdempotent(id);
    forall i | 0 <= i < |id|
      ensures Strings.IsHexDigit(Key(id)[i]) <==> Strings.IsHexDigit(id[i])
      ensures !('A' <= Key(id)[i] <= 'F')
    {
      LowerHexChar(id[i]);
    }
    if Valid(Key(id)) {
      forall i | 0 <= i < |id| ensures Strings.IsHexDigit(id[i]) {
        assert Strings.IsHexDigit(Key(id)[i]);
      }
    }
  }

  /** Every spelling of an id finds what its key finds. */
  lemma {:induction false} FindByIdIgnoresCase<T>(store: map<string, T>, id: string)
    ensures FindById(store, id) == FindById(store, Key(id))
  {
    KeyFacts(id);
  }

  /** A lower-case hex digit is the digit its value is written with. */
  lemma {:induction false} DigitOfValue(c: char)
    requires Strings.IsHexDigit(c) && !('A' <= c <= 'F')
    ensures HexDigit(HexValue(c)) == c
  {
    var digits := "0123456789abcdef";
    var d := HexValue(c);
    assert digits[d] as int == if d < 10 then '0' as int + d else 'a' as int + d - 10;
  }

  /** Lower-case hex of even length is the hex form of the bytes it reads as. */
  lemma {:induction false} ToHexOfParse(s: string)
    requires |s| % 2 == 0
    requires forall i :: 0 <= i < |s| ==> Strings.IsHexDigit(s[i]) && !('A' <= s[i] <= 'F')
    ensures ToHexString(ParseHex(s)) == s
    decreases |s|
  {
    if |s| >= 2 {
      var b := HexValue(s[0]) * 16 + HexValue(s[1]);
      var rest := ParseHex(s[2..]);
      assert ParseHex(s) == [b] + rest;
      assert ([b] + rest)[0] == b && ([b] + rest)[1..] == rest;
      assert b / 16 == HexValue(s[0]) && b % 16 == HexValue(s[1]);
      DigitOfValue(s[0]);
      DigitOfValue(s[1]);
      ToHexOfParse(s[2..]);
      assert s == [s[0], s[1]] + s[2..];
    }
  }

  /** Two canonical ids naming the same bytes are the same string. */
  lemma {:induction false} CanonicalInjective(a: string, b: string)
    requires Canonical(a) && Canonical(b)
    requires ParseHex(a) == ParseHex(b)
    ensures a == b
  {
    KeyFacts(a);
    KeyFacts(b);
    ToHexOfParse(a);
    ToHexOfParse(b);
  }

  /**
   * In a store keyed by canonical ids, `findById` hits exactly when some stored key
   * names the same twelve bytes as the requested id, whatever the case of its digits.
   */
  lemma {:induction false} FindByIdMatchesBytes<T>(store: map<string, T>, id: string)
    requires forall k :: k in store ==> Canonical(k)
    ensures FindById(store, id).Hit? <==>
      Valid(id) && exists k :: k in store && Valid(k) && ParseHex(k) == ParseHex(id)
  {
    if Valid(id) {
      KeyFacts(id);
      ParseHexIgnoresCase(id);
      assert ParseHex(Key(id)) == ParseHex(id);
      if k :| k in store && Valid(k) && ParseHex(k) == ParseHex(id) {
        CanonicalInjective(k, Key(id));
      }
    }
  }

  /** Two spellings of the same twelve bytes find the same document. */
  lemma {:induction false} SameBytesSameLookup<T>(store: map<string, T>, a: string, b: string)
    requires Valid(a) && Valid(b) && ParseHex(a) == ParseHex(b)
    ensures FindById(store, a) == FindById(store, b)
  {
    KeyFacts(a);
    KeyFacts(b);
    ParseHexIgnoresCase(a);
    ParseHexIgnoresCase(b);
    CanonicalInjective(Key(a), Key(b));
  }
}

=== FILE: ordering.dfy ===
/**
 * The query shapes the handlers use on stores: a filter, a newest-first sort
 * on one or two timestamp fields (`.sort({ a: -1, b: -1 })`), and skip/limit paging.
 */
module Ordering {
  import Js

  /** A sort key: the primary field, then the tie-breaking field, both descending. */
  datatype Key = Key(primary: int, secondary: int)

  /** In newest-first order, a record with key `a` may come before one with key `b`. */
  predicate NotAfter(a: Key, b: Key) {
    a.primary > b.primary || (a.primary == b.primary && a.secondary >= b.secondary)
  }

  ghost predicate SortedDesc<T>(s: seq<T>, key: T -> Key) {
    forall i, j :: 0 <= i < j < |s| ==> NotAfter(key(s[i]), key(s[j]))
  }

  /** Every record of `s` may come after a record with key `b`. */
  ghost predicate Bounded<T>(b: Key, s: seq<T>, key: T -> Key) {
    forall i :: 0 <= i < |s| ==> NotAfter(b, key(s[i]))
  }

  lemma {:induction false} NotAfterTransitive(a: Key, b: Key, c: Key)
    requires NotAfter(a, b) && NotAfter(b, c)
    ensures NotAfter(a, c)
  {
  }

  /** Inserts `x` in front of the first record it may precede. */
  function Insert<T>(x: T, s: seq<T>, key: T -> Key): seq<T>
  {
    if |s| == 0 then [x]
    else if NotAfter(key(x), key(s[0])) then [x] + s
    else [s[0]] + Insert(x, s[1..], key)
  }

  lemma {:induction false} InsertBounded<T>(b: Key, x: T, s: seq<T>, key: T -> Key)
    requires NotAfter(b, key(x)) && Bounded(b, s, key)
    ensures Bounded(b, Insert(x, s, key), key)
  {
    if |s| > 0 && !NotAfter(key(x), key(s[0])) {
      InsertBounded(b, x, s[1..], key);
      var r := Insert(x, s, key);
      forall i | 0 <= i < |r| ensures NotAfter(b, key(r[i])) {
        if i > 0 { assert r[i] == Insert(x, s[1..], key)[i - 1]; }
      }
    }
  }

  lemma {:induction false} InsertSorted<T>(x: T, s: seq<T>, key: T -> Key)
    requires SortedDesc(s, key)
    ensures SortedDesc(Insert(x, s, key), key)
    ensures multiset(Insert(x, s, key)) == multiset(s) + multiset{x}
  {
    if |s| == 0 {
    } else if NotAfter(key(x), key(s[0])) {
      forall j | 0 <= j < |s| ensures NotAfter(key(x), key(s[j])) {
        if j > 0 { NotAfterTransitive(key(x), key(s[0]), key(s[j])); }
      }
      assert s == [s[0]] + s[1..];
    } else {
      var rest := Insert(x, s[1..], key);
      InsertSorted(x, s[1..], key);
      InsertBounded(key(s[0]), x, s[1..], key);
      assert s == [s[0]] + s[1..];
      var r := [s[0]] + rest;
      forall i, j | 0 <= i < j < |r| ensures NotAfter(key(r[i]), key(r[j])) {
        assert r[j] == rest[j - 1];
        if i > 0 { assert r[i] == rest[i - 1]; }
      }
    }
  }

  /** A stable newest-first sort (MongoDB leaves ties unordered; the model keeps input order). */
  function SortDesc<T>(s: seq<T>, key: T -> Key): (r: seq<T>)
    ensures SortedDesc(r, key)
    ensures multiset(r) == multiset(s)
  {
    if |s| == 0 then []
    else
      var rest := SortDesc(s[1..], key);
      InsertSorted(s[0], rest, key);
      assert s == [s[0]] + s[1..];
      Insert(s[0], rest, key)
  }

  lemma {:induction false} SortDescLength<T>(s: seq<T>, key: T -> Key)
    ensures |SortDesc(s, key)| == |s|
  {
    assert |multiset(SortDesc(s, key))| == |multiset(s)|;
  }

  /** The records of `s` that satisfy `p`, in their original order. */
  function Filter<T(!new)>(s: seq<T>, p: T -> bool): (r: seq<T>)
    ensures forall x :: x in r <==> x in s && p(x)
    ensures forall x :: multiset(r)[x] == if p(x) then multiset(s)[x] else 0
    ensures |r| <= |s|
  {
    if |s| == 0 then []
    else
      assert s == [s[0]] + s[1..];
      if p(s[0]) then [s[0]] + Filter(s[1..], p) else Filter(s[1..], p)
  }

  /** The argument of `.limit(n)`: `limit(0)` means no limit, a negative `n` means `|n|`. */
  datatype Limit = NoLimit | AtMost(n: nat)

  function MongoLimit(n: int): Limit {
    if n == 0 then NoLimit else if n > 0 then AtMost(n) else AtMost(-n)
  }

  /** The `.skip` argument of page `page`: `(page - 1) * limit`. */
  function SkipOf(page: int, limit: int): int {
    (page - 1) * limit
  }

  /** `(page - 1) * limit` on JavaScript numbers: NaN when either operand is. */
  function Skip(page: Js.Number, limit: Js.Number): (r: Js.Number)
    ensures r.Finite? <==> page.Finite? && limit.Finite?
    ensures r.Finite? ==> r.v == SkipOf(page.v, limit.v)
  {
    Js.Times(Js.Minus(page, Js.Finite(1)), limit)
  }

  lemma {:induction false} SkipFacts(page: nat, limit: nat)
    requires page >= 1
    ensures SkipOf(page, limit) >= 0
    ensures SkipOf(page + 1, limit) == SkipOf(page, limit) + limit
  {
  }

  /** How many records `.skip(skip).limit(limit)` returns from `total`. */
  function WindowSize(total: nat, skip: nat, limit: Limit): nat {
    var remaining := if skip >= total then 0 else total - skip;
    match limit
    case NoLimit => remaining
    case AtMost(n) => if n < remaining then n else remaining
  }

  /** `.skip(skip).limit(limit)` applied to an already sorted result. */
  function Window<T>(s: seq<T>, skip: nat, limit: Limit): (r: seq<T>)
    ensures |r| == WindowSize(|s|, skip, limit)
    ensures forall k :: 0 <= k < |r| ==> skip + k < |s| && r[k] == s[skip + k]
  {
    if skip >= |s| then []
    else s[skip..skip + WindowSize(|s|, skip, limit)]
  }

  function Min(a: nat, b: nat): nat {
    if a <= b then a else b
  }

  /** Extending a prefix of `h` by the window that starts where it ends gives a longer prefix. */
  lemma {:induction false} WindowExtendsPrefix<T>(h: seq<T>, lo: nat, limit: nat)
    ensures h[..Min(lo, |h|)] + Window(h, lo, AtMost(limit)) == h[..Min(lo + limit, |h|)]
  {
    var w := Window(h, lo, AtMost(limit));
    if lo < |h| {
      assert w == h[lo..Min(lo + limit, |h|)];
    }
  }

  /** Page `p` ends where a later page `q` at the earliest starts: different pages never overlap. */
  lemma {:induction false} PagesDisjoint(p: nat, q: nat, limit: nat)
    requires 1 <= p < q && limit >= 1
    ensures SkipOf(p, limit) + limit <= SkipOf(q, limit)
    decreases q - p
  {
    SkipFacts(p, limit);
    if p + 1 < q {
      PagesDisjoint(p + 1, q, limit);
      SkipFacts(p + 1, limit);
    }
  }
}

=== FILE: orders.dfy ===
/**
 * The order logic of backend/controller/order.js: splitting a cart into one
 * order per shop (create-order), the item normalisation of the order listings,
 * and the product counters kept on delivery (update-order-status) and on refund
 * (order-refund-success).
 *
 * Numbers in request bodies are integers or absent; a missing quantity makes the
 * counter arithmetic NaN, as JavaScript does. backend/model/order.js is not part
 * of this model: an order keeps the fields the handlers write.
 */
module Orders {
  import opened Wrappers
  import opened Js
  import ObjectIds

  /** A cart line as the client posts it; `itemId` is the line's own `_id`. */
  datatype CartItem = CartItem(
    itemId: Val,
    productId: Val,
    shopId: Val,
    quantity: Option<int>,
    qty: Option<int>,
    price: Option<int>,
    discount: Option<int>)

  datatype PaymentInfo = PaymentInfo(id: Val, status: Val, kind: Val)

  datatype Order = Order(
    id: string,
    cart: seq<CartItem>,
    shippingAddress: Val,
    user: Val,
    shopId: Val,
    totalPrice: Val,
    paymentInfo: Option<PaymentInfo>,
    status: Val,
    deliveredAt: Option<int>)

  // ---------------------------------------------------------------- grouping by shop

  /** The distinct shop ids of the cart in order of first appearance (the Map's key order). */
  function Shops(cart: seq<CartItem>): seq<Val> {
    if |cart| == 0 then []
    else
      var ks := Shops(cart[..|cart| - 1]);
      var k := cart[|cart| - 1].shopId;
      if k in ks then ks else ks + [k]
  }

  /** The items of one shop, in cart order. */
  function ItemsOf(cart: seq<CartItem>, shop: Val): seq<CartItem> {
    if |cart| == 0 then []
    else
      var init := ItemsOf(cart[..|cart| - 1], shop);
      if cart[|cart| - 1].shopId == shop then init + [cart[|cart| - 1]] else init
  }

  function Flatten(groups: seq<seq<CartItem>>): seq<CartItem> {
    if |groups| == 0 then [] else groups[0] + Flatten(groups[1..])
  }

  lemma {:induction false} FlattenSnoc(groups: seq<seq<CartItem>>, g: seq<CartItem>)
    ensures Flatten(groups + [g]) == Flatten(groups) + g
  {
    if |groups| > 0 {
      assert (groups + [g])[1..] == groups[1..] + [g];
      FlattenSnoc(groups[1..], g);
    } else {
      assert Flatten([g][1..]) == [];
    }
  }

  lemma {:induction false} FlattenGrowOne(groups: seq<seq<CartItem>>, j: nat, x: CartItem)
    requires j < |groups|
    ensures multiset(Flatten(groups[j := groups[j] + [x]])) == multiset(Flatten(groups)) + multiset{x}
  {
    var g' := groups[j := groups[j] + [x]];
    if j == 0 {
      assert g'[1..] == groups[1..];
    } else {
      assert g'[1..] == groups[1..][j - 1 := groups[1..][j - 1] + [x]];
      FlattenGrowOne(groups[1..], j - 1, x);
    }
  }

  /** Every shop id of the cart is a key, and every key is some item's shop id. */
  lemma {:induction false} ShopsExactly(cart: seq<CartItem>)
    ensures forall k :: k in Shops(cart) <==> exists i :: 0 <= i < |cart| && cart[i].shopId == k
  {
    if |cart| > 0 {
      var init := cart[..|cart| - 1];
      ShopsExactly(init);
      assert forall i :: 0 <= i < |init| ==> init[i] == cart[i];
    }
  }

  /** No shop gets two orders. */
  lemma {:induction false} ShopsDistinct(cart: seq<CartItem>)
    ensures forall i, j :: 0 <= i < j < |Shops(cart)| ==> Shops(cart)[i] != Shops(cart)[j]
  {
    if |cart| > 0 {
      ShopsDistinct(cart[..|cart| - 1]);
    }
  }

  /** A shop with no item in the cart has no items. */
  lemma {:induction false} ItemsOfAbsent(cart: seq<CartItem>, shop: Val)
    requires shop !in Shops(cart)
    ensures ItemsOf(cart, shop) == []
  {
    if |cart| > 0 {
      ItemsOfAbsent(cart[..|cart| - 1], shop);
    }
  }

  /** The items of a shop are exactly the cart's items with that shop id, with their multiplicities. */
  lemma {:induction false} ItemsOfExactly(cart: seq<CartItem>, shop: Val)
    ensures forall x :: multiset(ItemsOf(cart, shop))[x] == if x.shopId == shop then multiset(cart)[x] else 0
  {
    if |cart| > 0 {
      var init := cart[..|cart| - 1];
      ItemsOfExactly(init, shop);
      assert cart == init + [cart[|cart| - 1]];
    }
  }

  /** The index of a value in a sequence that holds it. */
  function IndexOf(s: seq<Val>, v: Val): (i: nat)
    requires v in s
    ensures i < |s| && s[i] == v
    ensures forall j :: 0 <= j < i ==> s[j] != v
  {
    if s[0] == v then 0 else 1 + IndexOf(s[1..], v)
  }

  /** One item into the map: appended to its shop's group, or opening a new group. */
  function GroupAdd(shops: seq<Val>, groups: seq<seq<CartItem>>, x: CartItem): (seq<Val>, seq<seq<CartItem>>)
    requires |groups| == |shops|
  {
    if x.shopId in shops then
      var j := IndexOf(shops, x.shopId);
      (shops, groups[j := groups[j] + [x]])
    else (shops + [x.shopId], groups + [[x]])
  }

  /** Adding the next item keeps the groups those of the longer cart prefix. */
  lemma {:induction false} GroupStep(prefix: seq<CartItem>, x: CartItem, shops: seq<Val>, groups: seq<seq<CartItem>>)
    requires shops == Shops(prefix) && |groups| == |shops|
    requires forall i :: 0 <= i < |shops| ==> groups[i] == ItemsOf(prefix, shops[i])
    requires multiset(Flatten(groups)) == multiset(prefix)
    ensures var (shops', groups') := GroupAdd(shops, groups, x);
      && shops' == Shops(prefix + [x])
      && |groups'| == |shops'|
      && (forall i :: 0 <= i < |shops'| ==> groups'[i] == ItemsOf(prefix + [x], shops'[i]))
      && multiset(Flatten(groups')) == multiset(prefix + [x])
  {
    var c := prefix + [x];
    assert c[..|c| - 1] == prefix;
    assert forall v :: ItemsOf(c, v) == if x.shopId == v then ItemsOf(prefix, v) + [x] else ItemsOf(prefix, v);
    if x.shopId in shops {
      GroupStepKnown(prefix, x, shops, groups);
    } else {
      GroupStepNew(prefix, x, shops, groups);
    }
  }

  lemma {:induction false} GroupStepKnown(prefix: seq<CartItem>, x: CartItem, shops: seq<Val>, groups: seq<seq<CartItem>>)
    requires shops == Shops(prefix) && |groups| == |shops| && x.shopId in shops
    requires forall i :: 0 <= i < |shops| ==> groups[i] == ItemsOf(prefix, shops[i])
    requires forall v :: ItemsOf(prefix + [x], v) == if x.shopId == v then ItemsOf(prefix, v) + [x] else ItemsOf(prefix, v)
    ensures var groups' := GroupAdd(shops, groups, x).1;
      && GroupAdd(shops, groups, x).0 == shops
      && forall i :: 0 <= i < |shops| ==> groups'[i] == ItemsOf(prefix + [x], shops[i])
    ensures multiset(Flatten(GroupAdd(shops, groups, x).1)) == multiset(Flatten(groups)) + multiset{x}
  {
    var j := IndexOf(shops, x.shopId);
    FlattenGrowOne(groups, j, x);
    ShopsDistinct(prefix);
  }

  lemma {:induction false} GroupStepNew(prefix: seq<CartItem>, x: CartItem, shops: seq<Val>, groups: seq<seq<CartItem>>)
    requires shops == Shops(prefix) && |groups| == |shops| && x.shopId !in shops
    requires forall i :: 0 <= i < |shops| ==> groups[i] == ItemsOf(prefix, shops[i])
    requires forall v :: ItemsOf(prefix + [x], v) == if x.shopId == v then ItemsOf(prefix, v) + [x] else ItemsOf(prefix, v)
    ensures var groups' := GroupAdd(shops, groups, x).1;
      && GroupAdd(shops, groups, x).0 == shops + [x.shopId]
      && |groups'| == |shops| + 1
      && forall i :: 0 <= i <= |shops| ==> groups'[i] == ItemsOf(prefix + [x], (shops + [x.shopId])[i])
    ensures multiset(Flatten(GroupAdd(shops, groups, x).1)) == multiset(Flatten(groups)) + multiset{x}
  {
    ItemsOfAbsent(prefix, x.shopId);
    FlattenSnoc(groups, [x]);
  }

  /**
   * The `shopItemsMap` loop: one group per shop in order of first appearance,
   * each group the shop's items in cart order, together exactly the cart.
   */
  method GroupByShop(cart: seq<CartItem>) returns (shops: seq<Val>, groups: seq<seq<CartItem>>)
    ensures shops == Shops(cart)
    ensures |groups| == |shops|
    ensures forall i :: 0 <= i < |shops| ==> groups[i] == ItemsOf(cart, shops[i])
    ensures multiset(Flatten(groups)) == multiset(cart)
  {
    shops := [];
    groups := [];
    var n := 0;
    while n < |cart|
      invariant n <= |cart|
      invariant shops == Shops(cart[..n])
      invariant |groups| == |shops|
      invariant forall i :: 0 <= i < |shops| ==> groups[i] == ItemsOf(cart[..n], shops[i])
      invariant multiset(Flatten(groups)) == multiset(cart[..n])
    {
      GroupStep(cart[..n], cart[n], shops, groups);
      assert cart[..n + 1] == cart[..n] + [cart[n]];
      shops, groups := GroupAdd(shops, groups, cart[n]).0, GroupAdd(shops, groups, cart[n]).1;
      n := n + 1;
    }
    assert cart[..n] == cart;
  }

  /** The request body of create-order; `cart` is `None` when it is missing and cannot be iterated. */
  datatype OrderBody = OrderBody(
    cart: Option<seq<CartItem>>,
    shippingAddress: Val,
    user: Val,
    totalPrice: Val,
    paymentInfo: Option<PaymentInfo>)

  datatype CreateResponse = OrdersCreated(orders: seq<Order>) | CreateFailed

  /** Orders with pairwise different ids. */
  predicate DistinctIds(orders: seq<Order>) {
    forall i, j :: 0 <= i < j < |orders| ==> orders[i].id != orders[j].id
  }

  function Ids(orders: seq<Order>): set<string> {
    set i | 0 <= i < |orders| :: orders[i].id
  }

  /** The orders created so far, added to the collection. */
  function AddAll(store: map<string, Order>, orders: seq<Order>): (r: map<string, Order>)
    requires DistinctIds(orders)
    ensures r.Keys == store.Keys + Ids(orders)
    ensures forall i :: 0 <= i < |orders| ==> r[orders[i].id] == orders[i]
    ensures forall k :: k in store && k !in Ids(orders) ==> r[k] == store[k]
  {
    if |orders| == 0 then store
    else
      var rest := AddAll(store, orders[..|orders| - 1]);
      AddLast(store, orders, rest);
      rest[orders[|orders| - 1].id := orders[|orders| - 1]]
  }

  /** Adding the last order to the collection holding all the others. */
  lemma {:induction false} AddLast(store: map<string, Order>, orders: seq<Order>, rest: map<string, Order>)
    requires DistinctIds(orders) && |orders| > 0
    requires var init := orders[..|orders| - 1];
      && rest.Keys == store.Keys + Ids(init)
      && (forall i :: 0 <= i < |init| ==> rest[init[i].id] == init[i])
      && (forall k :: k in store && k !in Ids(init) ==> rest[k] == store[k])
    ensures var last := orders[|orders| - 1];
      var r := rest[last.id := last];
      && r.Keys == store.Keys + Ids(orders)
      && (forall i :: 0 <= i < |orders| ==> r[orders[i].id] == orders[i])
      && (forall k :: k in store && k !in Ids(orders) ==> r[k] == store[k])
  {
    var init := orders[..|orders| - 1];
    var last := orders[|orders| - 1];
    assert forall i :: 0 <= i < |init| ==> init[i] == orders[i] && init[i].id != last.id;
    assert Ids(orders) == Ids(init) + {last.id};
  }

  /**
   * The orders create-order makes, one per shop in first-appearance order: the
   * shop's items and the request's shared fields, with the `i`-th assigned id.
   */
  function ShopOrders(body: OrderBody, ids: seq<string>): (r: seq<Order>)
    requires body.cart.Some? && |ids| >= |body.cart.value|
    ensures |r| == |Shops(body.cart.value)| <= |ids|
    ensures forall i :: 0 <= i < |r| ==>
      && r[i].id == ids[i]
      && r[i].shopId == Shops(body.cart.value)[i]
      && r[i].cart == ItemsOf(body.cart.value, Shops(body.cart.value)[i])
      && r[i].shippingAddress == body.shippingAddress
      && r[i].user == body.user
      && r[i].totalPrice == body.totalPrice
      && r[i].paymentInfo == body.paymentInfo
      && r[i].status == Undefined && r[i].deliveredAt.None?
  {
    var shops := Shops(body.cart.value);
    ShopsBound(body.cart.value);
    seq(|shops|, i requires 0 <= i < |shops| =>
      Order(ids[i], ItemsOf(body.cart.value, shops[i]), body.shippingAddress, body.user, shops[i],
            body.totalPrice, body.paymentInfo, Undefined, None))
  }

  /**
   * create-order. `ids` are the ids the database assigns, in creation order;
   * `failAt` is the index of the first `Order.create` that throws, if any.
   * Orders created before a failure stay; the answer is then 400.
   */
  method CreateOrder(store: map<string, Order>, body: OrderBody, ids: seq<string>, failAt: Option<nat>)
    returns (store': map<string, Order>, response: CreateResponse)
    requires body.cart.Some? ==> |ids| >= |body.cart.value|
    requires forall i, j :: 0 <= i < j < |ids| ==> ids[i] != ids[j]
    ensures body.cart.None? ==> store' == store && response == CreateFailed
    ensures body.cart.Some? && (failAt.None? || failAt.value >= |Shops(body.cart.value)|) ==>
      && response.OrdersCreated?
      && |response.orders| == |Shops(body.cart.value)|
      && forall i :: 0 <= i < |response.orders| ==>
        && i < |ids| && response.orders[i].id == ids[i]
        && response.orders[i].shopId == Shops(body.cart.value)[i]
        && response.orders[i].cart == ItemsOf(body.cart.value, Shops(body.cart.value)[i])
        && response.orders[i].shippingAddress == body.shippingAddress
        && response.orders[i].user == body.user
        && response.orders[i].totalPrice == body.totalPrice
        && response.orders[i].paymentInfo == body.paymentInfo
    ensures body.cart.Some? && failAt.Some? && failAt.value < |Shops(body.cart.value)| ==>
      && response == CreateFailed
      && DistinctIds(ShopOrders(body, ids)[..failAt.value])
      && store' == AddAll(store, ShopOrders(body, ids)[..failAt.value])
    ensures response.OrdersCreated? ==>
      && body.cart.Some? && response.orders == ShopOrders(body, ids)
      && DistinctIds(response.orders) && store' == AddAll(store, response.orders)
  {
    if body.cart.None? {
      return store, CreateFailed;
    }
    var cart := body.cart.value;
    var shops, groups := GroupByShop(cart);
    assert |shops| <= |cart| by {
      ShopsDistinct(cart);
      ShopsBound(cart);
    }
    var orders := seq(|shops|, i requires 0 <= i < |shops| =>
      Order(ids[i], groups[i], body.shippingAddress, body.user, shops[i], body.totalPrice,
            body.paymentInfo, Undefined, None));
    assert DistinctIds(orders);
    assert orders == ShopOrders(body, ids);
    if failAt.Some? && failAt.value < |shops| {
      store' := AddAll(store, orders[..failAt.value]);
      response := CreateFailed;
    } else {
      store' := AddAll(store, orders);
      response := OrdersCreated(orders);
    }
  }

  lemma {:induction false} ShopsBound(cart: seq<CartItem>)
    ensures |Shops(cart)| <= |cart|
  {
    if |cart| > 0 {
      ShopsBound(cart[..|cart| - 1]);
    }
  }

  // ---------------------------------------------------------------- listing normalisation

  /** The fields of a product the listings select. */
  datatype ProductInfo = ProductInfo(discountPrice: Option<int>, originalPrice: Option<int>)

  /** One normalised line of get-user-orders / get-order-details. */
  datatype ItemView = ItemView(quantity: int, discount: int, price: Option<int>)

  /**
   * `quantity ?? qty ?? 1`, `discount ?? 0`, and
   * `price ?? (product ? discountPrice ?? originalPrice : 0)`.
   */
  function NormaliseItem(item: CartItem, product: Option<ProductInfo>): (v: ItemView)
    ensures item.quantity.Some? ==> v.quantity == item.quantity.value
    ensures item.quantity.None? && item.qty.Some? ==> v.quantity == item.qty.value
    ensures item.quantity.None? && item.qty.None? ==> v.quantity == 1
    ensures item.discount.Some? ==> v.discount == item.discount.value
    ensures item.discount.None? ==> v.discount == 0
    ensures item.price.Some? ==> v.price == item.price
    ensures item.price.None? && product.None? ==> v.price == Some(0)
    ensures item.price.None? && product.Some? && product.value.discountPrice.Some? ==> v.price == product.value.discountPrice
    ensures item.price.None? && product.Some? && product.value.discountPrice.None? ==> v.price == product.value.originalPrice
  {
    var price :=
      if item.price.Some? then item.price
      else if product.None? then Some(0)
      else if product.value.discountPrice.Some? then product.value.discountPrice
      else product.value.originalPrice;
    ItemView(item.quantity.GetOr(item.qty.GetOr(1)), item.discount.GetOr(0), price)
  }

  /** `??` keeps an explicit 0 where `||` would have replaced it. */
  lemma {:induction false} ZeroQuantityIsKept(item: CartItem, product: Option<ProductInfo>)
    requires item.quantity == Some(0) && item.discount == Some(0)
    ensures NormaliseItem(item, product).quantity == 0 && NormaliseItem(item, product).discount == 0
    ensures Or(Num(0), Num(1)) == Num(1)
  {
  }

  /** `order.status || "Ordered"`: any falsy status, including "", reads as "Ordered". */
  function DeliveryStatus(status: Val): (s: Val)
    ensures Truthy(s)
    ensures Truthy(status) ==> s == status
    ensures !Truthy(status) ==> s == Str("Ordered")
  {
    Or(status, Str("Ordered"))
  }

  // ---------------------------------------------------------------- product counters

  /** The counters of a product; a NaN count is what a missing `qty` leaves behind. */
  datatype Product = Product(stock: Number, soldOut: Number)

  /** One delivered line: `stock = Math.max(stock - qty, 0)`, `sold_out += qty`. */
  function Count(p: Product, qty: Option<int>): (p': Product)
    ensures p'.stock.Finite? ==> p'.stock.v >= 0
    ensures p.stock.Finite? && qty.Some? ==>
      && p'.stock.Finite? && p'.stock.v >= p.stock.v - qty.value
      && (p'.stock.v == 0 || p'.stock.v == p.stock.v - qty.value)
    ensures qty.None? ==> p'.stock.NaN? && p'.soldOut.NaN?
    ensures p.soldOut.Finite? && qty.Some? ==> p'.soldOut == Finite(p.soldOut.v + qty.value)
  {
    var q := FromOption(qty);
    Product(MathMax(Minus(p.stock, q), Finite(0)), Plus(p.soldOut, q))
  }

  /** One refunded line: `stock += qty`, `sold_out -= qty`. */
  function Restock(p: Product, qty: Option<int>): (p': Product)
    ensures p.stock.Finite? && qty.Some? ==> p'.stock == Finite(p.stock.v + qty.value)
    ensures p.soldOut.Finite? && qty.Some? ==> p'.soldOut == Finite(p.soldOut.v - qty.value)
    ensures qty.None? ==> p'.stock.NaN? && p'.soldOut.NaN?
  {
    var q := FromOption(qty);
    Product(Plus(p.stock, q), Minus(p.soldOut, q))
  }

  /** On a product with at least `qty` in stock, a refund exactly undoes a delivery. */
  lemma {:induction false} RestockUndoesCount(p: Product, qty: int)
    requires p.stock.Finite? && p.soldOut.Finite? && 0 <= qty <= p.stock.v
    ensures Restock(Count(p, Some(qty)), Some(qty)) == p
  {
  }

  /** With less than `qty` in stock the clamp loses the difference: a refund overshoots. */
  lemma {:induction false} RestockAfterClampOvershoots(p: Product, qty: int)
    requires p.stock.Finite? && p.soldOut.Finite? && qty > p.stock.v >= 0
    ensures Restock(Count(p, Some(qty)), Some(qty)).stock == Finite(qty)
    ensures Restock(Count(p, Some(qty)), Some(qty)).stock != p.stock
  {
  }

  /**
   * update-order-status's `updateOrder` over the cart: a line with no product id or
   * no product is skipped; a cast failure aborts (`false`), keeping the lines already saved.
   */
  function DeliverCounters(products: map<string, Product>, cart: seq<CartItem>): (r: (map<string, Product>, bool))
    ensures r.0.Keys == products.Keys
    ensures r.1 <==> forall i :: 0 <= i < |cart| ==> !(Truthy(cart[i].productId) && ObjectIds.FindByVal(products, cart[i].productId).CastFailure?)
  {
    if |cart| == 0 then (products, true)
    else
      var it := cart[0];
      assert forall i :: 1 <= i < |cart| ==> cart[i] == cart[1..][i - 1];
      if !Truthy(it.productId) then DeliverCounters(products, cart[1..])
      else
        match ObjectIds.FindByVal(products, it.productId)
        case CastFailure => (products, false)
        case Miss => DeliverCounters(products, cart[1..])
        case Hit(p) => DeliverCounters(products[ObjectIds.Key(it.productId.s) := Count(p, it.qty)], cart[1..])
  }

  /** `v` is a string id that `findById` resolves to the product stored under `k`. */
  predicate Names(v: Val, k: string) {
    v.Str? && ObjectIds.Valid(v.s) && ObjectIds.Key(v.s) == k
  }

  /** The store key of a line's product id. */
  function ProductKey(it: CartItem): string
    requires it.productId.Str?
  {
    ObjectIds.Key(it.productId.s)
  }

  /** Every line names a stored product by a string id. */
  predicate NameProducts(products: map<string, Product>, cart: seq<CartItem>) {
    forall j :: 0 <= j < |cart| ==>
      cart[j].productId.Str? && ObjectIds.Valid(cart[j].productId.s) && ProductKey(cart[j]) in products
  }

  /**
   * Every line names a stored product that has at least the line's (present,
   * non-negative) quantity in stock, and finite counters.
   */
  predicate Restorable(products: map<string, Product>, cart: seq<CartItem>) {
    && NameProducts(products, cart)
    && forall j :: 0 <= j < |cart| ==>
      && cart[j].qty.Some? && 0 <= cart[j].qty.value
      && products[ProductKey(cart[j])].stock.Finite? && products[ProductKey(cart[j])].soldOut.Finite?
      && cart[j].qty.value <= products[ProductKey(cart[j])].stock.v
  }

  /** Lines naming pairwise different products, however their ids are spelled. */
  predicate DistinctProducts(cart: seq<CartItem>) {
    forall i, j :: 0 <= i < j < |cart| && cart[i].productId.Str? && cart[j].productId.Str? ==>
      ProductKey(cart[i]) != ProductKey(cart[j])
  }

  /** The refund loop keyed by a line field; a missing product throws and stops the loop. */
  function RefundCountersBy(products: map<string, Product>, cart: seq<CartItem>, key: CartItem -> Val): (r: (map<string, Product>, bool))
    ensures r.0.Keys == products.Keys
  {
    if |cart| == 0 then (products, true)
    else
      var it := cart[0];
      match ObjectIds.FindByVal(products, key(it))
      case Hit(p) => RefundCountersBy(products[ObjectIds.Key(key(it).s) := Restock(p, it.qty)], cart[1..], key)
      case _ => (products, false)
  }

  /** The refund loop as written: it looks products up by the cart line's own `_id`. */
  function RefundCountersAsWritten(products: map<string, Product>, cart: seq<CartItem>): (r: (map<string, Product>, bool))
    ensures r.0.Keys == products.Keys
    ensures |cart| > 0 && !ObjectIds.FindByVal(products, cart[0].itemId).Hit? ==> r == (products, false)
  {
    RefundCountersBy(products, cart, (it: CartItem) => it.itemId)
  }

  /** The refund loop keyed by `productId`, as the delivery loop is. */
  function RefundCounters(products: map<string, Product>, cart: seq<CartItem>): (r: (map<string, Product>, bool))
    ensures r.0.Keys == products.Keys
    ensures |cart| > 0 && !ObjectIds.FindByVal(products, cart[0].productId).Hit? ==> r == (products, false)
  {
    RefundCountersBy(products, cart, (it: CartItem) => it.productId)
  }

  /** A product that no line names keeps its counters through the delivery loop. */
  lemma {:induction false} DeliverFrame(products: map<string, Product>, cart: seq<CartItem>, k: string)
    requires k in products
    requires forall i :: 0 <= i < |cart| ==> !Names(cart[i].productId, k)
    ensures DeliverCounters(products, cart).0[k] == products[k]
  {
    if |cart| > 0 {
      var it := cart[0];
      if Truthy(it.productId) {
        match ObjectIds.FindByVal(products, it.productId)
        case CastFailure =>
        case Miss => DeliverFrame(products, cart[1..], k);
        case Hit(p) => DeliverFrame(products[ObjectIds.Key(it.productId.s) := Count(p, it.qty)], cart[1..], k);
      } else {
        DeliverFrame(products, cart[1..], k);
      }
    }
  }

  lemma {:induction false} RefundFrame(products: map<string, Product>, cart: seq<CartItem>, k: string)
    requires k in products
    requires forall i :: 0 <= i < |cart| ==> !Names(cart[i].productId, k)
    ensures RefundCounters(products, cart).0[k] == products[k]
  {
    if |cart| > 0 {
      var it := cart[0];
      match ObjectIds.FindByVal(products, it.productId)
      case Hit(p) =>
        assert RefundCounters(products, cart) == RefundCounters(products[ObjectIds.Key(it.productId.s) := Restock(p, it.qty)], cart[1..]);
        RefundFrame(products[ObjectIds.Key(it.productId.s) := Restock(p, it.qty)], cart[1..], k);
      case _ =>
    }
  }

  /** Lines naming stored products with distinct ids: each product gets exactly its line's update. */
  lemma {:induction false} DeliverPointwise(products: map<string, Product>, cart: seq<CartItem>, i: nat)
    requires i < |cart|
    requires NameProducts(products, cart)
    requires DistinctProducts(cart)
    ensures DeliverCounters(products, cart).1
    ensures DeliverCounters(products, cart).0[ProductKey(cart[i])] == Count(products[ProductKey(cart[i])], cart[i].qty)
  {
    var it := cart[0];
    var p' := products[ProductKey(it) := Count(products[ProductKey(it)], it.qty)];
    assert DeliverCounters(products, cart) == DeliverCounters(p', cart[1..]);
    assert forall j :: 0 <= j < |cart[1..]| ==> cart[1..][j] == cart[j + 1];
    if i == 0 {
      DeliverFrame(p', cart[1..], ProductKey(it));
      if |cart| > 1 {
        DeliverPointwise(p', cart[1..], 0);
      }
    } else {
      DeliverPointwise(p', cart[1..], i - 1);
    }
  }

  lemma {:induction false} RefundPointwise(products: map<string, Product>, cart: seq<CartItem>, i: nat)
    requires i < |cart|
    requires NameProducts(products, cart)
    requires DistinctProducts(cart)
    ensures RefundCounters(products, cart).1
    ensures RefundCounters(products, cart).0[ProductKey(cart[i])] == Restock(products[ProductKey(cart[i])], cart[i].qty)
  {
    var it := cart[0];
    var p' := products[ProductKey(it) := Restock(products[ProductKey(it)], it.qty)];
    assert RefundCounters(products, cart) == RefundCounters(p', cart[1..]);
    assert forall j :: 0 <= j < |cart[1..]| ==> cart[1..][j] == cart[j + 1];
    if i == 0 {
      RefundFrame(p', cart[1..], ProductKey(it));
      if |cart| > 1 {
        RefundPointwise(p', cart[1..], 0);
      }
    } else {
      RefundPointwise(p', cart[1..], i - 1);
    }
  }

  /**
   * Keyed by `productId`, the refund of a delivered cart restores every product's
   * counters, provided each had at least its line's quantity in stock.
   */
  lemma {:induction false} RefundUndoesDelivery(products: map<string, Product>, cart: seq<CartItem>)
    requires Restorable(products, cart) && DistinctProducts(cart)
    ensures RefundCounters(DeliverCounters(products, cart).0, cart) == (products, true)
  {
    var delivered := DeliverCounters(products, cart).0;
    var back := RefundCounters(delivered, cart);
    if |cart| > 0 {
      DeliverPointwise(products, cart, 0);
      assert NameProducts(delivered, cart);
      RefundPointwise(delivered, cart, 0);
    } else {
      assert back == (products, true);
    }
    forall k | k in products
      ensures back.0[k] == products[k]
    {
      if j :| 0 <= j < |cart| && Names(cart[j].productId, k) {
        DeliverPointwise(products, cart, j);
        RefundPointwise(delivered, cart, j);
        RestockUndoesCount(products[k], cart[j].qty.value);
      } else {
        DeliverFrame(products, cart, k);
        RefundFrame(delivered, cart, k);
      }
    }
    assert back.0.Keys == products.Keys;
    assert back.0 == products;
  }

  /**
   * When no cart line's own `_id` is a stored product id, the refund as written
   * restores nothing and stops with the thrown "not found" error.
   */
  lemma {:induction false} RefundAsWrittenRestoresNothing(products: map<string, Product>, cart: seq<CartItem>)
    requires |cart| > 0
    requires forall j :: 0 <= j < |cart| ==> !(cart[j].itemId.Str? && ObjectIds.Key(cart[j].itemId.s) in products)
    ensures RefundCountersAsWritten(products, cart) == (products, false)
  {
  }

  // ---------------------------------------------------------------- the two handlers

  /** Status code and whether an error is thrown after the response was already sent. */
  datatype Reply = Reply(code: int, lateError: bool)

  datatype Shop = Shop(availableBalance: int)

  /**
   * update-order-status. The delivery counters run first (a cast error there is a
   * 500 with the earlier lines saved); then the status is stored, and "Delivered"
   * also stamps `deliveredAt` and marks the payment succeeded. After the 200 the
   * handler always throws a ReferenceError on `o`, which is out of scope there.
   * The seller's new balance (a floating-point amount) is not modelled.
   */
  function UpdateOrderStatus(orders: map<string, Order>, products: map<string, Product>,
                             id: string, status: Val, now: int): (r: (map<string, Order>, map<string, Product>, Reply))
    ensures !ObjectIds.Valid(id) ==> r == (orders, products, Reply(500, false))
    ensures ObjectIds.Valid(id) && ObjectIds.Key(id) !in orders ==> r == (orders, products, Reply(400, false))
    ensures r.2.code == 200 ==>
      var key := ObjectIds.Key(id);
      && key in orders && r.2.lateError && key in r.0
      && r.0 == orders[key := r.0[key]]
      && r.0[key].status == status && r.0[key].cart == orders[key].cart
      && (status == Str("Delivered") ==>
            r.0[key].deliveredAt == Some(now) && r.0[key].paymentInfo.Some?
            && r.0[key].paymentInfo.value.status == Str("Succeeded"))
      && (status != Str("Delivered") ==>
            r.0[key].deliveredAt == orders[key].deliveredAt && r.0[key].paymentInfo == orders[key].paymentInfo)
    ensures (ObjectIds.Valid(id) && ObjectIds.Key(id) in orders && status != Str("Delivered")
             && status != Str("Transferred to delivery partner")) ==> r.1 == products && r.2.code == 200
    ensures r.2.code != 200 ==> r.0 == orders
  {
    match ObjectIds.FindById(orders, id)
    case CastFailure => (orders, products, Reply(500, false))
    case Miss => (orders, products, Reply(400, false))
    case Hit(order) =>
      var counted :=
        if status == Str("Transferred to delivery partner") || status == Str("Delivered")
        then DeliverCounters(products, order.cart) else (products, true);
      if !counted.1 then (orders, counted.0, Reply(500, false))
      else if status == Str("Delivered") && order.paymentInfo.None? then
        (orders, counted.0, Reply(500, false))
      else
        var updated :=
          if status == Str("Delivered") then
            order.(status := status, deliveredAt := Some(now),
                   paymentInfo := Some(order.paymentInfo.value.(status := Str("Succeeded"))))
          else order.(status := status);
        (orders[ObjectIds.Key(id) := updated], counted.0, Reply(200, true))
  }

  /** Every letter-case spelling of an order id updates the same order the same way. */
  lemma {:induction false} UpdateOrderStatusIgnoresIdCase(orders: map<string, Order>, products: map<string, Product>,
                                                          id: string, status: Val, now: int)
    ensures UpdateOrderStatus(orders, products, id, status, now)
         == UpdateOrderStatus(orders, products, ObjectIds.Key(id), status, now)
  {
    ObjectIds.KeyFacts(id);
  }

  /** A delivery never leaves a finite stock negative. */
  lemma {:induction false} DeliveredStockNonNegative(orders: map<string, Order>, products: map<string, Product>,
                                  id: string, now: int, k: string)
    requires k in products
    ensures var r := UpdateOrderStatus(orders, products, id, Str("Delivered"), now);
      k in r.1 && (r.1[k] == products[k] || (r.1[k].stock.Finite? ==> r.1[k].stock.v >= 0))
  {
    if ObjectIds.Valid(id) && ObjectIds.Key(id) in orders {
      DeliverStockNonNegative(products, orders[ObjectIds.Key(id)].cart, k);
    }
  }

  lemma {:induction false} DeliverStockNonNegative(products: map<string, Product>, cart: seq<CartItem>, k: string)
    requires k in products
    ensures var r := DeliverCounters(products, cart).0;
      k in r && (r[k] == products[k] || (r[k].stock.Finite? ==> r[k].stock.v >= 0))
  {
    if |cart| > 0 {
      var it := cart[0];
      if Truthy(it.productId) {
        match ObjectIds.FindByVal(products, it.productId)
        case CastFailure =>
        case Miss => DeliverStockNonNegative(products, cart[1..], k);
        case Hit(p) =>
          var p' := products[ProductKey(it) := Count(p, it.qty)];
          DeliverStockNonNegative(p', cart[1..], k);
      } else {
        DeliverStockNonNegative(products, cart[1..], k);
      }
    }
  }

  /**
   * order-refund-success with a refund loop: the status is saved and 200 sent first;
   * on "Refund Success" the loop runs, and a product it cannot find throws after the
   * response (the later lines are not restocked).
   */
  function RefundSuccessWith(orders: map<string, Order>, products: map<string, Product>,
                             id: string, status: Val, key: CartItem -> Val): (r: (map<string, Order>, map<string, Product>, Reply))
  {
    match ObjectIds.FindById(orders, id)
    case CastFailure => (orders, products, Reply(500, false))
    case Miss => (orders, products, Reply(400, false))
    case Hit(order) =>
      var orders' := orders[ObjectIds.Key(id) := order.(status := status)];
      if status == Str("Refund Success") then
        var counted := RefundCountersBy(products, order.cart, key);
        (orders', counted.0, Reply(200, !counted.1))
      else (orders', products, Reply(200, false))
  }

  /** order-refund-success as written, keyed by the cart line's `_id`. */
  function RefundSuccessAsWritten(orders: map<string, Order>, products: map<string, Product>,
                                  id: string, status: Val): (r: (map<string, Order>, map<string, Product>, Reply))
    ensures !ObjectIds.Valid(id) ==> r == (orders, products, Reply(500, false))
    ensures ObjectIds.Valid(id) && ObjectIds.Key(id) !in orders ==> r == (orders, products, Reply(400, false))
    ensures ObjectIds.Valid(id) && ObjectIds.Key(id) in orders ==>
      var key := ObjectIds.Key(id);
      r.0 == orders[key := orders[key].(status := status)] && r.2.code == 200
  {
    RefundSuccessWith(orders, products, id, status, (it: CartItem) => it.itemId)
  }

  /** order-refund-success keyed by `productId`, the field the delivery loop uses. */
  function RefundSuccess(orders: map<string, Order>, products: map<string, Product>,
                         id: string, status: Val): (r: (map<string, Order>, map<string, Product>, Reply))
    ensures !ObjectIds.Valid(id) ==> r == (orders, products, Reply(500, false))
    ensures ObjectIds.Valid(id) && ObjectIds.Key(id) !in orders ==> r == (orders, products, Reply(400, false))
    ensures ObjectIds.Valid(id) && ObjectIds.Key(id) in orders ==>
      var key := ObjectIds.Key(id);
      r.0 == orders[key := orders[key].(status := status)] && r.2.code == 200
    ensures ObjectIds.Valid(id) && ObjectIds.Key(id) in orders && status == Str("Refund Success") ==>
      (r.1, !r.2.lateError) == RefundCounters(products, orders[ObjectIds.Key(id)].cart)
    ensures status != Str("Refund Success") ==> r.1 == products
  {
    RefundSuccessWith(orders, products, id, status, (it: CartItem) => it.productId)
  }

  /**
   * Delivering and then refunding an order whose lines name distinct stored products,
   * each with enough stock, leaves every product as it was.
   */
  lemma {:induction false} DeliverThenRefundRestores(orders: map<string, Order>, products: map<string, Product>, id: string, now: int)
    requires ObjectIds.Valid(id) && ObjectIds.Key(id) in orders && orders[ObjectIds.Key(id)].paymentInfo.Some?
    requires Restorable(products, orders[ObjectIds.Key(id)].cart) && DistinctProducts(orders[ObjectIds.Key(id)].cart)
    ensures var d := UpdateOrderStatus(orders, products, id, Str("Delivered"), now);
      var back := RefundSuccess(d.0, d.1, id, Str("Refund Success"));
      back.1 == products && !back.2.lateError
  {
    var cart := orders[ObjectIds.Key(id)].cart;
    RefundUndoesDelivery(products, cart);
    if |cart| > 0 {
      DeliverPointwise(products, cart, 0);
    }
  }

  /** As written, the same order's refund restores nothing when its lines' `_id`s are not product ids. */
  lemma {:induction false} RefundAsWrittenLeavesStockDelivered(orders: map<string, Order>, products: map<string, Product>, id: string)
    requires ObjectIds.Valid(id) && ObjectIds.Key(id) in orders && |orders[ObjectIds.Key(id)].cart| > 0
    requires forall j :: 0 <= j < |orders[ObjectIds.Key(id)].cart| ==>
      !(orders[ObjectIds.Key(id)].cart[j].itemId.Str? && ObjectIds.Key(orders[ObjectIds.Key(id)].cart[j].itemId.s) in products)
    ensures var back := RefundSuccessAsWritten(orders, products, id, Str("Refund Success"));
      back.1 == products && back.2 == Reply(200, true)
  {
    RefundAsWrittenRestoresNothing(products, orders[ObjectIds.Key(id)].cart);
  }
}

=== FILE: otp_auth.dfy ===
/**
 * E-mail verification by one-time code: the user-registration, resend-otp,
 * verify-user and verify-otp handlers of backend/controller/auth.js over the
 * OTP collection of backend/model/otp.js.
 *
 * Each request is one atomic step over the OTP records and the registered
 * users' e-mail addresses, with the clock (milliseconds) and the generated code
 * as parameters. Queries on `email` see the address lower-cased, as the schema's
 * `lowercase` setter also applies to query filters.
 */
module OtpAuth {
  import opened Wrappers
  import opened Js
  import Strings
  import Ordering

  /** Ten minutes and one hour in milliseconds. */
  const CodeLifetime: int := 10 * 60 * 1000
  const RateWindow: int := 60 * 60 * 1000
  const DefaultMaxAttempts: int := 5

  /** One OTP document; `email` is stored lower-cased. */
  datatype OtpRecord = OtpRecord(
    id: nat,
    email: string,
    otp: string,
    expiresAt: int,
    attempts: int,
    maxAttempts: int,
    isVerified: bool,
    createdAt: int)

  /** The OTP collection in natural order, the registered addresses, and the next free document id. */
  datatype AuthState = AuthState(otps: seq<OtpRecord>, users: set<string>, nextId: nat)

  /** A status code, with the remaining attempts a wrong code reports. */
  datatype Reply = Reply(code: int, remaining: Option<int>)

  /** The key OTP queries compare: the address as stored, lower-cased. */
  function EmailKey(email: Val): string {
    Strings.Lower(ToString(email))
  }

  /** No two records share an id or an e-mail address. */
  ghost predicate Distinct(otps: seq<OtpRecord>) {
    forall i, j :: 0 <= i < j < |otps| ==> otps[i].id != otps[j].id && otps[i].email != otps[j].email
  }

  /** The state invariant: records are distinct and their ids are below `nextId`. */
  ghost predicate Valid(s: AuthState) {
    && Distinct(s.otps)
    && (forall i :: 0 <= i < |s.otps| ==> s.otps[i].id < s.nextId)
  }

  /** `OTP.findOne({ email })`: the first record with that address. */
  function FindByEmail(otps: seq<OtpRecord>, key: string): (r: Option<nat>)
    ensures r.Some? ==> r.value < |otps| && otps[r.value].email == key
    ensures r.None? <==> forall i :: 0 <= i < |otps| ==> otps[i].email != key
  {
    if |otps| == 0 then None
    else if otps[0].email == key then Some(0)
    else
      match FindByEmail(otps[1..], key)
      case None => None
      case Some(k) => Some(k + 1)
  }

  /** `OTP.deleteMany({ email })`. */
  function DeleteByEmail(otps: seq<OtpRecord>, key: string): (r: seq<OtpRecord>)
    ensures forall x :: x in r <==> x in otps && x.email != key
  {
    Ordering.Filter(otps, (x: OtpRecord) => x.email != key)
  }

  /** `OTP.deleteOne({ _id })`. */
  function DeleteById(otps: seq<OtpRecord>, id: nat): (r: seq<OtpRecord>)
    ensures forall x :: x in r <==> x in otps && x.id != id
  {
    Ordering.Filter(otps, (x: OtpRecord) => x.id != id)
  }

  /** The records of the rate-limit query: this address, created within the last hour. */
  function RecentFor(otps: seq<OtpRecord>, key: string, now: int): seq<OtpRecord> {
    Ordering.Filter(otps, (x: OtpRecord) => x.email == key && x.createdAt >= now - RateWindow)
  }

  /** A fresh record as both issuing handlers create it. */
  function NewRecord(s: AuthState, key: string, code: nat, now: int): (r: OtpRecord)
    requires 1000 <= code <= 9999
    ensures r.id == s.nextId && r.email == key && r.otp == Strings.NatToString(code) && r.otp != ""
    ensures r.expiresAt == now + CodeLifetime
    ensures r.attempts == 0 && r.maxAttempts == DefaultMaxAttempts && !r.isVerified
    ensures r.createdAt == now
  {
    OtpRecord(s.nextId, key, Strings.NatToString(code), now + CodeLifetime, 0, DefaultMaxAttempts, false, now)
  }

  /**
   * The issuing part shared by user-registration and resend-otp, after the field
   * and existing-user checks: rate limit, delete the address's records, create one.
   * `mailOk` is whether the e-mail is sent; a failure answers 500 after the write.
   */
  function Issue(s: AuthState, email: Val, code: nat, now: int, mailOk: bool): (r: (AuthState, Reply))
    requires 1000 <= code <= 9999
    ensures r.1.code == 429 <==> |RecentFor(s.otps, EmailKey(email), now)| >= 3
    ensures r.1.code == 429 ==> r.0 == s
  {
    var key := EmailKey(email);
    if |RecentFor(s.otps, key, now)| >= 3 then (s, Reply(429, None))
    else (Reissue(s, key, code, now), Reply(if mailOk then 200 else 500, None))
  }

  /** `deleteMany({ email })` then `create`: the address's records replaced by a fresh one. */
  function Reissue(s: AuthState, key: string, code: nat, now: int): AuthState
    requires 1000 <= code <= 9999
  {
    s.(otps := DeleteByEmail(s.otps, key) + [NewRecord(s, key, code, now)], nextId := s.nextId + 1)
  }

  /** Replacing an address's records by one fresh record keeps the invariant. */
  lemma {:induction false} ReissueKeepsValid(s: AuthState, key: string, code: nat, now: int)
    requires Valid(s) && 1000 <= code <= 9999
    ensures Valid(Reissue(s, key, code, now))
  {
    var rec := NewRecord(s, key, code, now);
    assert Reissue(s, key, code, now) == s.(otps := DeleteByEmail(s.otps, key) + [rec], nextId := s.nextId + 1);
    {
      var kept := DeleteByEmail(s.otps, key);
      SubsequenceKeepsDistinct(s.otps, (x: OtpRecord) => x.email != key);
      var all := kept + [rec];
      forall i | 0 <= i < |kept|
        ensures kept[i].id < s.nextId && kept[i].email != key
      {
        assert kept[i] in s.otps;
      }
      assert Distinct(all) by {
        forall i, j | 0 <= i < j < |all|
          ensures all[i].id != all[j].id && all[i].email != all[j].email
        {
          if j == |kept| {
            assert all[i] == kept[i];
          } else {
            assert all[i] == kept[i] && all[j] == kept[j];
          }
        }
      }
    }
  }

  /** The records after the first are distinct and differ from it. */
  lemma {:induction false} DistinctTail(otps: seq<OtpRecord>)
    requires Distinct(otps) && |otps| > 0
    ensures Distinct(otps[1..])
    ensures forall x :: x in otps[1..] ==> x.id != otps[0].id && x.email != otps[0].email
  {
    var rest := otps[1..];
    forall i, j | 0 <= i < j < |rest|
      ensures rest[i].id != rest[j].id && rest[i].email != rest[j].email
    {
      assert rest[i] == otps[i + 1] && rest[j] == otps[j + 1];
    }
    forall x | x in rest
      ensures x.id != otps[0].id && x.email != otps[0].email
    {
      var m :| 0 <= m < |rest| && rest[m] == x;
      assert otps[m + 1] == x;
    }
  }

  /** A record differing from every record of a distinct sequence can be put in front of it. */
  lemma {:induction false} ConsDistinct(x: OtpRecord, tail: seq<OtpRecord>)
    requires Distinct(tail)
    requires forall y :: y in tail ==> y.id != x.id && y.email != x.email
    ensures Distinct([x] + tail)
  {
    var all := [x] + tail;
    forall i, j | 0 <= i < j < |all|
      ensures all[i].id != all[j].id && all[i].email != all[j].email
    {
      assert all[j] == tail[j - 1];
      if i > 0 {
        assert all[i] == tail[i - 1];
      }
    }
  }

  /** Removing records by any test keeps ids and addresses distinct. */
  lemma {:induction false} SubsequenceKeepsDistinct(otps: seq<OtpRecord>, p: OtpRecord -> bool)
    requires Distinct(otps)
    ensures Distinct(Ordering.Filter(otps, p))
  {
    if |otps| > 0 {
      var rest := otps[1..];
      DistinctTail(otps);
      SubsequenceKeepsDistinct(rest, p);
      var tail := Ordering.Filter(rest, p);
      var kept := Ordering.Filter(otps, p);
      if p(otps[0]) {
        assert kept == [otps[0]] + tail;
        ConsDistinct(otps[0], tail);
      } else {
        assert kept == tail;
      }
    }
  }

  /** user-registration: 400 on a missing field, 409 for a known address, else issue a code. */
  function Register(s: AuthState, email: Val, name: Val, password: Val, code: nat, now: int, mailOk: bool): (r: (AuthState, Reply))
    requires 1000 <= code <= 9999
    ensures !Truthy(email) || !Truthy(name) || !Truthy(password) ==> r == (s, Reply(400, None))
    ensures Truthy(email) && Truthy(name) && Truthy(password) && ToString(email) in s.users ==> r == (s, Reply(409, None))
  {
    if !Truthy(email) || !Truthy(name) || !Truthy(password) then (s, Reply(400, None))
    else if ToString(email) in s.users then (s, Reply(409, None))
    else Issue(s, email, code, now, mailOk)
  }

  /** resend-otp: the same as registration without the password. */
  function Resend(s: AuthState, email: Val, name: Val, code: nat, now: int, mailOk: bool): (r: (AuthState, Reply))
    requires 1000 <= code <= 9999
    ensures !Truthy(email) || !Truthy(name) ==> r == (s, Reply(400, None))
    ensures Truthy(email) && Truthy(name) && ToString(email) in s.users ==> r == (s, Reply(409, None))
  {
    if !Truthy(email) || !Truthy(name) then (s, Reply(400, None))
    else if ToString(email) in s.users then (s, Reply(409, None))
    else Issue(s, email, code, now, mailOk)
  }

  /** A record replaced in place keeps the invariant when its id and address are unchanged. */
  lemma {:induction false} ReplaceKeepsValid(s: AuthState, k: nat, rec: OtpRecord)
    requires Valid(s) && k < |s.otps| && rec.id == s.otps[k].id && rec.email == s.otps[k].email
    ensures Valid(s.(otps := s.otps[k := rec]))
  {
  }

  /**
   * verify-user. The checks run in a fixed order: missing field 400, no record 404,
   * then the record's own checks.
   */
  function VerifyUser(s: AuthState, email: Val, name: Val, password: Val, otp: Val, now: int, mailOk: bool): (r: (AuthState, Reply))
    ensures !Truthy(email) || !Truthy(name) || !Truthy(password) || !Truthy(otp) ==> r == (s, Reply(400, None))
    ensures (Truthy(email) && Truthy(name) && Truthy(password) && Truthy(otp)
             && forall i :: 0 <= i < |s.otps| ==> s.otps[i].email != EmailKey(email)) ==>
      r == (s, Reply(404, None))
    ensures Truthy(email) && Truthy(name) && Truthy(password) && Truthy(otp) ==>
      forall k :: 0 <= k < |s.otps| && s.otps[k].email == EmailKey(email) ==>
        (forall i :: 0 <= i < k ==> s.otps[i].email != EmailKey(email)) ==>
        r == CheckCode(s, k, ToString(email), otp, now, mailOk)
    ensures r.0.users != s.users ==> r.0.users == s.users + {ToString(email)} && ToString(email) !in s.users
  {
    if !Truthy(email) || !Truthy(name) || !Truthy(password) || !Truthy(otp) then (s, Reply(400, None))
    else
      match FindByEmail(s.otps, EmailKey(email))
      case None => (s, Reply(404, None))
      case Some(k) =>
        FirstByEmail(s.otps, EmailKey(email), k);
        FirstIsUnique(s.otps, EmailKey(email), k);
        CheckCode(s, k, ToString(email), otp, now, mailOk)
  }

  /**
   * verify-user on the record found at `k`: expired (strictly after `expiresAt`)
   * 404 and deleted, attempts used up 429 and deleted, wrong code 400 with one
   * more attempt counted, known address 409. Otherwise the user is created
   * verified and the record deleted; `mailOk` is the welcome e-mail, whose
   * failure answers 500 after both writes.
   */
  function CheckCode(s: AuthState, k: nat, address: string, otp: Val, now: int, mailOk: bool): (r: (AuthState, Reply))
    requires k < |s.otps|
    ensures r.1.code == 404 <==> now > s.otps[k].expiresAt
    ensures r.1.code == 429 <==> now <= s.otps[k].expiresAt && s.otps[k].attempts >= s.otps[k].maxAttempts
    ensures r.1.code == 400 <==>
      now <= s.otps[k].expiresAt && s.otps[k].attempts < s.otps[k].maxAttempts && otp != Str(s.otps[k].otp)
    ensures r.1.code == 409 <==>
      && now <= s.otps[k].expiresAt && s.otps[k].attempts < s.otps[k].maxAttempts && otp == Str(s.otps[k].otp)
      && address in s.users
    ensures r.1.code == 404 || r.1.code == 429 ==>
      && r.0.users == s.users
      && forall x :: x in r.0.otps <==> x in s.otps && x.id != s.otps[k].id
    ensures r.1.code == 400 ==>
      && r.1.remaining == Some(s.otps[k].maxAttempts - s.otps[k].attempts - 1)
      && r.0.users == s.users && |r.0.otps| == |s.otps|
      && r.0.otps[k].attempts == s.otps[k].attempts + 1
      && r.0.otps[k].id == s.otps[k].id && r.0.otps[k].email == s.otps[k].email
      && r.0.otps[k].otp == s.otps[k].otp && r.0.otps[k].expiresAt == s.otps[k].expiresAt
      && forall j :: 0 <= j < |s.otps| && j != k ==> r.0.otps[j] == s.otps[j]
    ensures r.1.code == 409 ==> r.0 == s
    ensures r.0.users == s.users || (address !in s.users && r.0.users == s.users + {address})
    ensures r.1.code !in {400, 404, 409, 429} ==>
      && (r.1.code == 201 <==> mailOk)
      && (r.1.code == 500 <==> !mailOk)
      && r.0.users == s.users + {address}
      && forall x :: x in r.0.otps <==> x in s.otps && x.id != s.otps[k].id
  {
    var rec := s.otps[k];
    if now > rec.expiresAt then (Drop(s, rec.id), Reply(404, None))
    else if rec.attempts >= rec.maxAttempts then (Drop(s, rec.id), Reply(429, None))
    else if Str(rec.otp) != otp then
      var rec' := rec.(attempts := rec.attempts + 1);
      (s.(otps := s.otps[k := rec']), Reply(400, Some(rec'.maxAttempts - rec'.attempts)))
    else if address in s.users then (s, Reply(409, None))
    else
      (Drop(s, rec.id).(users := s.users + {address}), Reply(if mailOk then 201 else 500, None))
  }

  /** `OTP.deleteOne({ _id })` on the state. */
  function Drop(s: AuthState, id: nat): AuthState {
    s.(otps := DeleteById(s.otps, id))
  }

  lemma {:induction false} DropKeepsValid(s: AuthState, id: nat)
    requires Valid(s)
    ensures Valid(Drop(s, id))
  {
    FilterKeepsValid(s, (x: OtpRecord) => x.id != id);
  }

  lemma {:induction false} FilterKeepsValid(s: AuthState, p: OtpRecord -> bool)
    ensures Valid(s) ==> Valid(s.(otps := Ordering.Filter(s.otps, p)))
  {
    if Valid(s) {
      SubsequenceKeepsDistinct(s.otps, p);
      var kept := Ordering.Filter(s.otps, p);
      forall i | 0 <= i < |kept|
        ensures kept[i].id < s.nextId
      {
        assert kept[i] in s.otps;
      }
    }
  }

  /** Registration and resend keep the invariant. */
  lemma {:induction false} IssuingKeepsValid(s: AuthState, email: Val, name: Val, password: Val, code: nat, now: int, mailOk: bool)
    requires Valid(s) && 1000 <= code <= 9999
    ensures Valid(Register(s, email, name, password, code, now, mailOk).0)
    ensures Valid(Resend(s, email, name, code, now, mailOk).0)
  {
    IssueStepKeepsValid(s, email, code, now, mailOk);
  }

  lemma {:induction false} IssueStepKeepsValid(s: AuthState, email: Val, code: nat, now: int, mailOk: bool)
    requires Valid(s) && 1000 <= code <= 9999
    ensures Valid(Issue(s, email, code, now, mailOk).0)
  {
    var key := EmailKey(email);
    if |RecentFor(s.otps, key, now)| < 3 {
      assert Issue(s, email, code, now, mailOk).0 == Reissue(s, key, code, now);
      ReissueKeepsValid(s, key, code, now);
    }
  }

  /** The record checks keep the invariant: each deletes a record, counts an attempt, or adds a user. */
  lemma {:induction false} CheckKeepsValid(s: AuthState, k: nat, address: string, otp: Val, now: int, mailOk: bool)
    requires Valid(s) && k < |s.otps|
    ensures Valid(CheckCode(s, k, address, otp, now, mailOk).0)
  {
    var rec := s.otps[k];
    var r := CheckCode(s, k, address, otp, now, mailOk).0;
    if now > rec.expiresAt || rec.attempts >= rec.maxAttempts {
      assert r == Drop(s, rec.id);
      DropKeepsValid(s, rec.id);
    } else if Str(rec.otp) != otp {
      assert r == s.(otps := s.otps[k := rec.(attempts := rec.attempts + 1)]);
      ReplaceKeepsValid(s, k, rec.(attempts := rec.attempts + 1));
    } else if address !in s.users {
      assert r == Drop(s, rec.id).(users := s.users + {address});
      DropKeepsValid(s, rec.id);
      ValidIgnoresUsers(Drop(s, rec.id), s.users + {address});
    }
  }

  lemma {:induction false} ValidIgnoresUsers(s: AuthState, users: set<string>)
    requires Valid(s)
    ensures Valid(s.(users := users))
  {
  }

  /** verify-user keeps the invariant. */
  lemma {:induction false} VerifyUserKeepsValid(s: AuthState, email: Val, name: Val, password: Val, otp: Val, now: int, mailOk: bool)
    requires Valid(s)
    ensures Valid(VerifyUser(s, email, name, password, otp, now, mailOk).0)
  {
    var r := VerifyUser(s, email, name, password, otp, now, mailOk);
    if Truthy(email) && Truthy(name) && Truthy(password) && Truthy(otp) {
      match FindByEmail(s.otps, EmailKey(email))
      case None =>
        assert r.0 == s;
      case Some(k) =>
        assert r == CheckCode(s, k, ToString(email), otp, now, mailOk);
        CheckKeepsValid(s, k, ToString(email), otp, now, mailOk);
    } else {
      assert r.0 == s;
    }
  }

  /** verify-otp keeps the invariant. */
  lemma {:induction false} VerifyOtpKeepsValid(s: AuthState, email: Val, otp: Val, now: int)
    requires Valid(s)
    ensures Valid(VerifyOtp(s, email, otp, now).0)
  {
    var r := VerifyOtp(s, email, otp, now);
    if Truthy(email) && Truthy(otp) {
      match FindByEmail(s.otps, EmailKey(email))
      case None =>
        assert r.0 == s;
      case Some(k) =>
        assert r == ConfirmCode(s, k, otp, now);
        ConfirmKeepsValid(s, k, otp, now);
    } else {
      assert r.0 == s;
    }
  }

  lemma {:induction false} ConfirmKeepsValid(s: AuthState, k: nat, otp: Val, now: int)
    requires Valid(s) && k < |s.otps|
    ensures Valid(ConfirmCode(s, k, otp, now).0)
  {
    var rec := s.otps[k];
    var r := ConfirmCode(s, k, otp, now).0;
    if now > rec.expiresAt {
      assert r == Drop(s, rec.id);
      DropKeepsValid(s, rec.id);
    } else if Str(rec.otp) != otp {
      assert r == s.(otps := s.otps[k := rec.(attempts := rec.attempts + 1)]);
      ReplaceKeepsValid(s, k, rec.(attempts := rec.attempts + 1));
    } else {
      assert r == s.(otps := s.otps[k := rec.(isVerified := true)]);
      ReplaceKeepsValid(s, k, rec.(isVerified := true));
    }
  }


  /**
   * verify-otp: like verify-user without the attempt cap and without creating a
   * user; a right code marks the record verified and keeps it.
   */
  function VerifyOtp(s: AuthState, email: Val, otp: Val, now: int): (r: (AuthState, Reply))
    ensures !Truthy(email) || !Truthy(otp) ==> r == (s, Reply(400, None))
    ensures Truthy(email) && Truthy(otp) && (forall i :: 0 <= i < |s.otps| ==> s.otps[i].email != EmailKey(email)) ==>
      r == (s, Reply(404, None))
    ensures Truthy(email) && Truthy(otp) ==> forall k :: 0 <= k < |s.otps| && s.otps[k].email == EmailKey(email) ==>
      (forall i :: 0 <= i < k ==> s.otps[i].email != EmailKey(email)) ==> r == ConfirmCode(s, k, otp, now)
    ensures r.1.code == 200 ==>
      && Truthy(email) && Truthy(otp)
      && exists k :: 0 <= k < |s.otps| && s.otps[k].email == EmailKey(email)
           && now <= s.otps[k].expiresAt && otp == Str(s.otps[k].otp)
           && k < |r.0.otps| && r.0.otps[k].isVerified
    ensures r.0.users == s.users
  {
    if !Truthy(email) || !Truthy(otp) then (s, Reply(400, None))
    else
      match FindByEmail(s.otps, EmailKey(email))
      case None => (s, Reply(404, None))
      case Some(k) =>
        FirstByEmail(s.otps, EmailKey(email), k);
        FirstIsUnique(s.otps, EmailKey(email), k);
        ConfirmCode(s, k, otp, now)
  }

  /** Whatever index `findOne` returns is the first record with that address. */
  lemma {:induction false} FirstByEmail(otps: seq<OtpRecord>, key: string, k: nat)
    requires FindByEmail(otps, key) == Some(k)
    ensures k < |otps| && otps[k].email == key
    ensures forall i :: 0 <= i < k ==> otps[i].email != key
  {
    if otps[0].email != key {
      FirstByEmail(otps[1..], key, k - 1);
    }
  }

  /** Only one index is the first record with an address. */
  lemma {:induction false} FirstIsUnique(otps: seq<OtpRecord>, key: string, k: nat)
    requires k < |otps| && otps[k].email == key
    requires forall i :: 0 <= i < k ==> otps[i].email != key
    ensures forall j :: 0 <= j < |otps| && otps[j].email == key ==>
      (forall i :: 0 <= i < j ==> otps[i].email != key) ==> j == k
  {
    forall j | 0 <= j < |otps| && otps[j].email == key && (forall i :: 0 <= i < j ==> otps[i].email != key)
      ensures j == k
    {
      if j > k {
        assert false;
      }
    }
  }

  /**
   * verify-otp on the record found at `k`: past its expiry it is deleted and the
   * answer is 404; a wrong code counts one attempt and answers 400; the right code
   * marks the record verified and answers 200. No other record changes.
   */
  function ConfirmCode(s: AuthState, k: nat, otp: Val, now: int): (r: (AuthState, Reply))
    requires k < |s.otps|
    ensures r.1.code == 200 <==> now <= s.otps[k].expiresAt && otp == Str(s.otps[k].otp)
    ensures now > s.otps[k].expiresAt ==>
      && r.1 == Reply(404, None)
      && forall x :: x in r.0.otps <==> x in s.otps && x.id != s.otps[k].id
    ensures now <= s.otps[k].expiresAt ==>
      && |r.0.otps| == |s.otps|
      && (forall j :: 0 <= j < |s.otps| && j != k ==> r.0.otps[j] == s.otps[j])
      && r.0.otps[k].id == s.otps[k].id && r.0.otps[k].email == s.otps[k].email
      && r.0.otps[k].otp == s.otps[k].otp && r.0.otps[k].expiresAt == s.otps[k].expiresAt
    ensures now <= s.otps[k].expiresAt && otp != Str(s.otps[k].otp) ==>
      && r.1 == Reply(400, None)
      && r.0.otps[k].attempts == s.otps[k].attempts + 1
      && r.0.otps[k].isVerified == s.otps[k].isVerified
    ensures r.1.code == 200 ==>
      && r.1 == Reply(200, None)
      && r.0.otps[k].isVerified
      && r.0.otps[k].attempts == s.otps[k].attempts
    ensures r.0.users == s.users && r.0.nextId == s.nextId
  {
    var rec := s.otps[k];
    if now > rec.expiresAt then (Drop(s, rec.id), Reply(404, None))
    else if Str(rec.otp) != otp then
      (s.(otps := s.otps[k := rec.(attempts := rec.attempts + 1)]), Reply(400, None))
    else
      (s.(otps := s.otps[k := rec.(isVerified := true)]), Reply(200, None))
  }

  /** The TTL monitor: removes some records whose `expiresAt` has passed, whichever it reaches. */
  function Expire(s: AuthState, now: int, reached: set<nat>): (s': AuthState)
    ensures forall x :: x in s'.otps <==> x in s.otps && !(x.id in reached && x.expiresAt <= now)
    ensures s'.users == s.users
    ensures Valid(s) ==> Valid(s')
  {
    var p := (x: OtpRecord) => !(x.id in reached && x.expiresAt <= now);
    FilterKeepsValid(s, p);
    s.(otps := Ordering.Filter(s.otps, p))
  }

  // ---------------------------------------------------------------- properties

  /** With at most one record per address, the rate-limit query returns at most one record. */
  lemma {:induction false} AtMostOneRecent(otps: seq<OtpRecord>, key: string, now: int)
    requires Distinct(otps)
    ensures |RecentFor(otps, key, now)| <= 1
  {
    if |otps| > 0 {
      var rest := otps[1..];
      DistinctTail(otps);
      AtMostOneRecent(rest, key, now);
      if otps[0].email == key {
        NoneRecent(rest, key, now);
      }
    }
  }

  lemma {:induction false} NoneRecent(otps: seq<OtpRecord>, key: string, now: int)
    requires forall x :: x in otps ==> x.email != key
    ensures RecentFor(otps, key, now) == []
  {
    if |otps| > 0 {
      NoneRecent(otps[1..], key, now);
    }
  }

  /** In every reachable state the "too many OTP requests" answer is never given. */
  lemma {:induction false} RateLimitNeverFires(s: AuthState, email: Val, name: Val, password: Val, code: nat, now: int, mailOk: bool)
    requires Valid(s) && 1000 <= code <= 9999
    ensures Register(s, email, name, password, code, now, mailOk).1.code != 429
    ensures Resend(s, email, name, code, now, mailOk).1.code != 429
  {
    AtMostOneRecent(s.otps, EmailKey(email), now);
  }

  /**
   * A successful issue leaves exactly one record for the address: the fresh one,
   * with no attempts used, five allowed and ten minutes to live; other addresses keep theirs.
   */
  lemma {:induction false} IssueReplacesRecord(s: AuthState, email: Val, code: nat, now: int, mailOk: bool)
    requires Valid(s) && 1000 <= code <= 9999
    ensures var r := Issue(s, email, code, now, mailOk);
      var key := EmailKey(email);
      && |r.0.otps| >= 1
      && var rec := r.0.otps[|r.0.otps| - 1];
      && rec.email == key && rec.otp == Strings.NatToString(code)
      && rec.attempts == 0 && rec.maxAttempts == 5 && !rec.isVerified
      && rec.expiresAt == now + 600000 && rec.createdAt == now
      && FindByEmail(r.0.otps, key) == Some(|r.0.otps| - 1)
      && (forall x :: x in s.otps && x.email != key ==> x in r.0.otps)
  {
    var key := EmailKey(email);
    AtMostOneRecent(s.otps, key, now);
    assert Issue(s, email, code, now, mailOk).0 == Reissue(s, key, code, now);
    ReissueAppends(s, key, code, now);
  }

  lemma {:induction false} ReissueAppends(s: AuthState, key: string, code: nat, now: int)
    requires 1000 <= code <= 9999
    ensures var s' := Reissue(s, key, code, now);
      && |s'.otps| >= 1
      && s'.otps[|s'.otps| - 1] == NewRecord(s, key, code, now)
      && FindByEmail(s'.otps, key) == Some(|s'.otps| - 1)
      && (forall x :: x in s.otps && x.email != key ==> x in s'.otps)
  {
    FindAppended(DeleteByEmail(s.otps, key), NewRecord(s, key, code, now), key);
  }

  /** `findOne` on records none of which has the address, plus one that has it, finds the last. */
  lemma {:induction false} FindAppended(a: seq<OtpRecord>, rec: OtpRecord, key: string)
    requires forall x :: x in a ==> x.email != key
    requires rec.email == key
    ensures FindByEmail(a + [rec], key) == Some(|a|)
  {
    if |a| > 0 {
      assert (a + [rec])[1..] == a[1..] + [rec];
      assert a[0] in a;
      FindAppended(a[1..], rec, key);
    }
  }

  /** verify-user on a live record with attempts left and a wrong code: one more attempt, 400. */
  lemma {:induction false} WrongCodeCountsAttempt(s: AuthState, email: Val, name: Val, password: Val, otp: Val, now: int, mailOk: bool, k: nat)
    requires Truthy(email) && Truthy(name) && Truthy(password) && Truthy(otp)
    requires FindByEmail(s.otps, EmailKey(email)) == Some(k)
    requires now <= s.otps[k].expiresAt && s.otps[k].attempts < s.otps[k].maxAttempts
    requires Str(s.otps[k].otp) != otp
    ensures var r := VerifyUser(s, email, name, password, otp, now, mailOk);
      && r.0.otps == s.otps[k := s.otps[k].(attempts := s.otps[k].attempts + 1)]
      && r.1 == Reply(400, Some(s.otps[k].maxAttempts - s.otps[k].attempts - 1))
      && r.0.users == s.users
  {
    VerifyUserFound(s, email, name, password, otp, now, mailOk, k);
    WrongCodeCounted(s, k, ToString(email), otp, now, mailOk);
  }

  /** With every field present and the record found at `k`, verify-user runs the record checks on it. */
  lemma {:induction false} VerifyUserFound(s: AuthState, email: Val, name: Val, password: Val, otp: Val, now: int, mailOk: bool, k: nat)
    requires Truthy(email) && Truthy(name) && Truthy(password) && Truthy(otp)
    requires FindByEmail(s.otps, EmailKey(email)) == Some(k)
    ensures VerifyUser(s, email, name, password, otp, now, mailOk) == CheckCode(s, k, ToString(email), otp, now, mailOk)
  {
  }

  lemma {:induction false} WrongCodeCounted(s: AuthState, k: nat, address: string, otp: Val, now: int, mailOk: bool)
    requires k < |s.otps| && now <= s.otps[k].expiresAt && s.otps[k].attempts < s.otps[k].maxAttempts
    requires Str(s.otps[k].otp) != otp
    ensures CheckCode(s, k, address, otp, now, mailOk)
      == (s.(otps := s.otps[k := s.otps[k].(attempts := s.otps[k].attempts + 1)]),
          Reply(400, Some(s.otps[k].maxAttempts - s.otps[k].attempts - 1)))
  {
  }

  /** Once the attempts are used up, even the right code is refused with 429 and the record deleted. */
  lemma {:induction false} ExhaustedRefusesRightCode(s: AuthState, email: Val, name: Val, password: Val, now: int, mailOk: bool, k: nat)
    requires Truthy(email) && Truthy(name) && Truthy(password)
    requires FindByEmail(s.otps, EmailKey(email)) == Some(k)
    requires now <= s.otps[k].expiresAt && s.otps[k].attempts >= s.otps[k].maxAttempts
    requires s.otps[k].otp != ""
    ensures var r := VerifyUser(s, email, name, password, Str(s.otps[k].otp), now, mailOk);
      && r.1.code == 429
      && (forall x :: x in r.0.otps <==> x in s.otps && x.id != s.otps[k].id)
  {
  }

  /** One verify-user call with a fixed body, as a state transition. */
  function Attempt(email: Val, name: Val, password: Val, otp: Val, now: int, mailOk: bool): AuthState -> AuthState {
    s => VerifyUser(s, email, name, password, otp, now, mailOk).0
  }

  /** `n` transitions in a row. */
  function Iterate(f: AuthState -> AuthState, s: AuthState, n: nat): AuthState
    decreases n
  {
    if n == 0 then s else Iterate(f, f(s), n - 1)
  }

  /**
   * Five wrong codes within the lifetime of a freshly issued code, then the right
   * one: the sixth call answers 429.
   */
  lemma {:induction false} FiveWrongThenLockedOut(s: AuthState, email: Val, name: Val, password: Val, code: nat,
                               wrong: Val, now: int, mailOk: bool, five: nat)
    requires Valid(s) && 1000 <= code <= 9999 && five == 5
    requires Truthy(email) && Truthy(name) && Truthy(password) && ToString(email) !in s.users
    requires Truthy(wrong) && wrong != Str(Strings.NatToString(code))
    ensures var s0 := Register(s, email, name, password, code, now, mailOk).0;
      var s5 := Iterate(Attempt(email, name, password, wrong, now, mailOk), s0, five);
      VerifyUser(s5, email, name, password, Str(Strings.NatToString(code)), now, mailOk).1.code == 429
  {
    var s0 := Register(s, email, name, password, code, now, mailOk).0;
    RegisterIssues(s, email, name, password, code, now, mailOk);
    var k := IssueFinds(s, email, code, now, mailOk);
    LockedOutFrom(s0, email, name, password, wrong, now, mailOk, k, five);
  }

  /** After issuing, the new record is the one verify-user finds. */
  lemma {:induction false} IssueFinds(s: AuthState, email: Val, code: nat, now: int, mailOk: bool)
    returns (k: nat)
    requires Valid(s) && 1000 <= code <= 9999
    ensures var s0 := Issue(s, email, code, now, mailOk).0;
      && FindByEmail(s0.otps, EmailKey(email)) == Some(k)
      && now <= s0.otps[k].expiresAt && s0.otps[k].attempts == 0 && s0.otps[k].maxAttempts == 5
      && s0.otps[k].otp == Strings.NatToString(code)
  {
    var key := EmailKey(email);
    AtMostOneRecent(s.otps, key, now);
    assert Issue(s, email, code, now, mailOk).0 == Reissue(s, key, code, now);
    ReissueAppends(s, key, code, now);
    k := |Reissue(s, key, code, now).otps| - 1;
  }

  /** With every field present and a new address, registration is the issuing step. */
  lemma {:induction false} RegisterIssues(s: AuthState, email: Val, name: Val, password: Val, code: nat, now: int, mailOk: bool)
    requires 1000 <= code <= 9999
    requires Truthy(email) && Truthy(name) && Truthy(password) && ToString(email) !in s.users
    ensures Register(s, email, name, password, code, now, mailOk) == Issue(s, email, code, now, mailOk)
  {
  }

  /** The record at `k` is the one found for `key`, and is `rec` with `a` attempts. */
  predicate Counting(s: AuthState, key: string, k: nat, rec: OtpRecord, a: int) {
    FindByEmail(s.otps, key) == Some(k) && s.otps[k] == rec.(attempts := a)
  }

  /** From a found, live, unused record: as many wrong codes as it allows lock out the right one. */
  lemma {:induction false} LockedOutFrom(s0: AuthState, email: Val, name: Val, password: Val, wrong: Val, now: int, mailOk: bool,
                      k: nat, n: nat)
    requires Truthy(email) && Truthy(name) && Truthy(password) && Truthy(wrong)
    requires FindByEmail(s0.otps, EmailKey(email)) == Some(k)
    requires now <= s0.otps[k].expiresAt && s0.otps[k].attempts == 0 && s0.otps[k].maxAttempts == n
    requires s0.otps[k].otp != "" && Str(s0.otps[k].otp) != wrong
    ensures var sn := Iterate(Attempt(email, name, password, wrong, now, mailOk), s0, n);
      VerifyUser(sn, email, name, password, Str(s0.otps[k].otp), now, mailOk).1.code == 429
  {
    var f := Attempt(email, name, password, wrong, now, mailOk);
    var key := EmailKey(email);
    var rec := s0.otps[k];
    AttemptCounts(email, name, password, wrong, now, mailOk, k, rec);
    IterateCounts(f, s0, key, k, rec, 0, n);
    ExhaustedRefusesRightCode(Iterate(f, s0, n), email, name, password, now, mailOk, k);
  }

  /** Each wrong attempt on a live record with attempts left counts one more attempt. */
  lemma {:induction false} AttemptCounts(email: Val, name: Val, password: Val, wrong: Val, now: int, mailOk: bool, k: nat, rec: OtpRecord)
    requires Truthy(email) && Truthy(name) && Truthy(password) && Truthy(wrong)
    requires now <= rec.expiresAt && Str(rec.otp) != wrong
    ensures forall t, b :: Counting(t, EmailKey(email), k, rec, b) && b < rec.maxAttempts ==>
      Counting(Attempt(email, name, password, wrong, now, mailOk)(t), EmailKey(email), k, rec, b + 1)
  {
    forall t, b | Counting(t, EmailKey(email), k, rec, b) && b < rec.maxAttempts
      ensures Counting(Attempt(email, name, password, wrong, now, mailOk)(t), EmailKey(email), k, rec, b + 1)
    {
      assert Attempt(email, name, password, wrong, now, mailOk)(t) == VerifyUser(t, email, name, password, wrong, now, mailOk).0;
      WrongStep(t, email, name, password, wrong, now, mailOk, k, b);
    }
  }

  /** A transition that adds one attempt each time, applied `n` times, adds `n`. */
  lemma {:induction false} IterateCounts(f: AuthState -> AuthState, s: AuthState, key: string, k: nat,
                                         rec: OtpRecord, a: int, n: nat)
    requires forall t, b :: Counting(t, key, k, rec, b) && b < rec.maxAttempts ==> Counting(f(t), key, k, rec, b + 1)
    requires Counting(s, key, k, rec, a) && a + n <= rec.maxAttempts
    ensures Counting(Iterate(f, s, n), key, k, rec, a + n)
    decreases n
  {
    if n > 0 {
      IterateCounts(f, f(s), key, k, rec, a + 1, n - 1);
    }
  }

  /** One wrong attempt on the record at `k`, which is found again afterwards with one more attempt. */
  lemma {:induction false} WrongStep(s: AuthState, email: Val, name: Val, password: Val, wrong: Val, now: int, mailOk: bool,
                  k: nat, n: int)
    requires Truthy(email) && Truthy(name) && Truthy(password) && Truthy(wrong)
    requires FindByEmail(s.otps, EmailKey(email)) == Some(k)
    requires now <= s.otps[k].expiresAt && s.otps[k].attempts == n && n < s.otps[k].maxAttempts
    requires Str(s.otps[k].otp) != wrong
    ensures var s' := VerifyUser(s, email, name, password, wrong, now, mailOk).0;
      && FindByEmail(s'.otps, EmailKey(email)) == Some(k)
      && s'.otps[k] == s.otps[k].(attempts := n + 1)
  {
    VerifyUserFound(s, email, name, password, wrong, now, mailOk, k);
    CheckWrongStep(s, EmailKey(email), ToString(email), wrong, now, mailOk, k, n);
  }

  lemma {:induction false} FindAfterReplace(otps: seq<OtpRecord>, key: string, k: nat, rec: OtpRecord)
    requires FindByEmail(otps, key) == Some(k) && rec.email == otps[k].email
    ensures FindByEmail(otps[k := rec], key) == Some(k)
  {
    if k > 0 {
      assert otps[k := rec][1..] == otps[1..][k - 1 := rec];
      FindAfterReplace(otps[1..], key, k - 1, rec);
    }
  }

  /** The expiry test is strict: at exactly `expiresAt` the right code still creates the user. */
  lemma {:induction false} AcceptedAtExpiryInstant(s: AuthState, email: Val, name: Val, password: Val, mailOk: bool, k: nat)
    requires Truthy(email) && Truthy(name) && Truthy(password)
    requires FindByEmail(s.otps, EmailKey(email)) == Some(k)
    requires s.otps[k].attempts < s.otps[k].maxAttempts && s.otps[k].otp != ""
    requires ToString(email) !in s.users
    ensures var r := VerifyUser(s, email, name, password, Str(s.otps[k].otp), s.otps[k].expiresAt, mailOk);
      && ToString(email) in r.0.users
      && (mailOk ==> r.1.code == 201)
      && (forall x :: x in r.0.otps <==> x in s.otps && x.id != s.otps[k].id)
    ensures VerifyUser(s, email, name, password, Str(s.otps[k].otp), s.otps[k].expiresAt + 1, mailOk).1.code == 404
  {
  }

  /** verify-otp has no attempt cap: the right code is accepted however many attempts were used. */
  lemma {:induction false} VerifyOtpIgnoresAttempts(s: AuthState, email: Val, now: int, k: nat)
    requires Truthy(email)
    requires FindByEmail(s.otps, EmailKey(email)) == Some(k)
    requires now <= s.otps[k].expiresAt && s.otps[k].otp != ""
    ensures var r := VerifyOtp(s, email, Str(s.otps[k].otp), now);
      && r.1.code == 200
      && r.0.otps == s.otps[k := s.otps[k].(isVerified := true)]
  {
  }

  /** A code sent as a JSON number never matches: the stored code is a string and `!==` is strict. */
  lemma {:induction false} NumericCodeNeverMatches(s: AuthState, email: Val, name: Val, password: Val, now: int, mailOk: bool, k: nat, n: int)
    requires Truthy(email) && Truthy(name) && Truthy(password) && n != 0
    requires FindByEmail(s.otps, EmailKey(email)) == Some(k)
    requires now <= s.otps[k].expiresAt && s.otps[k].attempts < s.otps[k].maxAttempts
    ensures VerifyUser(s, email, name, password, Num(n), now, mailOk).1.code == 400
  {
  }

  lemma {:induction false} CheckWrongStep(s: AuthState, key: string, address: string, wrong: Val, now: int, mailOk: bool, k: nat, n: int)
    requires FindByEmail(s.otps, key) == Some(k)
    requires now <= s.otps[k].expiresAt && s.otps[k].attempts == n && n < s.otps[k].maxAttempts
    requires Str(s.otps[k].otp) != wrong
    ensures var s' := CheckCode(s, k, address, wrong, now, mailOk).0;
      && FindByEmail(s'.otps, key) == Some(k)
      && s'.otps[k] == s.otps[k].(attempts := n + 1)
  {
    WrongCodeCounted(s, k, address, wrong, now, mailOk);
    FindAfterReplace(s.otps, key, k, s.otps[k].(attempts := n + 1));
  }
}

=== FILE: products.dfy ===
/**
 * The product routes of backend/controller/product.js: create-product, the two
 * listing queries (get-all-products and get-filtered-products), related products,
 * and the review upsert of create-new-review.
 *
 * A query parameter is `None` when absent; numeric parameters arrive already
 * converted by `Number(...)`. Name search is a regular expression match, kept
 * abstract as the `nameMatch` parameter.
 */
module Products {
  import opened Wrappers
  import opened Js
  import Strings
  import ObjectIds
  import Ordering

  // ---------------------------------------------------------------- create-product

  /** An element of the request's `images`: a plain string or an object with a `url`. */
  datatype ImageInput = Text(s: string) | Uploaded(url: Val)

  datatype Shop = Shop(name: string)

  /** The create-product body fields the handler branches on or transforms. */
  datatype CreateBody = CreateBody(shopId: Val, name: Val, category: Val, discountPrice: Val,
                                   sizes: Option<seq<string>>, images: Option<seq<ImageInput>>)

  /** The document passed to `Product.create`. */
  datatype NewProduct = NewProduct(name: Val, category: Val, discountPrice: Val, sizes: seq<string>,
                                   shopId: string, shop: Shop, images: seq<Val>)

  /** 201 with the product, an error status, or an exception passed to the error handler. */
  datatype Created = Created(product: NewProduct) | Rejected(code: int) | Thrown

  /** `typeof img === "string" ? img : img.url`. */
  function StoredImage(img: ImageInput): Val {
    match img
    case Text(s) => Str(s)
    case Uploaded(url) => url
  }

  function StoredImages(images: seq<ImageInput>): (r: seq<Val>)
    ensures |r| == |images|
    ensures forall i :: 0 <= i < |images| ==> r[i] == StoredImage(images[i])
  {
    if |images| == 0 then [] else [StoredImage(images[0])] + StoredImages(images[1..])
  }

  /**
   * create-product: an id naming no shop answers 400 before anything is created;
   * a malformed id and a missing `images` throw, and so does `Product.create` when
   * the database refuses the document (`createOk` false). `sizes` defaults to the empty list.
   */
  function CreateProduct(shops: map<string, Shop>, body: CreateBody, createOk: bool): (r: Created)
    ensures r == Rejected(400) <==> ObjectIds.FindByVal(shops, body.shopId).Miss?
    ensures r.Created? <==> ObjectIds.FindByVal(shops, body.shopId).Hit? && body.images.Some? && createOk
    ensures ObjectIds.FindByVal(shops, body.shopId).Hit? && body.images.Some? && !createOk ==> r == Thrown
    ensures r.Created? ==>
      && r.product.shopId == body.shopId.s && r.product.shop == shops[ObjectIds.Key(body.shopId.s)]
      && r.product.sizes == body.sizes.GetOr([])
      && |r.product.images| == |body.images.value|
      && (forall i :: 0 <= i < |body.images.value| && body.images.value[i].Text? ==>
            r.product.images[i] == Str(body.images.value[i].s))
      && (forall i :: 0 <= i < |body.images.value| && body.images.value[i].Uploaded? ==>
            r.product.images[i] == body.images.value[i].url)
      && r.product.name == body.name && r.product.category == body.category
      && r.product.discountPrice == body.discountPrice
  {
    match ObjectIds.FindByVal(shops, body.shopId)
    case CastFailure => Thrown
    case Miss => Rejected(400)
    case Hit(shop) =>
      match body.images
      case None => Thrown
      case Some(images) =>
        if !createOk then Thrown
        else
          Created(NewProduct(body.name, body.category, body.discountPrice, body.sizes.GetOr([]),
                             body.shopId.s, shop, StoredImages(images)))
  }

  /**
   * The shop a created product carries is the stored shop whose ObjectId has the
   * bytes of the requested id, whichever letter case the request spelled it in.
   */
  lemma {:induction false} CreatedProductCarriesItsShop(shops: map<string, Shop>, body: CreateBody, createOk: bool)
    requires forall k :: k in shops ==> ObjectIds.Canonical(k)
    ensures var r := CreateProduct(shops, body, createOk);
      r.Created? ==> exists k :: k in shops && ObjectIds.Valid(k)
                       && ObjectIds.ParseHex(k) == ObjectIds.ParseHex(body.shopId.s) && r.product.shop == shops[k]
  {
    var r := CreateProduct(shops, body, createOk);
    if r.Created? {
      var key := ObjectIds.Key(body.shopId.s);
      ObjectIds.KeyFacts(body.shopId.s);
      ObjectIds.ParseHexIgnoresCase(body.shopId.s);
      assert key in shops && ObjectIds.Valid(key) && ObjectIds.ParseHex(key) == ObjectIds.ParseHex(body.shopId.s);
    }
  }

  // ---------------------------------------------------------------- listing queries

  /** The query string of both listing routes. */
  datatype Params = Params(page: Option<Number>, limit: Option<Number>, search: Option<string>,
                           categories: Option<string>, colors: Option<string>, sizes: Option<string>,
                           minPrice: Option<Number>, maxPrice: Option<Number>)

  /** The filter object handed to `Product.find`; `None` for a constraint that is not set. */
  datatype Conditions = Conditions(
    name: Option<string>,
    category: Option<seq<string>>,
    colorValue: Option<seq<string>>,
    sizes: Option<seq<string>>,
    availableSizes: Option<seq<string>>,
    priceMin: Number,
    priceMax: Number)

  /** A catalogue entry with the fields the filters look at. */
  datatype Product = Product(id: string, name: string, category: string, colorValues: seq<string>,
                             sizes: seq<string>, availableSizes: seq<string>, discountPrice: Number,
                             createdAt: int)

  /**
   * get-all-products' list parameter: split on ",", drop the empty fields, and set
   * the constraint only when something is left.
   */
  function CommaList(param: Option<string>): (r: Option<seq<string>>)
    ensures r.Some? ==> param.Some? && |r.value| > 0
    ensures r.Some? ==> forall x :: x in r.value <==> x in Strings.Split(param.value, ',') && x != ""
    ensures r.None? <==> (param.None? || forall i :: 0 <= i < |Strings.Split(param.value, ',')| ==>
                                                     Strings.Split(param.value, ',')[i] == "")
  {
    match param
    case None => None
    case Some(v) =>
      var parts := Strings.Split(v, ',');
      Strings.DropEmptyNone(parts);
      if v == "" then
        assert parts == [""];
        None
      else
        var xs := Strings.DropEmpty(parts);
        if |xs| > 0 then
          assert xs[0] in parts && xs[0] != "";
          Some(xs)
        else None
  }

  /** get-filtered-products' list parameter: split on ",", empty fields kept. */
  function RawList(param: Option<string>): (r: Option<seq<string>>)
    ensures r.Some? <==> param.Some? && param.value != ""
    ensures r.Some? ==> r.value == Strings.Split(param.value, ',')
  {
    match param
    case None => None
    case Some(v) => if v == "" then None else Some(Strings.Split(v, ','))
  }

  /** The price range both routes always set: `[Number(minPrice), Number(maxPrice)]`, defaults 0 and 999999. */
  function PriceMin(p: Params): Number {
    p.minPrice.GetOr(Finite(0))
  }

  function PriceMax(p: Params): Number {
    p.maxPrice.GetOr(Finite(999999))
  }

  /** get-all-products: a trimmed name search, three cleaned lists (colors on `colors.value`) and the price range. */
  function AllProductsConditions(p: Params): (c: Conditions)
    ensures c.name.Some? <==> Strings.Trim(p.search.GetOr("")) != ""
    ensures c.name.Some? ==> c.name.value == Strings.Trim(p.search.GetOr(""))
    ensures c.category == CommaList(p.categories) && c.colorValue == CommaList(p.colors)
    ensures c.sizes == CommaList(p.sizes) && c.availableSizes.None?
    ensures c.priceMin == PriceMin(p) && c.priceMax == PriceMax(p)
  {
    var t := Strings.Trim(p.search.GetOr(""));
    Conditions(if t != "" then Some(t) else None, CommaList(p.categories), CommaList(p.colors),
               CommaList(p.sizes), None, PriceMin(p), PriceMax(p))
  }

  /** get-filtered-products: an untrimmed search, raw lists, sizes on `availableSizes`, colors ignored. */
  function FilteredConditions(p: Params): (c: Conditions)
    ensures c.name.Some? <==> p.search.GetOr("") != ""
    ensures c.name.Some? ==> c.name.value == p.search.value
    ensures c.category == RawList(p.categories) && c.availableSizes == RawList(p.sizes)
    ensures c.colorValue.None? && c.sizes.None?
    ensures c.priceMin == PriceMin(p) && c.priceMax == PriceMax(p)
  {
    var s := p.search.GetOr("");
    Conditions(if s != "" then Some(s) else None, RawList(p.categories), None, None,
               RawList(p.sizes), PriceMin(p), PriceMax(p))
  }

  /** `$in` on a scalar field. */
  predicate InList(c: Option<seq<string>>, x: string) {
    c.None? || x in c.value
  }

  /** `$in` on an array field: some element is listed. */
  predicate Overlaps(c: Option<seq<string>>, xs: seq<string>) {
    c.None? || exists x :: x in xs && x in c.value
  }

  /** `$gte`/`$lte`: a NaN bound or price matches nothing. */
  predicate InRange(lo: Number, hi: Number, x: Number) {
    lo.Finite? && hi.Finite? && x.Finite? && lo.v <= x.v <= hi.v
  }

  predicate Matches(c: Conditions, p: Product, nameMatch: (string, string) -> bool) {
    && (c.name.None? || nameMatch(c.name.value, p.name))
    && InList(c.category, p.category)
    && Overlaps(c.colorValue, p.colorValues)
    && Overlaps(c.sizes, p.sizes)
    && Overlaps(c.availableSizes, p.availableSizes)
    && InRange(c.priceMin, c.priceMax, p.discountPrice)
  }

  function Newest(p: Product): Ordering.Key {
    Ordering.Key(p.createdAt, 0)
  }

  /** The catalogue entries matching the conditions, in natural order. */
  function MatchesOf(store: seq<Product>, c: Conditions, nameMatch: (string, string) -> bool): seq<Product> {
    Ordering.Filter(store, (x: Product) => Matches(c, x, nameMatch))
  }

  /** Every match, newest first: the order `.sort({ createdAt: -1 })` pages through. */
  function Ranked(store: seq<Product>, c: Conditions, nameMatch: (string, string) -> bool): (r: seq<Product>)
    ensures multiset(r) == multiset(MatchesOf(store, c, nameMatch))
    ensures |r| == |MatchesOf(store, c, nameMatch)|
    ensures Ordering.SortedDesc(r, Newest)
  {
    Ordering.SortDescLength(MatchesOf(store, c, nameMatch), Newest);
    Ordering.SortDesc(MatchesOf(store, c, nameMatch), Newest)
  }

  /** A page of results and the match count, or a query the driver refuses (negative or NaN skip). */
  datatype Listing = Listing(products: seq<Product>, total: nat) | QueryFailed

  /** `find(conditions).sort({ createdAt: -1 }).skip(skip).limit(limit)` with `countDocuments`. */
  function RunQuery(store: seq<Product>, c: Conditions, page: Number, limit: Number,
                    nameMatch: (string, string) -> bool): (r: Listing)
    ensures r.QueryFailed? <==> !Ordering.Skip(page, limit).Finite? || Ordering.Skip(page, limit).v < 0
    ensures r.Listing? ==> r.total == |MatchesOf(store, c, nameMatch)|
    ensures r.Listing? ==> forall k :: 0 <= k < |r.products| ==>
      r.products[k] in store && Matches(c, r.products[k], nameMatch)
    ensures r.Listing? ==> Ordering.SortedDesc(r.products, Newest)
    ensures r.Listing? && limit.v != 0 ==> |r.products| <= if limit.v > 0 then limit.v else -limit.v
    ensures r.Listing? ==> |r.products| == Ordering.WindowSize(r.total, Ordering.Skip(page, limit).v, Ordering.MongoLimit(limit.v))
    ensures r.Listing? ==> r.products == Ordering.Window(Ranked(store, c, nameMatch), Ordering.Skip(page, limit).v, Ordering.MongoLimit(limit.v))
  {
    var skip := Ordering.Skip(page, limit);
    if !skip.Finite? || skip.v < 0 then QueryFailed
    else
      var matched := MatchesOf(store, c, nameMatch);
      var sorted := Ranked(store, c, nameMatch);
      var w := Ordering.Window(sorted, skip.v, Ordering.MongoLimit(limit.v));
      WindowFacts(sorted, skip.v, Ordering.MongoLimit(limit.v), Newest);
      assert forall k :: 0 <= k < |sorted| ==> sorted[k] in multiset(matched);
      Listing(w, |matched|)
  }

  /** A window of a sorted sequence is sorted and drawn from it. */
  lemma {:induction false} WindowFacts<T>(s: seq<T>, skip: nat, limit: Ordering.Limit, key: T -> Ordering.Key)
    requires Ordering.SortedDesc(s, key)
    ensures var w := Ordering.Window(s, skip, limit);
      Ordering.SortedDesc(w, key) && forall k :: 0 <= k < |w| ==> w[k] in s
  {
    var w := Ordering.Window(s, skip, limit);
    forall i, j | 0 <= i < j < |w|
      ensures Ordering.NotAfter(key(w[i]), key(w[j]))
    {
      assert w[i] == s[skip + i] && w[j] == s[skip + j];
    }
  }

  /** get-all-products: defaults page 1 and limit 4. */
  function ListAll(store: seq<Product>, p: Params, nameMatch: (string, string) -> bool): Listing {
    RunQuery(store, AllProductsConditions(p), p.page.GetOr(Finite(1)), p.limit.GetOr(Finite(4)), nameMatch)
  }

  /** get-filtered-products: defaults page 1 and limit 10. */
  function ListFiltered(store: seq<Product>, p: Params, nameMatch: (string, string) -> bool): Listing {
    RunQuery(store, FilteredConditions(p), p.page.GetOr(Finite(1)), p.limit.GetOr(Finite(10)), nameMatch)
  }

  /** `Math.ceil(total / limit)` for a non-zero integer limit. */
  function CeilDiv(total: nat, limit: int): (r: int)
    requires limit != 0
    ensures limit > 0 ==> (r - 1) * limit < total <= r * limit
    ensures limit < 0 ==> r * limit <= total < (r - 1) * limit
  {
    if limit > 0 then
      var r := (total + limit - 1) / limit;
      CeilFacts(total, limit, r);
      r
    else
      var r := -(total / -limit);
      CeilFacts(total, -limit, total / -limit);
      r
  }

  lemma {:induction false} CeilFacts(total: nat, limit: int, q: int)
    requires limit > 0
    ensures q == (total + limit - 1) / limit ==> (q - 1) * limit < total <= q * limit
    ensures q == total / limit ==> q * limit <= total < (q + 1) * limit
  {
    if q == (total + limit - 1) / limit {
      var m := (total + limit - 1) % limit;
      assert total + limit - 1 == q * limit + m;
      assert (q - 1) * limit == q * limit - limit;
    }
    if q == total / limit {
      var m := total % limit;
      assert total == q * limit + m;
      assert (q + 1) * limit == q * limit + limit;
    }
  }

  /** get-all-products' `totalPages`; `None` where JavaScript yields Infinity or NaN (limit 0 or NaN). */
  function TotalPages(total: nat, limit: Number): (r: Option<int>)
    ensures r.Some? <==> limit.Finite? && limit.v != 0
    ensures r.Some? && limit.v > 0 ==> (r.value - 1) * limit.v < total <= r.value * limit.v
  {
    if limit.Finite? && limit.v != 0 then Some(CeilDiv(total, limit.v)) else None
  }

  // ---------------------------------------------------------------- related products

  datatype Related = RelatedFound(products: seq<Product>) | NotFound | LookupFailed

  /** `Product.findById(id)` over the catalogue: the first entry with that id. */
  function FindProduct(store: seq<Product>, id: string): (r: ObjectIds.Lookup<Product>)
    ensures r.CastFailure? <==> !ObjectIds.Valid(id)
    ensures r.Hit? ==> r.doc in store && r.doc.id == ObjectIds.Key(id)
    ensures r.Miss? <==> ObjectIds.Valid(id) && forall k :: 0 <= k < |store| ==> store[k].id != ObjectIds.Key(id)
  {
    if !ObjectIds.Valid(id) then ObjectIds.CastFailure
    else if |store| == 0 then ObjectIds.Miss
    else if store[0].id == ObjectIds.Key(id) then ObjectIds.Hit(store[0])
    else
      var r := FindProduct(store[1..], id);
      assert forall k :: 1 <= k < |store| ==> store[k] == store[1..][k - 1];
      r
  }

  /** The other products of a category, in natural order. */
  function SameCategory(store: seq<Product>, p: Product): seq<Product> {
    Ordering.Filter(store, (x: Product) => x.category == p.category && x.id != p.id)
  }

  /** get-related-products: at most five other products of the same category. */
  function RelatedProducts(store: seq<Product>, id: string): (r: Related)
    ensures r.LookupFailed? <==> !ObjectIds.Valid(id)
    ensures r.NotFound? <==> ObjectIds.Valid(id) && forall k :: 0 <= k < |store| ==> store[k].id != ObjectIds.Key(id)
    ensures r.RelatedFound? ==> |r.products| <= 5
    ensures r.RelatedFound? ==> forall k :: 0 <= k < |r.products| ==>
      r.products[k] in store && r.products[k].id != ObjectIds.Key(id)
      && r.products[k].category == FindProduct(store, id).doc.category
  {
    match FindProduct(store, id)
    case CastFailure => LookupFailed
    case Miss => NotFound
    case Hit(p) =>
      var all := SameCategory(store, p);
      var w := Ordering.Window(all, 0, Ordering.AtMost(5));
      assert forall k :: 0 <= k < |w| ==> w[k] in all;
      RelatedFound(w)
  }

  /** The related products are the first five matches, or all of them when there are fewer. */
  lemma {:induction false} RelatedIsFirstFive(store: seq<Product>, id: string)
    requires FindProduct(store, id).Hit?
    ensures var all := SameCategory(store, FindProduct(store, id).doc);
      RelatedProducts(store, id) == RelatedFound(all[..if |all| < 5 then |all| else 5])
  {
  }

  // ---------------------------------------------------------------- reviews

  /** The author object of a review; `id` is its `_id` as a string. */
  datatype ReviewUser = ReviewUser(id: string, name: Val)

  datatype Review = Review(user: ReviewUser, rating: int, comment: Val, productId: Val)

  /** The reviews of a product and its `ratings` average. */
  datatype Reviewed = Reviewed(reviews: seq<Review>, ratings: real)

  /** The sum of the ratings. */
  function RatingSum(reviews: seq<Review>): int {
    if |reviews| == 0 then 0 else RatingSum(reviews[..|reviews| - 1]) + reviews[|reviews| - 1].rating
  }

  /** `avg / product.reviews.length`. */
  function Ratings(reviews: seq<Review>): real
    requires |reviews| > 0
  {
    RatingSum(reviews) as real / |reviews| as real
  }

  /**
   * The review step as written: `rev.user._id === req.user._id` compares a stored
   * id with the signed-in user's ObjectId by reference, which is never true, so the
   * review is always appended.
   */
  function UpsertAsWritten(reviews: seq<Review>, review: Review, callerId: string): (r: seq<Review>)
    ensures r == reviews + [review]
  {
    var isReviewed := SameObjectAsWritten(callerId);
    if isReviewed then reviews else reviews + [review]
  }

  /** `===` between a document field and a freshly loaded ObjectId: different objects. */
  predicate SameObjectAsWritten(callerId: string) {
    false
  }

  /** Whether the caller has reviewed: some review's user has the caller's id. */
  predicate HasReviewed(reviews: seq<Review>, callerId: string) {
    exists i :: 0 <= i < |reviews| && reviews[i].user.id == callerId
  }

  /** Replaces rating, comment and user of each review by `callerId`. */
  function UpdateReviews(reviews: seq<Review>, review: Review, callerId: string): (r: seq<Review>)
    ensures |r| == |reviews|
    ensures forall i :: 0 <= i < |reviews| ==>
      if reviews[i].user.id == callerId
      then r[i] == reviews[i].(rating := review.rating, comment := review.comment, user := review.user)
      else r[i] == reviews[i]
  {
    if |reviews| == 0 then []
    else
      var rev := reviews[0];
      var rev' := if rev.user.id == callerId then rev.(rating := review.rating, comment := review.comment, user := review.user) else rev;
      [rev'] + UpdateReviews(reviews[1..], review, callerId)
  }

  /** The review step with the ids compared by value: update in place, else append. */
  function Upsert(reviews: seq<Review>, review: Review, callerId: string): (r: seq<Review>)
    ensures HasReviewed(reviews, callerId) ==> |r| == |reviews|
    ensures !HasReviewed(reviews, callerId) ==> r == reviews + [review]
    ensures |r| > 0
  {
    if HasReviewed(reviews, callerId) then UpdateReviews(reviews, review, callerId)
    else reviews + [review]
  }

  /** How many reviews are by `callerId`. */
  function ReviewsBy(reviews: seq<Review>, callerId: string): nat {
    if |reviews| == 0 then 0
    else (if reviews[0].user.id == callerId then 1 else 0) + ReviewsBy(reviews[1..], callerId)
  }

  /**
   * create-new-review as written: a product id that fails to cast or names
   * nothing answers 400; otherwise the review is appended (the ownership test
   * never holds, see UpsertAsWritten) and `ratings` recomputed as the mean of
   * all ratings.
   */
  function CreateReviewAsWritten(products: map<string, Reviewed>, productId: Val, review: Review, callerId: string)
    : (r: (map<string, Reviewed>, int))
    ensures r.1 == 200 <==> ObjectIds.FindByVal(products, productId).Hit?
    ensures r.1 != 200 ==> r == (products, 400)
    ensures r.1 == 200 ==>
      var key := ObjectIds.Key(productId.s);
      && r.0.Keys == products.Keys
      && r.0[key].reviews == products[key].reviews + [review]
      && r.0[key].ratings == Ratings(r.0[key].reviews)
      && forall id :: id in products && id != key ==> r.0[id] == products[id]
  {
    match ObjectIds.FindByVal(products, productId)
    case Hit(doc) =>
      var reviews := UpsertAsWritten(doc.reviews, review, callerId);
      (products[ObjectIds.Key(productId.s) := Reviewed(reviews, Ratings(reviews))], 200)
    case _ => (products, 400)
  }

  /**
   * create-new-review with ids compared by value: the caller's earlier review is
   * updated in place instead of a second one being appended.
   */
  function CreateReview(products: map<string, Reviewed>, productId: Val, review: Review, callerId: string)
    : (r: (map<string, Reviewed>, int))
    ensures r.1 == 200 <==> ObjectIds.FindByVal(products, productId).Hit?
    ensures r.1 != 200 ==> r == (products, 400)
    ensures r.1 == 200 ==>
      var key := ObjectIds.Key(productId.s);
      && r.0.Keys == products.Keys
      && r.0[key].reviews == Upsert(products[key].reviews, review, callerId)
      && r.0[key].ratings == Ratings(r.0[key].reviews)
      && forall id :: id in products && id != key ==> r.0[id] == products[id]
  {
    match ObjectIds.FindByVal(products, productId)
    case Hit(doc) =>
      var reviews := Upsert(doc.reviews, review, callerId);
      (products[ObjectIds.Key(productId.s) := Reviewed(reviews, Ratings(reviews))], 200)
    case _ => (products, 400)
  }

  /** Through the route, as written: the same user reviewing a product twice leaves two more reviews by them. */
  lemma {:induction false} CreateReviewTwiceAsWritten(products: map<string, Reviewed>, productId: Val, review: Review, callerId: string)
    requires ObjectIds.FindByVal(products, productId).Hit? && review.user.id == callerId
    ensures var once := CreateReviewAsWritten(products, productId, review, callerId);
      var twice := CreateReviewAsWritten(once.0, productId, review, callerId);
      var key := ObjectIds.Key(productId.s);
      && twice.1 == 200
      && ReviewsBy(twice.0[key].reviews, callerId) == ReviewsBy(products[key].reviews, callerId) + 2
  {
    var key := ObjectIds.Key(productId.s);
    var reviews := products[key].reviews;
    var once := CreateReviewAsWritten(products, productId, review, callerId);
    assert once.0[key].reviews == UpsertAsWritten(reviews, review, callerId);
    var twice := CreateReviewAsWritten(once.0, productId, review, callerId);
    assert twice.0[key].reviews == UpsertAsWritten(UpsertAsWritten(reviews, review, callerId), review, callerId);
    ReviewTwiceAsWritten(reviews, review, callerId);
  }

  /** Through the corrected route, a user's second review of a product replaces the first. */
  lemma {:induction false} CreateReviewTwiceKeepsOne(products: map<string, Reviewed>, productId: Val,
                                                     review: Review, review2: Review, callerId: string)
    requires ObjectIds.FindByVal(products, productId).Hit?
    requires review.user.id == callerId && review2.user.id == callerId
    requires !HasReviewed(products[ObjectIds.Key(productId.s)].reviews, callerId)
    ensures var once := CreateReview(products, productId, review, callerId);
      var twice := CreateReview(once.0, productId, review2, callerId);
      && twice.1 == 200
      && ReviewsBy(twice.0[ObjectIds.Key(productId.s)].reviews, callerId) == 1
  {
    var key := ObjectIds.Key(productId.s);
    var reviews := products[key].reviews;
    var once := CreateReview(products, productId, review, callerId);
    var twice := CreateReview(once.0, productId, review2, callerId);
    assert twice.0[key].reviews == Upsert(Upsert(reviews, review, callerId), review2, callerId);
    ReviewTwiceKeepsOne(reviews, review, review2, callerId);
  }

  // ---------------------------------------------------------------- properties

  /** A comma-joined list of non-empty names without commas is read back exactly by get-all-products. */
  lemma {:induction false} CommaListRoundTrip(xs: seq<string>)
    requires |xs| >= 1
    requires forall i :: 0 <= i < |xs| ==> xs[i] != "" && ',' !in xs[i]
    ensures CommaList(Some(Strings.Join(xs, ','))) == Some(xs)
    ensures RawList(Some(Strings.Join(xs, ','))) == Some(xs)
  {
    Strings.JoinSplit(xs, ',');
    Strings.DropEmptyNoEmpty(xs);
    assert xs[0] != "";
    JoinNonEmpty(xs, ',');
  }

  lemma {:induction false} JoinNonEmpty(xs: seq<string>, sep: char)
    requires |xs| >= 1 && xs[0] != ""
    ensures Strings.Join(xs, sep) != ""
  {
  }

  /** A trailing comma is dropped by get-all-products but becomes an empty category in get-filtered-products. */
  lemma {:induction false} TrailingComma()
    ensures CommaList(Some("shoes,")) == Some(["shoes"])
    ensures RawList(Some("shoes,")) == Some(["shoes", ""])
  {
    assert "shoes," == "shoes" + [','] + "";
    Strings.SplitAt("shoes", ',', "");
    assert Strings.Split("shoes,", ',') == ["shoes", ""];
    assert Strings.DropEmpty(["shoes", ""]) == ["shoes"] by {
      assert ["shoes", ""][1..] == [""];
    }
  }

  /** A blank search sets no name constraint in get-all-products but sets one in get-filtered-products. */
  lemma {:induction false} BlankSearch(p: Params)
    requires p.search == Some("  ")
    ensures AllProductsConditions(p).name.None?
    ensures FilteredConditions(p).name == Some("  ")
  {
    assert Strings.IsJsSpace(' ');
    assert Strings.TrimStart("  ") == "" by {
      assert Strings.TrimStart("  ") == Strings.TrimStart(" ");
      assert Strings.TrimStart(" ") == Strings.TrimStart("");
    }
  }

  /** With no parameters: price range [0, 999999], no other constraint, the first page. */
  lemma {:induction false} Defaults(store: seq<Product>, nameMatch: (string, string) -> bool)
    ensures var p := Params(None, None, None, None, None, None, None, None);
      && AllProductsConditions(p) == Conditions(None, None, None, None, None, Finite(0), Finite(999999))
      && FilteredConditions(p) == Conditions(None, None, None, None, None, Finite(0), Finite(999999))
      && Ordering.Skip(Finite(1), Finite(4)) == Finite(0)
  {
    assert Strings.Trim("") == "";
  }

  /** Consecutive pages start `limit` apart. */
  lemma {:induction false} NextPageSkip(page: int, limit: int)
    ensures Ordering.Skip(Finite(page + 1), Finite(limit)) == Finite(Ordering.Skip(Finite(page), Finite(limit)).v + limit)
  {
    assert (page + 1 - 1) * limit == (page - 1) * limit + limit;
  }

  /**
   * On either listing route, the last page holds something and the page after it
   * is empty though it still reports the match count. `last` is the page count
   * get-all-products reports, `Math.ceil(total / limit)`, as `TotalPages` characterises it.
   */
  lemma {:induction false} LastPageBoundary(store: seq<Product>, c: Conditions, nameMatch: (string, string) -> bool, limit: int, last: int)
    requires limit > 0
    requires var total := |MatchesOf(store, c, nameMatch)|;
      total > 0 && (last - 1) * limit < total <= last * limit
    ensures last >= 1
    ensures var r := RunQuery(store, c, Finite(last), Finite(limit), nameMatch);
      r.Listing? && |r.products| > 0
    ensures RunQuery(store, c, Finite(last + 1), Finite(limit), nameMatch) == Listing([], |MatchesOf(store, c, nameMatch)|)
  {
    LastPageHolds(store, c, nameMatch, limit, last);
    PageAfterLastEmpty(store, c, nameMatch, limit, last);
  }

  lemma {:induction false} LastPageHolds(store: seq<Product>, c: Conditions, nameMatch: (string, string) -> bool, limit: int, last: int)
    requires limit > 0
    requires var total := |MatchesOf(store, c, nameMatch)|;
      total > 0 && (last - 1) * limit < total <= last * limit
    ensures last >= 1
    ensures var r := RunQuery(store, c, Finite(last), Finite(limit), nameMatch);
      r.Listing? && |r.products| > 0
  {
    LastPageNumbers(|MatchesOf(store, c, nameMatch)|, limit, last);
    PageWithin(store, c, last, limit, nameMatch);
  }

  lemma {:induction false} PageAfterLastEmpty(store: seq<Product>, c: Conditions, nameMatch: (string, string) -> bool, limit: int, last: int)
    requires limit > 0
    requires var total := |MatchesOf(store, c, nameMatch)|;
      total > 0 && (last - 1) * limit < total <= last * limit
    ensures RunQuery(store, c, Finite(last + 1), Finite(limit), nameMatch) == Listing([], |MatchesOf(store, c, nameMatch)|)
  {
    LastPageNumbers(|MatchesOf(store, c, nameMatch)|, limit, last);
    PagePast(store, c, last + 1, limit, nameMatch);
  }

  /** The page count get-all-products reports for a positive limit is the `last` of `LastPageBoundary`. */
  lemma {:induction false} TotalPagesIsLast(total: nat, limit: int)
    requires limit > 0
    ensures var last := TotalPages(total, Finite(limit)).value;
      (last - 1) * limit < total <= last * limit
  {
  }

  /** A page whose skip falls inside the matches holds at least one product. */
  lemma {:induction false} PageWithin(store: seq<Product>, c: Conditions, page: int, limit: int, nameMatch: (string, string) -> bool)
    requires page >= 1 && limit > 0 && Ordering.SkipOf(page, limit) < |MatchesOf(store, c, nameMatch)|
    ensures var r := RunQuery(store, c, Finite(page), Finite(limit), nameMatch);
      r.Listing? && |r.products| > 0
  {
    PageSize(store, c, page, limit, nameMatch);
  }

  /** A page whose skip is past the matches is empty. */
  lemma {:induction false} PagePast(store: seq<Product>, c: Conditions, page: int, limit: int, nameMatch: (string, string) -> bool)
    requires page >= 1 && limit > 0 && Ordering.SkipOf(page, limit) >= |MatchesOf(store, c, nameMatch)|
    ensures RunQuery(store, c, Finite(page), Finite(limit), nameMatch) == Listing([], |MatchesOf(store, c, nameMatch)|)
  {
    PageSize(store, c, page, limit, nameMatch);
    var r := RunQuery(store, c, Finite(page), Finite(limit), nameMatch);
    assert r.products == [];
  }


  /**
   * Page `page` of a positive limit is the window of the ranked matches that
   * starts at its skip: `limit` of them, fewer on the last page.
   */
  lemma {:induction false} PageSize(store: seq<Product>, c: Conditions, page: int, limit: int, nameMatch: (string, string) -> bool)
    requires page >= 1 && limit > 0
    ensures Ordering.SkipOf(page, limit) >= 0
    ensures var r := RunQuery(store, c, Finite(page), Finite(limit), nameMatch);
      && r.Listing?
      && r.products == Ordering.Window(Ranked(store, c, nameMatch), Ordering.SkipOf(page, limit), Ordering.AtMost(limit))
      && |r.products| == Ordering.WindowSize(|MatchesOf(store, c, nameMatch)|, Ordering.SkipOf(page, limit), Ordering.AtMost(limit))
  {
    Ordering.SkipFacts(page, limit);
  }

  /** The products of pages 1..k, in page order. */
  function Pages(store: seq<Product>, c: Conditions, k: nat, limit: nat, nameMatch: (string, string) -> bool): seq<Product>
    requires limit >= 1
  {
    if k == 0 then []
    else
      var r := RunQuery(store, c, Finite(k), Finite(limit), nameMatch);
      Pages(store, c, k - 1, limit, nameMatch) + (if r.Listing? then r.products else [])
  }

  /** Pages 1..k laid end to end are the first k·limit ranked matches: no product is skipped or repeated. */
  lemma {:induction false} PagesFormPrefix(store: seq<Product>, c: Conditions, k: nat, limit: nat, nameMatch: (string, string) -> bool)
    requires limit >= 1
    ensures var h := Ranked(store, c, nameMatch);
      Pages(store, c, k, limit, nameMatch) == h[..Ordering.Min(k * limit, |h|)]
  {
    if k > 0 {
      var h := Ranked(store, c, nameMatch);
      var lo := Ordering.SkipOf(k, limit);
      assert lo + limit == k * limit;
      PagesFormPrefix(store, c, k - 1, limit, nameMatch);
      assert (k - 1) * limit == lo;
      PageSize(store, c, k, limit, nameMatch);
      Ordering.WindowExtendsPrefix(h, lo, limit);
    } else {
      assert k * limit == 0;
    }
  }

  /**
   * Two different pages hold different ranks of the matches: everything on an
   * earlier page ranks above everything on a later one.
   */
  lemma {:induction false} PagesDisjoint(store: seq<Product>, c: Conditions, p: nat, q: nat, limit: nat,
                                         nameMatch: (string, string) -> bool)
    requires 1 <= p < q && limit >= 1
    ensures var h := Ranked(store, c, nameMatch);
      var a := RunQuery(store, c, Finite(p), Finite(limit), nameMatch);
      var b := RunQuery(store, c, Finite(q), Finite(limit), nameMatch);
      && a.Listing? && b.Listing?
      && forall i, j :: 0 <= i < |a.products| && 0 <= j < |b.products| ==>
           && Ordering.SkipOf(p, limit) + i < Ordering.SkipOf(q, limit) + j < |h|
           && a.products[i] == h[Ordering.SkipOf(p, limit) + i]
           && b.products[j] == h[Ordering.SkipOf(q, limit) + j]
  {
    PageSize(store, c, p, limit, nameMatch);
    PageSize(store, c, q, limit, nameMatch);
    Ordering.PagesDisjoint(p, q, limit);
  }

  /** The numbers behind the last page: it starts inside the matches, and the next one past them. */
  lemma {:induction false} LastPageNumbers(total: nat, limit: int, last: int)
    requires limit > 0 && total > 0 && (last - 1) * limit < total <= last * limit
    ensures last >= 1
    ensures 0 <= Ordering.SkipOf(last, limit) < total && Ordering.SkipOf(last + 1, limit) >= total
  {
    Ordering.SkipFacts(last, limit);
  }



  /** As written, a second review by the same user is appended: two reviews by them, not one. */
  lemma {:induction false} ReviewTwiceAsWritten(reviews: seq<Review>, review: Review, callerId: string)
    requires review.user.id == callerId
    ensures var r := UpsertAsWritten(UpsertAsWritten(reviews, review, callerId), review, callerId);
      |r| == |reviews| + 2 && ReviewsBy(r, callerId) == ReviewsBy(reviews, callerId) + 2
  {
    ReviewsByAppend(reviews, [review], callerId);
    ReviewsByAppend(reviews + [review], [review], callerId);
    assert ReviewsBy([review], callerId) == 1;
  }

  /** With ids compared by value, reviewing twice leaves the caller exactly one review. */
  lemma {:induction false} ReviewTwiceKeepsOne(reviews: seq<Review>, review: Review, review2: Review, callerId: string)
    requires review.user.id == callerId && review2.user.id == callerId
    requires !HasReviewed(reviews, callerId)
    ensures var r := Upsert(Upsert(reviews, review, callerId), review2, callerId);
      && |r| == |reviews| + 1
      && ReviewsBy(r, callerId) == 1
      && r[|reviews|].rating == review2.rating && r[|reviews|].comment == review2.comment
  {
    var r1 := reviews + [review];
    assert r1[|reviews|].user.id == callerId;
    assert HasReviewed(r1, callerId);
    var r := UpdateReviews(r1, review2, callerId);
    ReviewsByNone(reviews, callerId);
    ReviewsByAppend(reviews, [review], callerId);
    assert ReviewsBy([review], callerId) == 1;
    ReviewsByUpdate(r1, review2, callerId);
  }

  lemma {:induction false} ReviewsByAppend(a: seq<Review>, b: seq<Review>, callerId: string)
    ensures ReviewsBy(a + b, callerId) == ReviewsBy(a, callerId) + ReviewsBy(b, callerId)
  {
    if |a| > 0 {
      assert (a + b)[1..] == a[1..] + b;
      ReviewsByAppend(a[1..], b, callerId);
    } else {
      assert a + b == b;
    }
  }

  lemma {:induction false} ReviewsByNone(reviews: seq<Review>, callerId: string)
    requires !HasReviewed(reviews, callerId)
    ensures ReviewsBy(reviews, callerId) == 0
  {
    if |reviews| > 0 {
      assert !HasReviewed(reviews[1..], callerId) by {
        forall i | 0 <= i < |reviews[1..]|
          ensures reviews[1..][i].user.id != callerId
        {
          assert reviews[1..][i] == reviews[i + 1];
        }
      }
      ReviewsByNone(reviews[1..], callerId);
    }
  }

  /** Updating with a review by the same caller keeps the caller's count. */
  lemma {:induction false} ReviewsByUpdate(reviews: seq<Review>, review: Review, callerId: string)
    requires review.user.id == callerId
    ensures ReviewsBy(UpdateReviews(reviews, review, callerId), callerId) == ReviewsBy(reviews, callerId)
  {
    if |reviews| > 0 {
      ReviewsByUpdate(reviews[1..], review, callerId);
    }
  }

  /** With every rating between 1 and 5, so is the average. */
  lemma {:induction false} RatingsBounded(reviews: seq<Review>)
    requires |reviews| > 0
    requires forall i :: 0 <= i < |reviews| ==> 1 <= reviews[i].rating <= 5
    ensures 1.0 <= Ratings(reviews) <= 5.0
  {
    RatingSumBounds(reviews);
    var n := |reviews| as real;
    var s := RatingSum(reviews) as real;
    assert n <= s <= 5.0 * n;
    DivBetween(s, n, 1.0, 5.0);
  }

  /** Dividing bounds `lo * n <= s <= hi * n` by a positive `n`. */
  lemma {:induction false} DivBetween(s: real, n: real, lo: real, hi: real)
    requires n > 0.0 && lo * n <= s <= hi * n
    ensures lo <= s / n <= hi
  {
  }

  lemma {:induction false} RatingSumBounds(reviews: seq<Review>)
    requires forall i :: 0 <= i < |reviews| ==> 1 <= reviews[i].rating <= 5
    ensures |reviews| <= RatingSum(reviews) <= 5 * |reviews|
  {
    if |reviews| > 0 {
      var init := reviews[..|reviews| - 1];
      assert forall i :: 0 <= i < |init| ==> init[i] == reviews[i];
      RatingSumBounds(init);
    }
  }
}

=== FILE: recommend.dfy ===
/**
 * get-recommendation-products of backend/controller/recommend.js: the 20 newest
 * products, shuffled, of which the first six are returned.
 *
 * The shuffle (`sort` with a random comparator) is a nondeterministic choice: the
 * caller supplies its outcome, any rearrangement of the candidates.
 */
module Recommend {
  import Ordering

  datatype Item = Item(id: string, createdAt: int)

  const CandidateCount: nat := 20
  const SelectionCount: nat := 6

  function Newest(x: Item): Ordering.Key {
    Ordering.Key(x.createdAt, 0)
  }

  /** `Product.find().sort({ createdAt: -1 }).limit(20)`. */
  function Candidates(store: seq<Item>): (c: seq<Item>)
    ensures |c| == Ordering.Min(CandidateCount, |store|)
    ensures Ordering.SortedDesc(c, Newest)
    ensures multiset(c) <= multiset(store)
  {
    var sorted := Ordering.SortDesc(store, Newest);
    Ordering.SortDescLength(store, Newest);
    var c := sorted[..Ordering.Min(CandidateCount, |sorted|)];
    assert sorted == c + sorted[|c|..];
    c
  }

  /** The response: the selection, or 500 when the database call fails. */
  datatype Reply = Recommended(items: seq<Item>) | Failed

  /**
   * The handler. `dbOk` is whether the query succeeds; `shuffled` is what the
   * random sort made of the candidates.
   */
  function Recommendations(store: seq<Item>, dbOk: bool, shuffled: seq<Item>): (r: Reply)
    requires dbOk ==> multiset(shuffled) == multiset(Candidates(store))
    ensures r.Failed? <==> !dbOk
    ensures r.Recommended? ==> |r.items| == Ordering.Min(SelectionCount, Ordering.Min(CandidateCount, |store|))
    ensures r.Recommended? ==> multiset(r.items) <= multiset(Candidates(store))
    ensures r.Recommended? ==> forall k :: 0 <= k < |r.items| ==> r.items[k] in Candidates(store)
    ensures r.Recommended? && (forall x :: multiset(store)[x] <= 1) ==> forall x :: multiset(r.items)[x] <= 1
  {
    if !dbOk then Failed
    else
      var sel := shuffled[..Ordering.Min(SelectionCount, |shuffled|)];
      assert |shuffled| == |multiset(shuffled)|;
      assert shuffled == sel + shuffled[|sel|..];
      assert forall k :: 0 <= k < |sel| ==> sel[k] in multiset(sel);
      Recommended(sel)
  }

  // ---------------------------------------------------------------- properties

  /** The candidates are the newest: no product left out is newer than any candidate. */
  lemma {:induction false} CandidatesAreNewest(store: seq<Item>)
    ensures var sorted := Ordering.SortDesc(store, Newest);
      var c := Candidates(store);
      && sorted[..|c|] == c
      && multiset(c) + multiset(sorted[|c|..]) == multiset(store)
      && forall i, j :: 0 <= i < |c| <= j < |sorted| ==> sorted[j].createdAt <= c[i].createdAt
  {
    var sorted := Ordering.SortDesc(store, Newest);
    Ordering.SortDescLength(store, Newest);
    var c := Candidates(store);
    assert sorted == c + sorted[|c|..];
    forall i, j | 0 <= i < |c| <= j < |sorted|
      ensures sorted[j].createdAt <= c[i].createdAt
    {
      assert c[i] == sorted[i];
      assert Ordering.NotAfter(Newest(sorted[i]), Newest(sorted[j]));
    }
  }

  /** With at least six products, exactly six are recommended; with fewer, all of them. */
  lemma {:induction false} SelectionSize(store: seq<Item>, shuffled: seq<Item>)
    requires multiset(shuffled) == multiset(Candidates(store))
    ensures |store| >= 6 ==> |Recommendations(store, true, shuffled).items| == 6
    ensures |store| < 6 ==> multiset(Recommendations(store, true, shuffled).items) == multiset(store)
  {
    if |store| < 6 {
      var c := Candidates(store);
      var sorted := Ordering.SortDesc(store, Newest);
      Ordering.SortDescLength(store, Newest);
      assert c == sorted[..|sorted|] == sorted;
      assert |shuffled| == |multiset(shuffled)|;
      assert shuffled[..|shuffled|] == shuffled;
    }
  }
}

=== FILE: strings.dfy ===
/** String operations the JavaScript sources rely on, over `seq<char>`. */
module Strings {

  predicate StartsWith(s: string, prefix: string) {
    |prefix| <= |s| && s[..|prefix|] == prefix
  }

  predicate EndsWith(s: string, suffix: string) {
    |suffix| <= |s| && s[|s| - |suffix|..] == suffix
  }

  /** `String.prototype.split` with a one-character separator. */
  function Split(s: string, sep: char): (parts: seq<string>)
    ensures |parts| >= 1
    decreases |s|
  {
    if |s| == 0 then [""]
    else
      var rest := Split(s[1..], sep);
      if s[0] == sep then [""] + rest
      else [[s[0]] + rest[0]] + rest[1..]
  }

  /** `Array.prototype.join` with a one-character separator. */
  function Join(parts: seq<string>, sep: char): string
  {
    if |parts| == 0 then ""
    else if |parts| == 1 then parts[0]
    else parts[0] + [sep] + Join(parts[1..], sep)
  }

  lemma {:induction false} JoinCons(head: string, tail: seq<string>, sep: char)
    requires |tail| >= 1
    ensures Join([head] + tail, sep) == head + [sep] + Join(tail, sep)
  {
    assert ([head] + tail)[1..] == tail;
  }

  /** Splitting and re-joining gives back the input, and no field holds the separator. */
  lemma {:induction false} SplitJoin(s: string, sep: char)
    ensures Join(Split(s, sep), sep) == s
    ensures forall i :: 0 <= i < |Split(s, sep)| ==> sep !in Split(s, sep)[i]
    decreases |s|
  {
    if |s| > 0 {
      SplitJoin(s[1..], sep);
      SplitJoinStep(s, sep);
    }
  }

  /** One step of `SplitJoin`: from the facts about `s[1..]` to the facts about `s`. */
  lemma {:induction false} SplitJoinStep(s: string, sep: char)
    requires |s| > 0
    requires Join(Split(s[1..], sep), sep) == s[1..]
    requires forall i :: 0 <= i < |Split(s[1..], sep)| ==> sep !in Split(s[1..], sep)[i]
    ensures Join(Split(s, sep), sep) == s
    ensures forall i :: 0 <= i < |Split(s, sep)| ==> sep !in Split(s, sep)[i]
  {
    var rest := Split(s[1..], sep);
    if s[0] == sep {
      JoinCons("", rest, sep);
      assert [sep] + s[1..] == s;
    } else {
      SplitJoinGlue(s[0], s[1..], sep);
      assert [s[0]] + s[1..] == s;
    }
  }

  /** A non-separator character joins the first field of what follows it. */
  lemma {:induction false} SplitJoinGlue(c: char, t: string, sep: char)
    requires c != sep
    requires Join(Split(t, sep), sep) == t
    requires forall i :: 0 <= i < |Split(t, sep)| ==> sep !in Split(t, sep)[i]
    ensures Join(Split([c] + t, sep), sep) == [c] + t
    ensures forall i :: 0 <= i < |Split([c] + t, sep)| ==> sep !in Split([c] + t, sep)[i]
  {
    var rest := Split(t, sep);
    assert ([c] + t)[1..] == t;
    assert Split([c] + t, sep) == [[c] + rest[0]] + rest[1..];
    GlueJoin(c, rest, sep);
    GlueFields(c, rest, sep);
  }

  lemma {:induction false} GlueJoin(c: char, rest: seq<string>, sep: char)
    requires |rest| >= 1
    ensures Join([[c] + rest[0]] + rest[1..], sep) == [c] + Join(rest, sep)
  {
    var parts := [[c] + rest[0]] + rest[1..];
    if |rest| == 1 {
      assert Join(parts, sep) == [c] + rest[0];
    } else {
      assert rest == [rest[0]] + rest[1..];
      JoinCons(rest[0], rest[1..], sep);
      JoinCons([c] + rest[0], rest[1..], sep);
    }
  }

  lemma {:induction false} GlueFields(c: char, rest: seq<string>, sep: char)
    requires |rest| >= 1 && c != sep
    requires forall i :: 0 <= i < |rest| ==> sep !in rest[i]
    ensures var parts := [[c] + rest[0]] + rest[1..];
      forall i :: 0 <= i < |parts| ==> sep !in parts[i]
  {
    var parts := [[c] + rest[0]] + rest[1..];
    forall i | 0 <= i < |parts|
      ensures sep !in parts[i]
    {
      if i > 0 { assert parts[i] == rest[i]; }
    }
  }

  /** A string without the separator splits into itself. */
  lemma {:induction false} SplitNoSep(s: string, sep: char)
    requires sep !in s
    ensures Split(s, sep) == [s]
    decreases |s|
  {
    if |s| > 0 {
      SplitNoSep(s[1..], sep);
      assert [s[0]] + s[1..] == s;
    }
  }

  /** The first field is everything before the first separator; the rest splits on its own. */
  lemma {:induction false} SplitAt(a: string, sep: char, rest: string)
    requires sep !in a
    ensures Split(a + [sep] + rest, sep) == [a] + Split(rest, sep)
    decreases |a|
  {
    var s := a + [sep] + rest;
    if |a| == 0 {
      assert s == [sep] + rest;
      assert s[1..] == rest;
    } else {
      assert s[1..] == a[1..] + [sep] + rest;
      SplitAt(a[1..], sep, rest);
      assert [a[0]] + a[1..] == a;
    }
  }

  /** Joining fields that do not hold the separator and splitting again gives back the fields. */
  lemma {:induction false} JoinSplit(parts: seq<string>, sep: char)
    requires |parts| >= 1
    requires forall i :: 0 <= i < |parts| ==> sep !in parts[i]
    ensures Split(Join(parts, sep), sep) == parts
  {
    if |parts| == 1 {
      SplitNoSep(parts[0], sep);
    } else {
      var rest := parts[1..];
      JoinSplit(rest, sep);
      SplitAt(parts[0], sep, Join(rest, sep));
      assert parts == [parts[0]] + rest;
    }
  }

  /** `parts.filter(Boolean)` on strings: the empty fields are dropped. */
  function DropEmpty(parts: seq<string>): (r: seq<string>)
    ensures forall x :: x in r <==> x in parts && x != ""
    ensures |r| <= |parts|
  {
    if |parts| == 0 then []
    else if parts[0] == "" then DropEmpty(parts[1..])
    else [parts[0]] + DropEmpty(parts[1..])
  }

  /** Dropping empty fields from fields none of which is empty changes nothing. */
  lemma {:induction false} DropEmptyNoEmpty(parts: seq<string>)
    requires forall i :: 0 <= i < |parts| ==> parts[i] != ""
    ensures DropEmpty(parts) == parts
  {
    if |parts| > 0 {
      DropEmptyNoEmpty(parts[1..]);
      assert parts == [parts[0]] + parts[1..];
    }
  }

  /** Nothing is left exactly when every field is empty. */
  lemma {:induction false} DropEmptyNone(parts: seq<string>)
    ensures DropEmpty(parts) == [] <==> forall i :: 0 <= i < |parts| ==> parts[i] == ""
  {
    var r := DropEmpty(parts);
    if r != [] {
      assert r[0] in r;
    }
    if exists i :: 0 <= i < |parts| && parts[i] != "" {
      var i :| 0 <= i < |parts| && parts[i] != "";
      assert parts[i] in r;
    }
  }

  /** The characters `String.prototype.trim` removes (WhiteSpace and LineTerminator of ECMA-262). */
  predicate IsJsSpace(c: char) {
    var n := c as int;
    n == 0x09 || n == 0x0A || n == 0x0B || n == 0x0C || n == 0x0D || n == 0x20
    || n == 0xA0 || n == 0x1680 || (0x2000 <= n <= 0x200A) || n == 0x2028 || n == 0x2029
    || n == 0x202F || n == 0x205F || n == 0x3000 || n == 0xFEFF
  }

  function TrimStart(s: string): (r: string)
    ensures |r| <= |s| && r == s[|s| - |r|..]
    ensures |r| > 0 ==> !IsJsSpace(r[0])
    ensures forall i :: 0 <= i < |s| - |r| ==> IsJsSpace(s[i])
  {
    if |s| > 0 && IsJsSpace(s[0]) then TrimStart(s[1..]) else s
  }

  function TrimEnd(s: string): (r: string)
    ensures |r| <= |s| && r == s[..|r|]
    ensures |r| > 0 ==> !IsJsSpace(r[|r| - 1])
    ensures forall i :: |r| <= i < |s| ==> IsJsSpace(s[i])
  {
    if |s| > 0 && IsJsSpace(s[|s| - 1]) then TrimEnd(s[..|s| - 1]) else s
  }

  /** `String.prototype.trim`. */
  function Trim(s: string): string {
    TrimEnd(TrimStart(s))
  }

  /** A trimmed string is empty exactly when the input is all white space. */
  lemma {:induction false} TrimEmptyIffBlank(s: string)
    ensures Trim(s) == "" <==> forall i :: 0 <= i < |s| ==> IsJsSpace(s[i])
  {
  }

  function DigitChar(d: nat): char
    requires d < 10
  {
    "0123456789"[d]
  }

  /** Decimal rendering of a natural number, as `String(n)` prints it. */
  function NatToString(n: nat): (r: string)
    ensures |r| >= 1
    ensures forall i :: 0 <= i < |r| ==> '0' <= r[i] <= '9'
  {
    if n < 10 then [DigitChar(n)] else NatToString(n / 10) + [DigitChar(n % 10)]
  }

  /** Decimal rendering of an integer, with a leading '-' when negative. */
  function IntToString(n: int): (r: string)
    ensures |r| >= 1
  {
    if n < 0 then "-" + NatToString(-n) else NatToString(n)
  }

  function LowerChar(c: char): char {
    if 'A' <= c <= 'Z' then (c as int + 32) as char else c
  }

  /** ASCII lower-casing. */
  function Lower(s: string): (r: string)
    ensures |r| == |s|
  {
    if |s| == 0 then ""
    else
      var c := s[0];
      [LowerChar(c)] + Lower(s[1..])
  }

  /** Lower-casing works character by character. */
  lemma {:induction false} LowerChars(s: string)
    ensures forall i :: 0 <= i < |s| ==> Lower(s)[i] == LowerChar(s[i])
  {
    if |s| > 0 {
      LowerChars(s[1..]);
    }
  }

  /** Lower-casing distributes over concatenation. */
  lemma {:induction false} LowerAppend(a: string, b: string)
    ensures Lower(a + b) == Lower(a) + Lower(b)
  {
    LowerChars(a + b);
    LowerChars(a);
    LowerChars(b);
  }

  /** Lower-casing an already lower-cased string changes nothing. */
  lemma {:induction false} LowerIdempotent(s: string)
    ensures Lower(Lower(s)) == Lower(s)
  {
    LowerChars(s);
    LowerChars(Lower(s));
    assert forall i :: 0 <= i < |s| ==> Lower(Lower(s))[i] == Lower(s)[i];
  }

  predicate IsHexDigit(c: char) {
    ('0' <= c <= '9') || ('a' <= c <= 'f') || ('A' <= c <= 'F')
  }
}

=== FILE: token_refresh.dfy ===
/**
 * The shared HTTP client of Frontend/utils/axiosInstance.tsx: the request
 * interceptor that attaches the stored access token, and the response
 * interceptor that, on a 401, refreshes the token once and queues the other
 * requests that fail meanwhile.
 *
 * The module-level `isRefreshing` flag and `refreshSubscribers` array become the
 * `Client` value; each interceptor callback is a step function. SecureStore is
 * the `Storage` value, the refresh endpoint's answer is a parameter, and the
 * promises are represented by the requests they re-issue or settle.
 */
module TokenRefresh {
  import opened Wrappers
  import AuthMiddleware

  /** The three SecureStore entries the client touches. */
  datatype Storage = Storage(authToken: Option<string>, refreshToken: Option<string>, user: Option<string>)

  /** A request as far as the interceptors look at it: its `Authorization` header and `_retry` mark. */
  datatype Request = Request(id: nat, authorization: Option<string>, retry: bool)

  /** `isRefreshing` and `refreshSubscribers`, one waiter per queued request. */
  datatype Client = Client(storage: Storage, isRefreshing: bool, waiters: seq<Request>)

  /** `if (token)`: a stored token that is not the empty string. */
  predicate Present(v: Option<string>) {
    v.Some? && v.value != ""
  }

  /** The request interceptor: `Authorization: Bearer <token>` exactly when a token is stored. */
  function AttachToken(storage: Storage, req: Request): (r: Request)
    ensures Present(storage.authToken) ==> r.authorization == Some("Bearer " + storage.authToken.value)
    ensures !Present(storage.authToken) ==> r == req
    ensures r.id == req.id && r.retry == req.retry
  {
    if Present(storage.authToken) then req.(authorization := Some("Bearer " + storage.authToken.value))
    else req
  }

  /** `!!originalRequest.headers?.Authorization`. */
  predicate HasAuthHeader(req: Request) {
    Present(req.authorization)
  }

  /** The three conditions for trying a refresh. */
  predicate Qualifies(req: Request, status: Option<int>) {
    status == Some(401) && !req.retry && HasAuthHeader(req)
  }

  /** What the error interceptor does with one failed request. */
  datatype Effect = Rejected(req: Request) | Queued | RefreshStarted(original: Request)

  /** The error interceptor up to the refresh call itself. */
  function OnError(c: Client, req: Request, status: Option<int>): (r: (Client, Effect))
    ensures r.1.Rejected? <==> !Qualifies(req, status)
    ensures r.1.Rejected? ==> r == (c, Rejected(req))
    ensures r.1.Queued? <==> Qualifies(req, status) && c.isRefreshing
    ensures r.1.Queued? ==> r.0 == c.(waiters := c.waiters + [req])
    ensures r.1.RefreshStarted? <==> Qualifies(req, status) && !c.isRefreshing
    ensures r.1.RefreshStarted? ==>
      && r.0 == c.(isRefreshing := true)
      && r.1.original == req.(retry := true)
  {
    if !Qualifies(req, status) then (c, Rejected(req))
    else if c.isRefreshing then (c.(waiters := c.waiters + [req]), Queued)
    else (c.(isRefreshing := true), RefreshStarted(req.(retry := true)))
  }

  /** The refresh endpoint's outcome: `res.data?.accessToken`, or a failed request. */
  datatype RefreshReply = Answered(accessToken: Option<string>) | RequestFailed

  /** The refresh succeeds iff a refresh token is stored and the endpoint returns a non-empty access token. */
  predicate Succeeds(storage: Storage, reply: RefreshReply) {
    Present(storage.refreshToken) && reply.Answered? && Present(reply.accessToken)
  }

  /**
   * How the refresh ends: the requests re-issued (waiters first, then the
   * original), or the requests rejected and those left pending.
   */
  datatype Completion =
    | Reissued(requests: seq<Request>)
    | RefreshFailed(rejected: seq<Request>, neverSettled: seq<Request>)

  /** What `handleLogout` leaves in SecureStore. */
  const LoggedOut := Storage(None, None, None)

  /**
   * The end of the refresh as written: on failure the waiters are dropped
   * (`refreshSubscribers = []`) without being resolved or rejected.
   */
  function FinishRefreshAsWritten(c: Client, original: Request, reply: RefreshReply): (r: (Client, Completion))
    ensures !r.0.isRefreshing && r.0.waiters == []
    ensures r.1.RefreshFailed? ==> r.1.neverSettled == c.waiters && r.1.rejected == [original]
  {
    if Succeeds(c.storage, reply) then
      var token := reply.accessToken.value;
      (Client(c.storage.(authToken := Some(token)), false, []), Reissued(c.waiters + [original]))
    else
      (Client(LoggedOut, false, []), RefreshFailed([original], c.waiters))
  }

  /**
   * The end of the refresh with every waiter settled: on success the new token
   * is stored and each waiter fires once, in the order it queued, before the
   * original is re-issued; on failure the user is logged out and the waiters
   * are rejected along with the original.
   */
  function FinishRefresh(c: Client, original: Request, reply: RefreshReply): (r: (Client, Completion))
    ensures !r.0.isRefreshing && r.0.waiters == []
    ensures r.1.Reissued? <==> Succeeds(c.storage, reply)
    ensures r.1.Reissued? ==>
      && r.0.storage == c.storage.(authToken := reply.accessToken)
      && r.1.requests == c.waiters + [original]
    ensures r.1.RefreshFailed? ==>
      && r.0.storage == Storage(None, None, None)
      && r.1.rejected == c.waiters + [original]
      && r.1.neverSettled == []
  {
    if Succeeds(c.storage, reply) then
      var token := reply.accessToken.value;
      (Client(c.storage.(authToken := Some(token)), false, []), Reissued(c.waiters + [original]))
    else
      (Client(LoggedOut, false, []), RefreshFailed(c.waiters + [original], []))
  }

  /** A waiter is only ever queued while a refresh is running. */
  predicate Inv(c: Client) {
    !c.isRefreshing ==> c.waiters == []
  }

  // ---------------------------------------------------------------- properties

  /** Both steps keep the queue empty whenever no refresh is running. */
  lemma {:induction false} StepsKeepInv(c: Client, req: Request, status: Option<int>, original: Request, reply: RefreshReply)
    requires Inv(c)
    ensures Inv(OnError(c, req, status).0)
    ensures Inv(FinishRefresh(c, original, reply).0)
  {
  }

  /** The header the client attaches is the one the server's guard accepts, giving back the same token. */
  lemma {:induction false} AttachedTokenPassesGuard(storage: Storage, req: Request)
    requires Present(storage.authToken) && ' ' !in storage.authToken.value
    ensures AuthMiddleware.ExtractToken(AttachToken(storage, req).authorization) == storage.authToken
    ensures HasAuthHeader(AttachToken(storage, req))
  {
    AuthMiddleware.BearerFieldRoundTrip(storage.authToken.value, "");
  }

  /** The request that started a refresh is never refreshed again: a second 401 on it is rejected. */
  lemma {:induction false} NeverRefreshedTwice(c: Client, req: Request, status: Option<int>, c2: Client, status2: Option<int>)
    requires OnError(c, req, status).1.RefreshStarted?
    ensures var again := OnError(c2, OnError(c, req, status).1.original, status2);
      again == (c2, Rejected(OnError(c, req, status).1.original))
  {
  }

  /** Qualifying 401s that arrive one after another. */
  function ErrorAll(c: Client, reqs: seq<Request>): (r: Client)
    decreases |reqs|
  {
    if |reqs| == 0 then c
    else ErrorAll(OnError(c, reqs[0], Some(401)).0, reqs[1..])
  }

  /** While a refresh runs, qualifying 401s join the queue in arrival order. */
  lemma {:induction false} QueueIsFifo(c: Client, reqs: seq<Request>)
    requires c.isRefreshing
    requires forall k :: 0 <= k < |reqs| ==> !reqs[k].retry && HasAuthHeader(reqs[k])
    ensures ErrorAll(c, reqs) == c.(waiters := c.waiters + reqs)
    decreases |reqs|
  {
    if |reqs| > 0 {
      var c1 := OnError(c, reqs[0], Some(401)).0;
      QueueIsFifo(c1, reqs[1..]);
      assert c.waiters + [reqs[0]] + reqs[1..] == c.waiters + reqs;
    }
  }

  /**
   * From an idle client: the first 401 starts the refresh, the rest queue, and a
   * successful refresh re-issues each of them exactly once, in arrival order,
   * followed by the first, now marked as retried.
   */
  lemma {:induction false} RefreshRoundTrip(storage: Storage, first: Request, rest: seq<Request>, token: string)
    requires !first.retry && HasAuthHeader(first)
    requires forall k :: 0 <= k < |rest| ==> !rest[k].retry && HasAuthHeader(rest[k])
    requires Present(storage.refreshToken) && token != ""
    ensures var (c1, e) := OnError(Client(storage, false, []), first, Some(401));
      && e.RefreshStarted?
      && var c2 := ErrorAll(c1, rest);
      && c2.waiters == rest
      && FinishRefresh(c2, e.original, Answered(Some(token)))
         == (Client(storage.(authToken := Some(token)), false, []), Reissued(rest + [first.(retry := true)]))
  {
    var (c1, e) := OnError(Client(storage, false, []), first, Some(401));
    QueueIsFifo(c1, rest);
  }

  /** As written, a request queued behind a refresh that fails is never settled. */
  lemma {:induction false} AsWrittenStrandsWaiters(c: Client, original: Request, reply: RefreshReply, k: nat)
    requires k < |c.waiters| && !Succeeds(c.storage, reply)
    ensures var (c', done) := FinishRefreshAsWritten(c, original, reply);
      && c.waiters[k] in done.neverSettled
      && done.rejected == [original]
      && c'.waiters == []
  {
  }

  /** With every waiter rejected on failure, each queued request settles exactly once either way. */
  lemma {:induction false} EveryWaiterSettles(c: Client, original: Request, reply: RefreshReply)
    ensures var done := FinishRefresh(c, original, reply).1;
      (if done.Reissued? then done.requests else done.rejected) == c.waiters + [original]
    ensures FinishRefresh(c, original, reply).1.RefreshFailed? ==> FinishRefresh(c, original, reply).1.neverSettled == []
  {
  }
}

=== FILE: uploads.dfy ===
/**
 * The upload middleware of backend/multer.js: the name a file is stored under,
 * the image-only filter and the 5 MB size limit.
 *
 * The stored name uses Node's `path.extname` and `path.basename(name, ext)` on
 * the client's file name. Busboy hands multer the name with any directory part
 * already removed, so the names here contain no '/'. The clock (`Date.now()`)
 * is a parameter; creating the directory and writing the bytes are not modelled.
 */
module Uploads {
  import opened Wrappers
  import Strings

  /** Index of the last '.' in `s`, if any. */
  function LastDot(s: string): (r: Option<nat>)
    ensures r.Some? ==> r.value < |s| && s[r.value] == '.'
    ensures r.Some? ==> forall j :: r.value < j < |s| ==> s[j] != '.'
    ensures r.None? <==> forall j :: 0 <= j < |s| ==> s[j] != '.'
  {
    if |s| == 0 then None
    else if s[|s| - 1] == '.' then Some(|s| - 1)
    else LastDot(s[..|s| - 1])
  }

  /** A '.' with no '.' after it is the last dot. */
  lemma {:induction false} LastDotIs(s: string, i: nat)
    requires i < |s| && s[i] == '.'
    requires forall j :: i < j < |s| ==> s[j] != '.'
    ensures LastDot(s) == Some(i)
  {
    if i < |s| - 1 {
      LastDotIs(s[..|s| - 1], i);
    }
  }

  /**
   * `path.extname`: from the last '.' to the end, or "" when there is no dot,
   * when the only dot starts the name (".bashrc"), or for the name "..".
   */
  function Ext(name: string): (e: string)
    requires '/' !in name
    ensures e == "" || (e[0] == '.' && |e| < |name| && Strings.EndsWith(name, e))
    ensures e != "" ==> forall j :: 1 <= j < |e| ==> e[j] != '.'
    ensures e == "" <==> LastDot(name).None? || LastDot(name) == Some(0) || name == ".."
  {
    match LastDot(name)
    case None => ""
    case Some(i) => if i == 0 || name == ".." then "" else name[i..]
  }

  /** `path.basename(name, ext)`: the name without its extension. */
  function Base(name: string): (b: string)
    requires '/' !in name
    ensures b + Ext(name) == name
  {
    var e := Ext(name);
    assert name == name[..|name| - |e|] + name[|name| - |e|..];
    name[..|name| - |e|]
  }

  /** The `filename` callback: `${name}_${timestamp}${ext}`. */
  function StoredName(originalName: string, now: nat): (r: string)
    requires '/' !in originalName
    ensures Strings.StartsWith(r, Base(originalName) + "_")
    ensures Strings.EndsWith(r, Ext(originalName))
    ensures '/' !in r
  {
    var b := Base(originalName);
    var d := Strings.NatToString(now);
    var r := b + "_" + d + Ext(originalName);
    assert r[..|b + "_"|] == b + "_";
    assert r[|r| - |Ext(originalName)|..] == Ext(originalName);
    SliceLacks(originalName, 0, |b|, '/');
    SliceLacks(originalName, |b|, |originalName|, '/');
    assert '/' !in d;
    r
  }

  /** A slice holds no character its string does not. */
  lemma {:induction false} SliceLacks(s: string, i: nat, j: nat, c: char)
    requires i <= j <= |s| && c !in s
    ensures c !in s[i..j]
  {
  }

  const MaxFileSize: nat := 5 * 1024 * 1024

  /** `fileFilter`: only image MIME types pass. */
  predicate IsImage(mimetype: string) {
    Strings.StartsWith(mimetype, "image/")
  }

  datatype IncomingFile = IncomingFile(originalName: string, mimetype: string, size: nat)

  /** What multer makes of one file: stored under a name, or one of the two errors. */
  datatype Upload = Stored(filename: string) | OnlyImagesAllowed | FileTooLarge

  /**
   * One file through `upload`: the filter runs first, then the bytes are
   * streamed and a file longer than the limit is an error.
   */
  function Receive(file: IncomingFile, now: nat): (r: Upload)
    requires '/' !in file.originalName
    ensures r.OnlyImagesAllowed? <==> !IsImage(file.mimetype)
    ensures r.FileTooLarge? <==> IsImage(file.mimetype) && file.size > MaxFileSize
    ensures r.Stored? ==>
      && Strings.StartsWith(r.filename, Base(file.originalName) + "_")
      && Strings.EndsWith(r.filename, Ext(file.originalName))
  {
    if !IsImage(file.mimetype) then OnlyImagesAllowed
    else if file.size > MaxFileSize then FileTooLarge
    else Stored(StoredName(file.originalName, now))
  }

  // ---------------------------------------------------------------- properties

  /** The stored name keeps the original extension, so the file's type is still visible. */
  lemma {:induction false} StoredKeepsExtension(originalName: string, now: nat)
    requires '/' !in originalName && originalName != ".."
    ensures Ext(StoredName(originalName, now)) == Ext(originalName)
    ensures Base(StoredName(originalName, now)) == Base(originalName) + "_" + Strings.NatToString(now)
  {
    if Ext(originalName) != "" {
      ExtendedStaysExtended(originalName, now);
    } else {
      PlainStaysPlain(originalName, now);
    }
  }

  /** A name with an extension: the stored name's last dot is the one that starts it. */
  lemma {:induction false} ExtendedStaysExtended(originalName: string, now: nat)
    requires '/' !in originalName && Ext(originalName) != ""
    ensures Ext(StoredName(originalName, now)) == Ext(originalName)
    ensures Base(StoredName(originalName, now)) == Base(originalName) + "_" + Strings.NatToString(now)
  {
    var p := Base(originalName) + "_" + Strings.NatToString(now);
    var r := StoredName(originalName, now);
    assert r == p + Ext(originalName);
    LastDotIs(r, |p|);
  }

  /** A name without an extension: the stored name has no dot after its first character either. */
  lemma {:induction false} PlainStaysPlain(originalName: string, now: nat)
    requires '/' !in originalName && originalName != ".." && Ext(originalName) == ""
    ensures Ext(StoredName(originalName, now)) == ""
    ensures Base(StoredName(originalName, now)) == originalName + "_" + Strings.NatToString(now)
  {
    var b := Base(originalName);
    var r := StoredName(originalName, now);
    assert b == originalName && r == b + "_" + Strings.NatToString(now);
    StampHasNoDot(b, Strings.NatToString(now));
    if LastDot(originalName).Some? {
      assert LastDot(originalName) == Some(0);
      LastDotIs(r, 0);
    }
  }

  /** The `_<time>` part of a stored name holds no '.'. */
  lemma {:induction false} StampHasNoDot(b: string, d: string)
    requires forall i :: 0 <= i < |d| ==> '0' <= d[i] <= '9'
    ensures forall j :: |b| <= j < |b + "_" + d| ==> (b + "_" + d)[j] != '.'
  {
    var r := b + "_" + d;
    forall j | |b| <= j < |r| ensures r[j] != '.' {
      if j > |b| { assert r[j] == d[j - |b| - 1]; }
    }
  }

  /** The one exception: ".." has no extension, but its stored name ".._<time>" has one. */
  lemma {:induction false} DotDotGainsExtension(now: nat)
    ensures Ext(StoredName("..", now)) != Ext("..")
  {
    var r := StoredName("..", now);
    var d := Strings.NatToString(now);
    assert r == ".." + "_" + d;
    forall j | 1 < j < |r| ensures r[j] != '.' {
      if j > 2 { assert r[j] == d[j - 3]; }
    }
    LastDotIs(r, 1);
  }

  /** A file of exactly the limit is accepted; one byte more is not. */
  lemma {:induction false} LimitIsInclusive(name: string, mimetype: string, now: nat)
    requires '/' !in name && IsImage(mimetype)
    ensures Receive(IncomingFile(name, mimetype, 5242880), now).Stored?
    ensures Receive(IncomingFile(name, mimetype, 5242881), now) == FileTooLarge
  {
  }
}

=== FILE: wishlist.dfy ===
/**
 * The product tiles of the mobile client: the wishlist heart of
 * Frontend/components/cards/product.card.tsx and
 * Frontend/components/home/products.tsx (both use the same toggle), and the
 * discount badge each of them computes.
 *
 * The wishlist store's `addToWishlist`/`removeFromWishlist` are not part of this
 * model: the toggle is modelled up to the call it makes. Prices are JSON numbers,
 * taken as integers, or missing.
 */
module Wishlist {
  import opened Wrappers
  import opened Js

  /** The product fields a tile reads; `shop` is `product.shop?._id`, absent when there is no shop object. */
  datatype Product = Product(
    id: Val, slug: Val, name: Val,
    discountPrice: Option<int>, originalPrice: Option<int>,
    images: Option<seq<Val>>, shopId: Val, shop: Option<Val>)

  /** A wishlist entry as the store keeps it. */
  datatype Item = Item(id: Val, slug: Val, title: Val, price: Val, image: Val, shopId: Val)

  /** A price as a JavaScript value: a number, or `undefined` when missing. */
  function PriceVal(p: Option<int>): Val {
    if p.Some? then Num(p.value) else Undefined
  }

  /** `product.images?.[0]`. */
  function FirstImage(images: Option<seq<Val>>): Val {
    if images.Some? && |images.value| > 0 then images.value[0] else Undefined
  }

  /** `product.shop?._id`. */
  function ShopRef(shop: Option<Val>): Val {
    if shop.Some? then shop.value else Undefined
  }

  /** `wishlist.some((item) => item.id === productId)`. */
  predicate IsInWishlist(wishlist: seq<Item>, productId: Val) {
    exists k :: 0 <= k < |wishlist| && wishlist[k].id == productId
  }

  /** The card's `isInWishlistFn`: false for a missing or empty id before looking. */
  predicate IsInWishlistFn(wishlist: seq<Item>, productId: Val) {
    Truthy(productId) && IsInWishlist(wishlist, productId)
  }

  /** The call a tap on the heart makes. */
  datatype Toggle = PleaseLogin | RemoveItem(productId: Val) | AddItem(item: Item)

  /** The entry `addToWishlist` is given, each field with its fallback. */
  function NewItem(p: Product): (it: Item)
    ensures it.id == p.id
    ensures it.slug == (if Truthy(p.slug) then p.slug else p.id)
    ensures it.title == p.name
    ensures it.price == (if p.discountPrice.Some? && p.discountPrice.value != 0 then Num(p.discountPrice.value)
                         else PriceVal(p.originalPrice))
    ensures Truthy(it.image) || it.image == Str("")
    ensures Truthy(it.image) ==> p.images.Some? && |p.images.value| > 0 && it.image == p.images.value[0]
    ensures it.shopId == (if Truthy(p.shopId) then p.shopId else ShopRef(p.shop))
  {
    Item(p.id, Or(p.slug, p.id), p.name,
         Or(PriceVal(p.discountPrice), PriceVal(p.originalPrice)),
         Or(FirstImage(p.images), Str("")),
         Or(p.shopId, ShopRef(p.shop)))
  }

  /** `handleWishlistToggle`: log in first; then remove if present, otherwise add. */
  function HandleToggle(loggedIn: bool, wishlist: seq<Item>, p: Product): (t: Toggle)
    ensures t.PleaseLogin? <==> !loggedIn
    ensures t.RemoveItem? <==> loggedIn && IsInWishlist(wishlist, p.id)
    ensures t.RemoveItem? ==> t.productId == p.id
    ensures t.AddItem? ==> t.item == NewItem(p) && !IsInWishlist(wishlist, t.item.id)
  {
    if !loggedIn then PleaseLogin
    else if IsInWishlist(wishlist, p.id) then RemoveItem(p.id)
    else AddItem(NewItem(p))
  }

  // ---------------------------------------------------------------- discount badge

  /** `Math.round`: to the nearest integer, halves upwards. */
  function Round(x: real): (n: int)
    ensures n as real - 0.5 <= x < n as real + 0.5
  {
    (x + 0.5).Floor
  }

  /** A computed percentage: an integer, or NaN/±Infinity. */
  datatype Percent = Whole(p: int) | NotFinite

  /** `Math.round(((orig - disc) / orig) * 100)` for a present, non-zero discount price. */
  function Reduction(originalPrice: Option<int>, discountPrice: int): (r: Percent)
    ensures r.NotFinite? <==> originalPrice.None? || originalPrice.value == 0
  {
    if originalPrice.None? || originalPrice.value == 0 then NotFinite
    else
      var o := originalPrice.value;
      Whole(Round((o - discountPrice) as real / o as real * 100.0))
  }

  /** The card: 0 when there is no discount price, otherwise the rounded reduction. */
  function CardDiscount(p: Product): (r: Percent)
    ensures p.discountPrice.None? || p.discountPrice.value == 0 ==> r == Whole(0)
  {
    if p.discountPrice.None? || p.discountPrice.value == 0 then Whole(0)
    else Reduction(p.originalPrice, p.discountPrice.value)
  }

  /** The home section: 0 unless both prices are present and non-zero. */
  function HomeDiscount(p: Product): (r: Percent)
    ensures r.Whole?
    ensures (p.discountPrice.None? || p.discountPrice.value == 0 || p.originalPrice.None? || p.originalPrice.value == 0)
            ==> r == Whole(0)
  {
    if p.discountPrice.None? || p.discountPrice.value == 0 || p.originalPrice.None? || p.originalPrice.value == 0
    then Whole(0)
    else Reduction(p.originalPrice, p.discountPrice.value)
  }

  /** `discountPercentage > 0 && (...)`: the badge is drawn only for a positive percentage. */
  predicate ShowsBadge(r: Percent) {
    r.Whole? && r.p > 0
  }

  // ---------------------------------------------------------------- properties

  /** The toggle removes exactly when the home section draws the heart filled. */
  lemma {:induction false} ToggleMatchesHeart(wishlist: seq<Item>, p: Product)
    ensures HandleToggle(true, wishlist, p).RemoveItem? <==> IsInWishlist(wishlist, p.id)
    ensures Truthy(p.id) ==> (HandleToggle(true, wishlist, p).RemoveItem? <==> IsInWishlistFn(wishlist, p.id))
  {
  }

  /** On the card, a product without an id can be removed by a tap although its heart is drawn empty. */
  lemma {:induction false} CardHeartDisagreesWithoutId(wishlist: seq<Item>, p: Product)
    requires p.id == Undefined
    requires exists k :: 0 <= k < |wishlist| && wishlist[k].id == Undefined
    ensures !IsInWishlistFn(wishlist, p.id)
    ensures HandleToggle(true, wishlist, p) == RemoveItem(Undefined)
  {
  }

  /** The card and the home section draw the badge for exactly the same products, with the same number. */
  lemma {:induction false} BadgesAgree(p: Product)
    ensures ShowsBadge(CardDiscount(p)) <==> ShowsBadge(HomeDiscount(p))
    ensures ShowsBadge(CardDiscount(p)) ==> CardDiscount(p) == HomeDiscount(p)
  {
  }

  /** A discount price between 0 and the original price gives a percentage between 0 and 100. */
  lemma {:induction false} ReductionBounds(o: int, d: int)
    requires 0 <= d <= o && o > 0
    ensures var r := Reduction(Some(o), d); r.Whole? && 0 <= r.p <= 100
    ensures Reduction(Some(o), o) == Whole(0)
  {
    var x := (o - d) as real / o as real * 100.0;
    FractionBetween(o - d, o);
    assert 0.0 <= x <= 100.0;
    assert (o - o) as real / o as real * 100.0 == 0.0;
  }

  lemma {:induction false} FractionBetween(a: int, b: int)
    requires 0 <= a <= b && b > 0
    ensures 0.0 <= a as real / b as real <= 1.0
  {
  }

  /**
   * The badge appears iff the reduction is at least half a percent:
   * `200 * (o - d) >= o`, for a positive original price and a non-zero discount price.
   */
  lemma {:induction false} BadgeThreshold(o: int, d: int)
    requires o > 0 && d != 0
    ensures ShowsBadge(Reduction(Some(o), d)) <==> 200 * (o - d) >= o
  {
    var x := (o - d) as real / o as real * 100.0;
    assert Reduction(Some(o), d) == Whole(Round(x));
    ScaledFraction(o - d, o);
    ThresholdCore(o - d, o, x);
    RoundPositive(x);
  }

  /** With `x * b == 100 * a`: `x` is at least one half iff `200 * a >= b`. */
  lemma {:induction false} ThresholdCore(a: int, b: int, x: real)
    requires b > 0 && x * b as real == (a * 100) as real
    ensures x >= 0.5 <==> 200 * a >= b
  {
    var y := b as real;
    var m := (a * 100) as real;
    HalfThreshold(x, y);
    assert m >= 0.5 * y <==> 200 * a >= b;
  }

  lemma {:induction false} RoundPositive(x: real)
    ensures Round(x) > 0 <==> x >= 0.5
  {
  }

  lemma {:induction false} ScaledFraction(a: int, b: int)
    requires b > 0
    ensures (a as real / b as real * 100.0) * b as real == (a * 100) as real
  {
  }

  lemma {:induction false} HalfThreshold(x: real, y: real)
    requires y > 0.0
    ensures x * y >= 0.5 * y <==> x >= 0.5
  {
    if x >= 0.5 {
      assert (x - 0.5) * y >= 0.0;
    } else {
      assert (0.5 - x) * y > 0.0;
    }
  }
}

=== FILE: wrappers.dfy ===
/** The optional-value datatype shared by every module of the model. */
module Wrappers {

  /** A value that may be absent: `undefined`/`null` on the JavaScript side. */
  datatype Option<+T> = None | Some(value: T) {

    /** The value, or `default` when absent (JavaScript `x ?? default`). */
    function GetOr(default: T): T {
      match this
      case Some(v) => v
      case None => default
    }
  }
}
